=== FILE: README.md ===
# Invoice normalisation core of rechung-zugferd, in Dafny

This project models the deterministic core of the rechung-zugferd invoice pipeline and proves properties of that model. The core sits between the untrusted draft an LLM extracts from a document and the ZUGFeRD / XRechnung renderers. It covers:

- **Normalisation** (`validate_and_normalize`), in module `Normalizer`:
  - the draft is a JSON-like value (`Json.Json`); a draft that is not an object is rejected;
  - every line amount is recomputed as round-half-up(menge × einzelpreis_netto) to cents;
  - the VAT breakdown is rebuilt. Line items are grouped by (kategorie, satz) in first-seen order, and both running sums are re-rounded after each line (module `Vat`);
  - the net, VAT, gross and payable totals are derived and merged back into the draft;
  - the business rules run;
  - the draft is bound to the typed record.
- **Business rules** (`check_basic`, module `Regeln`):
  - the invoice-type whitelist;
  - a non-empty line list;
  - per-line non-negativity of quantity, then unit price, then line amount.
  
  The first violation aborts.
- **Canonical record** (module `RechnungModel`):
  - the Pydantic classes as datatypes;
  - `BindRechnung` as a fallible bind reporting the field path of the first failure. Pydantic v2 semantics: `Optional` without a default must be present but may be null, the currency defaults to "EUR", and the country code has exactly 2 characters;
  - the JSON form of a record, with a round trip proved.
- **Exporters** (`map_to_cii`, `_party`, `map_to_ubl`):
  - modules `Export` (the shared pieces: type code 380/381, the tax-ID fallback, line IDs), `CiiMapper` and `UblMapper`;
  - every nested dictionary becomes a record, paired with readers that recover the invoice's parts from it.
- **Text helpers**:
  - `sanitize_text` and the suffix dispatch of `extract_raw_text_to_file` (module `RawText`, with Python's `str.splitlines` and `str.strip` in `RawText` and `Strings`);
  - the `_needs_ocr` heuristic and the OCR fallback of `extract_pdf_text` (module `PdfExtractor`).

Supporting modules:
- `Wrappers`: `Option`, `Result` and `Outcome`.
- `Money`: exact round-half-up to cents.
- `IsoDate`: ISO dates, with `isoformat` and its parser proved inverse.
- `NormalizerFacts` and `ExportFacts`: the lemmas that relate several operations.

Models of the source's behaviour:
- Money is exact (`real`). Rounding is ROUND_HALF_UP, ties away from zero.
- Python exceptions are `Json.Error` constructors, returned through `Result`:
  - the `ValueError`s of the rules;
  - `AttributeError` / `TypeError` on a container of the wrong kind, as `WrongShape`;
  - a failing `float(...)`, as `NotNumeric`;
  - Pydantic's validation error, as `Binding(loc, fault)`.
- `check_basic` is a pure function. It cannot mutate its input, just as the source never writes to it.
- A text with exactly 50 alphanumeric characters does not need OCR; one with 49 does (`NeedsOcr` compares with `<`).

## Model

| member | source | states |
|---|---|---|
| Money.Round | app/services/llm/normalizer.py:9-13 | the result is a whole number of cents within 0.005 of the input, a tie going away from zero, and it keeps the sign |
| Money.RoundUnique | app/services/llm/normalizer.py:12-13 | any whole-cent value meeting the rounding conditions is the rounded value: the rounding rule determines `_round` completely |
| Money.RoundOfCents | app/services/llm/normalizer.py:12-13 | rounding an amount that already has two decimals returns it unchanged |
| Normalizer.LineNet | app/services/llm/normalizer.py:18-20 | a recomputed line amount is whole cents, and non-negative when quantity and price are |
| Normalizer.RecalcPosition | app/services/llm/normalizer.py:17-21 | one line item: succeeds exactly when it is an object whose quantity and price (missing = 0) convert with `float`. Afterwards its amount is the rounded product, and no other key changes. Failures are NotNumeric, or WrongShape for a non-object |
| Normalizer.RecalcPositions | app/services/llm/normalizer.py:16-21 | every line item is recomputed in place, in order, and none is added or dropped. Every other key of the draft is untouched. It fails exactly when some item fails |
| Normalizer.TaxLineOf | app/services/llm/normalizer.py:26-32 | a line's bucket key is (kategorie, default "S"; satz, default 0), and its basis is its line amount; a missing `umsatzsteuer` means ("S", 0) |
| Normalizer.RecalcSummen | app/services/llm/normalizer.py:39-53 | gross is net plus tax, payable equals gross, all are whole cents; the bucket keys are distinct; there are no buckets exactly when there are no line items |
| Normalizer.Totals | app/services/llm/normalizer.py:40-50 | gross is net plus tax exactly, the payable amount is gross, and every total is whole cents |
| Normalizer.Merge | app/services/llm/normalizer.py:64-67 | `summen` is always written and binds to the recomputed totals; the breakdown is written only when it is non-empty; no other key changes |
| Normalizer.Normalize | app/services/llm/normalizer.py:60-67 | recalculation fails only with WrongShape or NotNumeric, always writes `summen`, and changes no key besides `positionen`, `summen` and the breakdown |
| Normalizer.CheckAndBind | app/services/llm/normalizer.py:69-78 | a rule violation is reported before any binding error; binding is attempted only when every rule holds, and a success is the bound record of a draft satisfying every rule |
| Normalizer.ValidateAndNormalize | app/services/llm/normalizer.py:56-78 | a non-object draft fails with DraftNotObject before anything else. Conversion and shape errors come from recalculation or from `check_basic` on the recomputed draft, rule errors from `check_basic` on the recomputed draft, and binding errors only after both succeeded |
| NormalizerFacts.RecalcPositionIdempotent | app/services/llm/normalizer.py:16-21 | recomputing a recomputed line item changes nothing |
| NormalizerFacts.RecalcPositionsIdempotent | app/services/llm/normalizer.py:16-21 | recomputing a recomputed draft changes nothing |
| NormalizerFacts.RecalcSummenOfSamePositions | app/services/llm/normalizer.py:39-53 | the totals and the breakdown depend on the line items alone |
| NormalizerFacts.MergeFixpoint | app/services/llm/normalizer.py:64-67 | merging the same recomputed values twice is merging them once |
| NormalizerFacts.NormalizeIdempotent | app/services/llm/normalizer.py:60-67 | running recalculation and merge on the already normalised draft yields the identical draft, hence identical totals and breakdown |
| NormalizerFacts.RecalculatedNotNegative | app/domain/rechnung/regeln/en_16931.py:20-26 | a recomputed line item never fails with NegativeAmount: the third check cannot fire before the first two |
| NormalizerFacts.NoNegativeAmountAfterNormalize | app/services/llm/normalizer.py:61-70 | after recalculation `check_basic` never reports a negative line amount |
| NormalizerFacts.BreakdownWrittenWithPositions | app/services/llm/normalizer.py:52 | a normalised draft with line items carries a non-empty breakdown list, no longer than its list of line items |
| NormalizerFacts.PipelineSound | app/services/llm/normalizer.py:56-78 | every accepted invoice is consistent. Each line amount is its rounded product, net is the sum of line amounts, and the tax total is the rounded sum of bucket taxes. Gross is net plus tax and payable is gross. The breakdown is the aggregation of the typed line items. The rules hold on the typed record |
| NormalizerFacts.NetIsSumOfLines | app/services/llm/normalizer.py:40 | the net total of a consistent invoice (every accepted one is) is exactly the sum of its line amounts |
| NormalizerFacts.BreakdownAddsUp | app/services/llm/normalizer.py:32-50 | the breakdown's taxes add up to the tax total and its bases to the net total; gross is net plus tax; payable is gross |
| NormalizerFacts.BreakdownKeysDistinct | app/services/llm/normalizer.py:25-31 | no (kategorie, satz) pair appears twice in the breakdown of a consistent invoice |
| NormalizerFacts.BreakdownCoversPositions | app/services/llm/normalizer.py:26-31 | every breakdown entry's key occurs on a line item, and every line item's key has an entry |
| NormalizerFacts.TaxTotalIsPerLineRounding | app/services/llm/normalizer.py:33-35 | when every line amount and rate is non-negative, the tax total equals the sum of the per-line rounded taxes |
| NormalizerFacts.RoundingLawExample | app/services/llm/normalizer.py:20 | exact half-cent line amounts round up: 3 × 10.005 is recomputed as 30.02 and 3 × 1.005 as 3.02 (the second differs from the source's doubles, see "Left out") |
| Vat.AggregateKeys | app/services/llm/normalizer.py:24-31 | the bucket keys are the line keys, each once, in the order of first occurrence |
| Vat.BucketsOnePerKey | app/services/llm/normalizer.py:24-31 | bucket keys are distinct, exactly the keys of the lines, and ordered by the first line carrying each |
| Vat.AddLine | app/services/llm/normalizer.py:31-35 | a known key keeps the bucket list's keys; a new key opens one bucket at the end, starting from zero. The line's bucket adds the line amount and its tax, each total rounded to cents; every other bucket is unchanged |
| Vat.Aggregate | app/services/llm/normalizer.py:24-36 | there are no more buckets than lines, and no buckets exactly when there are no lines |
| Vat.BucketBases | app/services/llm/normalizer.py:32-34 | with whole-cent line amounts, a bucket's basis is the exact sum of its lines' amounts |
| Vat.TotalBasis | app/services/llm/normalizer.py:34 | with whole-cent line amounts, the bucket bases sum to the sum of all line amounts |
| Vat.BucketTaxes | app/services/llm/normalizer.py:33-35 | for non-negative lines, a bucket's tax is the sum of its lines' individually rounded taxes, non-negative and whole cents |
| Vat.TotalTax | app/services/llm/normalizer.py:33-35 | for non-negative lines, the bucket taxes sum to the sum of all per-line rounded taxes |
| Vat.SameKeyExample | app/services/llm/normalizer.py:24-36 | two "S"/19 lines of 100.00 and 50.00 give one bucket: basis 150.00, tax 28.50 |
| Regeln.CheckBasic | app/domain/rechnung/regeln/en_16931.py:4-26 | a `dokument` that is not an object fails with WrongShape, before the line items are looked at. A missing `dokument` or a type outside the whitelist fails with the type error whatever the line items. A whitelisted type with a missing or empty line list fails with NoPositions, and NoPositions is reported only in that case. An unhashable type, or a truthy `positionen` that is not a list, fails with WrongShape; the type error is reported only for a hashable, rejected type. Once the type is whitelisted and the list is non-empty, the outcome is exactly that of checking the line items in order (`CheckPositions`). A pass means a whitelisted type and a non-empty list |
| Regeln.CheckPosition | app/domain/rechnung/regeln/en_16931.py:20-26 | a non-object fails with WrongShape. The quantity decides first: its conversion error or NegativeQuantity, whatever the later fields hold. Once it is an acceptable number, the price decides the same way (NegativePrice). Once both are acceptable, the amount does (NegativeAmount). Conversely, NegativePrice and NegativeAmount are reported only after the earlier fields passed |
| Regeln.CheckPositions | app/domain/rechnung/regeln/en_16931.py:20-26 | a failure of the list is always one of the per-item errors (shape, conversion or a negative field) |
| Regeln.CheckPositionPassIff | app/domain/rechnung/regeln/en_16931.py:20-26 | one line item passes exactly when quantity, price and amount (missing = 0) convert and none is negative |
| Regeln.CheckPositionsFirstFailure | app/domain/rechnung/regeln/en_16931.py:20-26 | the list fails with `e` exactly when some item fails with `e` and every item before it passes |
| Regeln.CheckPositionsPassIff | app/domain/rechnung/regeln/en_16931.py:20-26 | the list passes exactly when every item passes |
| Regeln.CheckBasicPassIff | app/domain/rechnung/regeln/en_16931.py:4-26 | `check_basic` passes exactly on drafts with a whitelisted type, a non-empty line list and every line passing |
| Regeln.ZeroAndMissingPass | app/domain/rechnung/regeln/en_16931.py:21-26 | the checks are strict: zero and missing values pass |
| Regeln.CurrencyIgnored | app/domain/rechnung/regeln/en_16931.py:7-10 | changing the currency never changes the outcome: the EUR rule is disabled |
| RechnungModel.BindAnschrift | app/domain/rechnung_model.py:6-10 | all four fields are required strings, carried over unchanged, and `land` has exactly two characters, so a given "DEU" is rejected (there is no default country) |
| RechnungModel.BindDokument | app/domain/rechnung_model.py:13-18 | number and type are required strings carried over. The invoice date is the parse of the given ISO string; the due date must be present, is None exactly when null, and otherwise is the parse of the given string. The currency is the given string, or "EUR" when absent |
| RechnungModel.BindPartei | app/domain/rechnung_model.py:21-25 | the name is a present string; the nullable tax IDs must be present and are carried over (null as None); the address binds recursively at path `anschrift` |
| RechnungModel.BindUmsatzsteuerPosition | app/domain/rechnung_model.py:28-30 | both fields are required; the category is the given string and the rate the `float` conversion of the given value |
| RechnungModel.BindPosition | app/domain/rechnung_model.py:33-40 | every field is required. The position number is the `int` coercion of the given value; description and unit are the given strings; the amounts are `float` conversions of the given values; the VAT sub-record binds recursively |
| RechnungModel.BindAufschluesselung | app/domain/rechnung_model.py:43-47 | all four fields are required and carried over |
| RechnungModel.BindSummen | app/domain/rechnung_model.py:50-54 | all four totals are required and are the `float` conversions of the given values |
| RechnungModel.BindZahlung | app/domain/rechnung_model.py:57-60 | all three fields are required; the payment type is the given string, and IBAN and BIC are carried over, null as None |
| RechnungModel.BindBemerkung | app/domain/rechnung_model.py:63-64 | the text is required and is the given string |
| RechnungModel.BindList | app/domain/rechnung_model.py:71 | a list binds exactly when every element binds at its index path, in order; a failure is some element's failure |
| RechnungModel.BindRechnung | app/domain/rechnung_model.py:67-75 | every field is required (the optional lists may be null). Each part of a success is the binding of the matching field at its own path: document, seller, buyer, line items, breakdown, totals, payment and remarks. A success is well formed; every failure is a binding error; there are no partial records |
| RechnungModel.RechnungRoundTrip | app/domain/rechnung_model.py:67-75 | the JSON form of a well-formed record binds back to exactly that record |
| RechnungModel.PositionRoundTrip | app/domain/rechnung_model.py:33-40 | the JSON form of a line item binds back to it |
| IsoDate.ParseIsoFormat | app/services/export/zugferd/cii_mapper.py:56 | `isoformat` of a valid date parses back to the date |
| IsoDate.IsoFormatOfParse | app/services/export/zugferd/cii_mapper.py:56 | a parsable date string is the `isoformat` of its parse |
| Export.TypeCode | app/services/export/zugferd/cii_mapper.py:6 | the type code is 380 exactly for "RECHNUNG" and 381 for every other type; for the two whitelisted types the code determines the type again |
| Export.TaxId | app/services/export/zugferd/cii_mapper.py:15 | the tax number if non-empty, else the VAT ID if non-empty, else "" (and "" only then); so the exported ID is always one of the party's own identifiers, or empty |
| Export.LineId | app/services/export/zugferd/cii_mapper.py:29 | the line ID parses back to the position number and is its canonical `str` notation: it starts with `-` exactly when the number is negative, the digits after the sign are non-empty with no leading zero unless they are `0`, and it is never `-0`. No other canonical string reads back as the same number, which `Strings.CanonicalIntUnique` proves |
| Strings.CanonicalIntUnique | app/services/export/zugferd/cii_mapper.py:29 | `str(int(s)) == s` for every canonical integer notation `s`, so two different canonical line IDs never name the same position number |
| CiiMapper.MapToCii | app/services/export/zugferd/cii_mapper.py:5-73 | constant context; type code 380/381; the issue date parses back to the invoice date; seller and buyer name and address read back; the seller tax ID uses the fallback. One line per position in order, each reading back to its position. One subtotal per breakdown entry in order (none when absent). Totals read back to `summen`. IBAN and BIC are "" when absent |
| UblMapper.PartyOf | app/services/export/xrechnung/ubl_mapper.py:5-17 | name and address read back to the party's, and the company ID uses the tax-ID fallback |
| UblMapper.MapToUbl | app/services/export/xrechnung/ubl_mapper.py:20-71 | constant customization and profile IDs; type code 380/381; the date parses back; supplier and customer both via the party mapping. Tax amount, net, tax-exclusive, tax-inclusive and payable come from `summen`. One subtotal per breakdown entry and one line per position, in order, each reading back |
| ExportFacts.CiiUblAgree | app/services/export/xrechnung/ubl_mapper.py:20-71 | both exports carry the same type code, date, seller tax ID, lines, subtotals and totals |
| ExportFacts.CiiOfAcceptedAddsUp | app/services/export/zugferd/cii_mapper.py:39-67 | for an accepted invoice the CII type code names the type again, and there are lines and subtotals. The subtotals add up to the tax and net totals, grand total is net plus tax, and payable is the grand total |
| ExportFacts.UblOfAcceptedAddsUp | app/services/export/xrechnung/ubl_mapper.py:60-69 | for an accepted invoice tax-inclusive is tax-exclusive plus tax, payable is tax-inclusive, and line extension equals tax-exclusive |
| RawText.Sanitize | app/services/extraction/raw_text.py:42-45 | the sanitised text has no surrounding whitespace |
| RawText.SanitizedLines | app/services/extraction/raw_text.py:42-45 | the lines of the sanitised text are the stripped input lines without leading and trailing blank lines. No line has surrounding whitespace |
| RawText.SanitizeIdempotent | app/services/extraction/raw_text.py:42-45 | sanitising twice is sanitising once |
| RawText.SanitizeKeepsLines | app/services/extraction/raw_text.py:44-45 | the output lines are one contiguous run of the stripped input lines, in order, with only blank lines dropped around it |
| RawText.Suffix | app/services/extraction/raw_text.py:19 | the suffix of a path is empty or a dot followed by at least one character, none of them a dot or a path separator |
| RawText.ClassifySuffix | app/services/extraction/raw_text.py:19-33 | an unsupported suffix fails with an error naming it in lower case |
| RawText.ClassifyTable | app/services/extraction/raw_text.py:11-33 | ".pdf" goes to the PDF extractor, the six image suffixes to OCR, ".docx" and ".xlsx" to their extractors, ".txt" and ".csv" are read directly, anything else fails; the comparison ignores case |
| RawText.ClassifyIgnoresCase | app/services/extraction/raw_text.py:19 | a suffix and its lower-case spelling are classified alike |
| RawText.ExtractRawText | app/services/extraction/raw_text.py:14-38 | fails exactly for an unsupported suffix, naming it in lower case; otherwise the text is the sanitised extractor output |
| RawText.WrittenTextIsClean | app/services/extraction/raw_text.py:35-38 | the text written is already sanitised, with no surrounding whitespace |
| PdfExtractor.AlnumCount | app/services/extraction/pdf_extractor.py:19 | the count never exceeds the text's length, and equals it exactly when every character is alphanumeric |
| PdfExtractor.NeedsOcr | app/services/extraction/pdf_extractor.py:17-20 | a text shorter than 50 characters, or one without a single alphanumeric character, always needs OCR |
| PdfExtractor.PdfText | app/services/extraction/pdf_extractor.py:9-14 | the joined text's alphanumeric count is the sum of the pages' counts (a page without text counts as "") |
| PdfExtractor.AlnumCountAppend | app/services/extraction/pdf_extractor.py:19 | the alphanumeric count of a concatenation is the sum of the counts |
| PdfExtractor.AlnumCountZero | app/services/extraction/pdf_extractor.py:19 | the count is zero exactly when no character is alphanumeric |
| PdfExtractor.NeedsOcrAntitone | app/services/extraction/pdf_extractor.py:17-20 | appending text never turns "no OCR needed" into "OCR needed" |
| PdfExtractor.PaddingIrrelevant | app/services/extraction/pdf_extractor.py:17-20 | appending non-alphanumeric characters never changes the decision |
| PdfExtractor.JoinAlnum | app/services/extraction/pdf_extractor.py:9-14 | the document's count is the sum of its pages' counts: the "\n" separators add nothing |
| PdfExtractor.RichPageSkipsOcr | app/services/extraction/pdf_extractor.py:9-20 | one page with 50 alphanumeric characters is enough for the whole PDF to skip OCR |
| PdfExtractor.ExtractPdfText | app/services/extraction/pdf_extractor.py:39-51 | the result is the PDF's own text or the OCR text, and it is the OCR text only when OCR was needed and succeeded |
| PdfExtractor.OcrIrrelevantWhenTextRich | app/services/extraction/pdf_extractor.py:41-42 | a text-rich PDF is returned as it is, whatever OCR would produce |
| PdfExtractor.FailedOcrKeepsText | app/services/extraction/pdf_extractor.py:48-50 | a failed OCR run keeps the original text |
| PdfExtractor.OcrTextReplaces | app/services/extraction/pdf_extractor.py:41-49 | when OCR is needed and succeeds its text replaces the original |
| PdfExtractor.OcrMayLoseText | app/services/extraction/pdf_extractor.py:41-49 | the OCR text is not compared with the original: a page "abc" can become "" |

## Left out

- Floating point. The source multiplies and adds IEEE doubles, then rounds through `Decimal(str(v))`. The model uses exact decimals. So where a float product lands just below a tie, the source and the model round differently. In doubles 3 × 1.005 is 3.0149999999999997, which the source rounds to 3.01, while the model gives 3.02. Likewise 3 × 2.675 is 8.024999999999999 in doubles: the source gives 8.02 and the model 8.03. Products whose shortest double form is the exact tie, such as 3 × 10.005 = 30.015, round the same in both.
- Money.Round: is total, but `_round` is not. It quantizes in Decimal's default 28-digit context. So any amount of magnitude 1e26 or more, whose cent value needs 29 digits, raises `decimal.InvalidOperation`. So does an infinite value, such as the double product of a `menge` of 1e200 and an `einzelpreis_netto` of 1e200. The model rounds every real, so `Normalizer.LineNet`, the totals and `Normalizer.ValidateAndNormalize` accept such drafts where the source raises.
- `float(...)` and Pydantic lax coercion of strings accept plain decimal notation only. Exponents, "inf", "nan", underscores and surrounding-whitespace variants beyond `str.strip` are not modelled. Booleans convert to 0 and 1.
- Binding failures report the first failing field path with a coarse fault kind. Pydantic collects every error and formats messages; the model does neither.
- Date binding accepts `YYYY-MM-DD` with years 1 to 9999 only, not the other formats Pydantic accepts. Date objects in the draft are not modelled, since the draft is JSON.
- Dicts are modelled as maps. Python's key-insertion order of the draft and of the output dictionaries is not represented. Breakdown order is modelled through the bucket sequence.
- The exporters' nested single-key wrappers (`{"Party": …}`, `{"IdentificationCode": …}`, `{"value": …, "unitCode": …}`) are flattened into record fields.
- `IsAlnum` follows Python's `str.isalnum` exactly up to U+00FF. Characters above U+00FF count as non-alphanumeric.
- `LowerAscii` lower-cases ASCII letters only. Non-ASCII suffixes are compared as written.
- `Strings.IsSpace` covers Python's whitespace set, but `str.splitlines` and `str.strip` are otherwise modelled on code points without Unicode normalisation.
- Paths are split at the last '/'. No normalisation (trailing slashes, "." and "..", Windows separators) is modelled.
- All I/O is a parameter or omitted:
  - reading the PDF (pages come in as their extracted `Option<string>` text);
  - running `ocrmypdf` (its outcome is an `Option` of recognised pages), including its flag combination and temp directory;
  - the image, docx and xlsx extractors and the text-file read (one function parameter);
  - `mkdir`, `print`, writing `raw_text.txt`, and logging.
- The LLM extraction, the XML writers, the PDF/A-3 composer, the FastAPI app, the storage layer and the UI are not part of this model.
- Normalizer.TaxLineOf: bucket keys compare the JSON category structurally. Python's dict treats `True`, `1` and `1.0` as one key, since they are equal and hash alike. So one line with category `true` and another with `1` at the same rate share a bucket in the source, labelled with the first one seen, but make two buckets in the model. Either draft is then rejected by binding, which accepts string categories only, so accepted invoices are unaffected.
- RechnungModel.BindList: the error is some element's error at its index. That it is the first failing element is proved for the rule checks (`Regeln.CheckPositionsFirstFailure`) but not stated for binding.
- Behaviour a reader might expect but the code does not have:
  - no default country code;
  - the bucket tax is rounded after adding the unrounded line tax, which for non-negative lines equals summing per-line rounded taxes (`NormalizerFacts.TaxTotalIsPerLineRounding`);
  - a non-empty line list is a business rule and not a binding rule;
  - the currency rule is disabled.

=== FILE: cii_mapper.dfy ===
/**
  `map_to_cii`: the canonical invoice as the flat dictionary the ZUGFeRD
  (UN/CEFACT Cross Industry Invoice) writer renders. Every nested dict of
  the source is a record here, one field per key.
*/
module CiiMapper {
  import opened Wrappers
  import opened Strings
  import opened IsoDate
  import opened RechnungModel
  import opened Export

  /** EN 16931 specification identifier and the profile name. */
  const GuidelineId := "urn:cen.eu:en16931:2017"
  const ProfileName := "EN16931"

  datatype Context = Context(guidelineId: string, profile: string)

  datatype Document = Document(id: string, typeCode: string, issueDate: string, currency: string)

  datatype Party = Party(name: string, street: string, city: string, zip: string, country: string)

  /** Only the seller carries a tax ID. */
  datatype Parties = Parties(seller: Party, sellerTaxId: string, buyer: Party)

  datatype Line = Line(
    lineId: string,
    productName: string,
    quantity: real,
    unitCode: string,
    netAmount: real,
    netPrice: real,
    taxCategory: string,
    taxPercent: real)

  datatype TaxSubtotal = TaxSubtotal(category: string, percent: real, basis: real, amount: real)

  datatype Totals = Totals(
    taxSubtotals: seq<TaxSubtotal>,
    taxTotal: real,
    lineNetTotal: real,
    grandTotal: real,
    payableAmount: real)

  datatype Payment = Payment(paymentType: string, iban: string, bic: string)

  datatype Invoice = Invoice(
    context: Context,
    document: Document,
    parties: Parties,
    lines: seq<Line>,
    totals: Totals,
    payment: Payment)

  // ---------------------------------------------------------------------
  // Reading the dictionary back

  /** The position a line describes; None when the line ID is not a decimal integer. */
  function PositionOf(l: Line): Option<Rechnungsposition> {
    match ParseInt(l.lineId)
    case None => None
    case Some(n) =>
      Some(Rechnungsposition(n, l.productName, l.quantity, l.unitCode, l.netPrice, l.netAmount,
                             UmsatzsteuerPosition(l.taxCategory, l.taxPercent)))
  }

  function EntryOf(t: TaxSubtotal): UmsatzsteuerAufschluesselung {
    UmsatzsteuerAufschluesselung(t.category, t.percent, t.basis, t.amount)
  }

  function SummenOf(t: Totals): Summen {
    Summen(t.lineNetTotal, t.taxTotal, t.grandTotal, t.payableAmount)
  }

  function AnschriftOf(p: Party): Anschrift {
    Anschrift(p.street, p.zip, p.city, p.country)
  }

  // ---------------------------------------------------------------------
  // map_to_cii

  function PartyOf(p: Partei): (c: Party)
    ensures c.name == p.name && AnschriftOf(c) == p.anschrift
  {
    Party(p.name, p.anschrift.strasse, p.anschrift.ort, p.anschrift.plz, p.anschrift.land)
  }

  /** One line item; every field but the number is copied unchanged. */
  function LineOf(p: Rechnungsposition): (l: Line)
    ensures PositionOf(l) == Some(p)
  {
    Line(LineId(p.positionsnummer), p.beschreibung, p.menge, p.einheit, p.positionsbetragNetto,
         p.einzelpreisNetto, p.umsatzsteuer.kategorie, p.umsatzsteuer.satz)
  }

  function SubtotalOf(a: UmsatzsteuerAufschluesselung): (t: TaxSubtotal)
    ensures EntryOf(t) == a
  {
    TaxSubtotal(a.kategorie, a.satz, a.steuerbasisbetrag, a.steuerbetrag)
  }

  /** The `for pos in rechnung.positionen` loop: one line per position, in order. */
  function Lines(ps: seq<Rechnungsposition>): (ls: seq<Line>)
    ensures |ls| == |ps| && forall i :: 0 <= i < |ps| ==> PositionOf(ls[i]) == Some(ps[i])
  {
    seq(|ps|, i requires 0 <= i < |ps| => LineOf(ps[i]))
  }

  /** The breakdown loop: one subtotal per entry, in order. */
  function Subtotals(xs: seq<UmsatzsteuerAufschluesselung>): (ts: seq<TaxSubtotal>)
    ensures |ts| == |xs| && forall i :: 0 <= i < |xs| ==> EntryOf(ts[i]) == xs[i]
  {
    seq(|xs|, i requires 0 <= i < |xs| => SubtotalOf(xs[i]))
  }

  /**
    `map_to_cii(rechnung)`. A bound invoice always has a valid issue date,
    which is all `isoformat` needs.
  */
  function MapToCii(r: Rechnung): (c: Invoice)
    requires ValidDate(r.dokument.rechnungsdatum)
    ensures c.context == Context(GuidelineId, ProfileName)
    ensures c.document.typeCode == TypeCode(r.dokument.rechnungsart)
    ensures c.document.id == r.dokument.rechnungsnummer && c.document.currency == r.dokument.waehrung
    ensures ParseIsoDate(c.document.issueDate) == Some(r.dokument.rechnungsdatum)
    ensures c.parties.seller.name == r.verkaeufer.name && AnschriftOf(c.parties.seller) == r.verkaeufer.anschrift
    ensures c.parties.buyer.name == r.kaeufer.name && AnschriftOf(c.parties.buyer) == r.kaeufer.anschrift
    ensures c.parties.sellerTaxId == TaxId(r.verkaeufer)
    ensures |c.lines| == |r.positionen|
    ensures forall i :: 0 <= i < |r.positionen| ==> PositionOf(c.lines[i]) == Some(r.positionen[i])
    ensures |c.totals.taxSubtotals| == |BreakdownOrEmpty(r)|
    ensures forall i :: 0 <= i < |BreakdownOrEmpty(r)| ==> EntryOf(c.totals.taxSubtotals[i]) == BreakdownOrEmpty(r)[i]
    ensures SummenOf(c.totals) == r.summen
    ensures c.payment.paymentType == r.zahlung.zahlungsart
    ensures c.payment.iban == (if r.zahlung.iban.Some? then r.zahlung.iban.value else "")
    ensures c.payment.bic == (if r.zahlung.bic.Some? then r.zahlung.bic.value else "")
  {
    ParseIsoFormat(r.dokument.rechnungsdatum);
    OrEmpty(r.zahlung.iban);
    OrEmpty(r.zahlung.bic);
    Invoice(
      Context(GuidelineId, ProfileName),
      Document(r.dokument.rechnungsnummer, TypeCode(r.dokument.rechnungsart),
               IsoFormat(r.dokument.rechnungsdatum), r.dokument.waehrung),
      Parties(PartyOf(r.verkaeufer), TaxId(r.verkaeufer), PartyOf(r.kaeufer)),
      Lines(r.positionen),
      Totals(Subtotals(BreakdownOrEmpty(r)), r.summen.gesamtUmsatzsteuer, r.summen.gesamtNetto,
             r.summen.gesamtBrutto, r.summen.zahlbetrag),
      Payment(r.zahlung.zahlungsart, OrElse(r.zahlung.iban, ""), OrElse(r.zahlung.bic, "")))
  }
}

=== FILE: export.dfy ===
/**
  What the CII and the UBL mapper share: the invoice type code, Python's
  `a or b` on optional strings with the tax-ID fallback built from it, and
  the decimal line identifier.
*/
module Export {
  import opened Wrappers
  import opened Strings
  import opened RechnungModel

  /** UNTDID 1001 code: 380 for an invoice; every other type is exported as a credit note, 381. */
  function TypeCode(rechnungsart: string): (c: string)
    ensures c == "380" || c == "381"
    ensures c == "380" <==> rechnungsart == "RECHNUNG"
    // for the admitted invoice types the code determines the type again
    ensures rechnungsart == "RECHNUNG" || rechnungsart == "GUTSCHRIFT" ==> ArtOfTypeCode(c) == rechnungsart
  {
    if rechnungsart == "RECHNUNG" then "380" else "381"
  }

  /** The invoice type a type code stands for, for the two types the business rules admit. */
  function ArtOfTypeCode(c: string): string {
    if c == "380" then "RECHNUNG" else "GUTSCHRIFT"
  }

  /** Python's `o or fallback` for an `Optional[str]`: both None and "" are falsy. */
  function OrElse(o: Option<string>, fallback: string): (s: string)
    ensures o.Some? && o.value != "" ==> s == o.value
    ensures o.None? || o.value == "" ==> s == fallback
  {
    if o.Some? && o.value != "" then o.value else fallback
  }

  /** `o or ""`: the value when present, "" for None. */
  lemma {:induction false} OrEmpty(o: Option<string>)
    ensures OrElse(o, "") == (if o.Some? then o.value else "")
  {
  }

  /** A string that Python treats as true: present and non-empty. */
  predicate Truthy(o: Option<string>) {
    o.Some? && o.value != ""
  }

  /**
    `p.steuernummer or p.umsatzsteuer_id or ""`: the tax number when it is
    non-empty, else the VAT ID when it is non-empty, else "".
  */
  function TaxId(p: Partei): (id: string)
    ensures Truthy(p.steuernummer) ==> id == p.steuernummer.value
    ensures !Truthy(p.steuernummer) && Truthy(p.umsatzsteuerId) ==> id == p.umsatzsteuerId.value
    ensures id == "" <==> !Truthy(p.steuernummer) && !Truthy(p.umsatzsteuerId)
    // the exported tax ID is always one of the party's own identifiers, or empty
    ensures id == "" || Some(id) == p.steuernummer || Some(id) == p.umsatzsteuerId
  {
    OrElse(p.steuernummer, OrElse(p.umsatzsteuerId, ""))
  }

  /** `str(positionsnummer)`. */
  function LineId(positionsnummer: int): (s: string)
    ensures ParseInt(s) == Some(positionsnummer)
    // the canonical notation: a `-` exactly for negative numbers, then digits without a leading zero
    ensures CanonicalInt(s)
    ensures s[0] == '-' <==> positionsnummer < 0
    // no other canonical string reads back as the same number
    ensures forall t :: CanonicalInt(t) && ParseInt(t) == Some(positionsnummer) ==> t == s
  {
    forall t | CanonicalInt(t) && ParseInt(t) == Some(positionsnummer)
      ensures t == IntString(positionsnummer)
    {
      CanonicalIntUnique(t);
    }
    IntStringRoundTrip(positionsnummer);
    IntString(positionsnummer)
  }

  /** `rechnung.umsatzsteuer_aufschluesselung or []`. */
  function BreakdownOrEmpty(r: Rechnung): (xs: seq<UmsatzsteuerAufschluesselung>)
    ensures r.umsatzsteuerAufschluesselung.None? ==> xs == []
  {
    if r.umsatzsteuerAufschluesselung.Some? then r.umsatzsteuerAufschluesselung.value else []
  }
}

=== FILE: export_facts.dfy ===
/**
  The two exports agree with each other, and an invoice accepted by
  `validate_and_normalize` is exported with totals that add up.
*/
module ExportFacts {
  import opened Wrappers
  import opened Json
  import opened Money
  import opened IsoDate
  import opened RechnungModel
  import opened Normalizer
  import opened NormalizerFacts
  import opened Export
  import Cii = CiiMapper
  import Ubl = UblMapper

  /** CII and UBL carry the same type code, date, seller tax ID, line items, breakdown and totals. */
  lemma {:induction false} CiiUblAgree(r: Rechnung)
    requires ValidDate(r.dokument.rechnungsdatum)
    ensures var c, u := Cii.MapToCii(r), Ubl.MapToUbl(r);
            && c.document.typeCode == u.invoiceTypeCode
            && c.document.issueDate == u.issueDate
            && c.parties.sellerTaxId == u.supplier.companyId
            && |c.lines| == |u.lines|
            && (forall i :: 0 <= i < |c.lines| ==> Cii.PositionOf(c.lines[i]) == Ubl.PositionOf(u.lines[i]))
            && |c.totals.taxSubtotals| == |u.taxTotal.subtotals|
            && (forall i :: 0 <= i < |c.totals.taxSubtotals| ==>
                  Cii.EntryOf(c.totals.taxSubtotals[i]) == Ubl.EntryOf(u.taxTotal.subtotals[i]))
            && c.totals.taxTotal == u.taxTotal.taxAmount
            && c.totals.lineNetTotal == u.monetaryTotal.lineExtensionAmount
            && c.totals.grandTotal == u.monetaryTotal.taxInclusiveAmount
            && c.totals.payableAmount == u.monetaryTotal.payableAmount
  {
    var c, u := Cii.MapToCii(r), Ubl.MapToUbl(r);
    IsoFormatOfParse(c.document.issueDate);
    IsoFormatOfParse(u.issueDate);
  }

  function CiiAmounts(ts: seq<Cii.TaxSubtotal>): (xs: seq<real>)
    ensures |xs| == |ts| && forall i :: 0 <= i < |ts| ==> xs[i] == ts[i].amount
  {
    seq(|ts|, i requires 0 <= i < |ts| => ts[i].amount)
  }

  function CiiBases(ts: seq<Cii.TaxSubtotal>): (xs: seq<real>)
    ensures |xs| == |ts| && forall i :: 0 <= i < |ts| ==> xs[i] == ts[i].basis
  {
    seq(|ts|, i requires 0 <= i < |ts| => ts[i].basis)
  }

  /** A bound invoice has a valid issue date, so it can always be exported. */
  lemma {:induction false} AcceptedIsExportable(draft: Json, r: Rechnung)
    requires ValidateAndNormalize(draft) == Success(r)
    ensures ValidDate(r.dokument.rechnungsdatum)
  {
  }

  /**
    The CII export of an accepted invoice: the type code names the invoice
    type again, there is at least one line and one subtotal, the subtotals
    add up to the tax total and the net total, and gross is net plus tax.
  */
  lemma {:induction false} CiiOfAcceptedAddsUp(draft: Json, r: Rechnung)
    requires ValidateAndNormalize(draft) == Success(r)
    ensures ValidDate(r.dokument.rechnungsdatum)
    ensures var c := Cii.MapToCii(r);
            && ArtOfTypeCode(c.document.typeCode) == r.dokument.rechnungsart
            && |c.lines| > 0 && |c.totals.taxSubtotals| > 0
            && Sum(CiiAmounts(c.totals.taxSubtotals)) == c.totals.taxTotal
            && Sum(CiiBases(c.totals.taxSubtotals)) == c.totals.lineNetTotal
            && c.totals.grandTotal == c.totals.lineNetTotal + c.totals.taxTotal
            && c.totals.payableAmount == c.totals.grandTotal
  {
    AcceptedIsExportable(draft, r);
    PipelineSound(draft, r);
    CiiOfConsistentAddsUp(r);
  }

  lemma {:induction false} CiiOfConsistentAddsUp(r: Rechnung)
    requires Consistent(r) && RulesRespected(r) && ValidDate(r.dokument.rechnungsdatum)
    ensures var c := Cii.MapToCii(r);
            && ArtOfTypeCode(c.document.typeCode) == r.dokument.rechnungsart
            && |c.lines| > 0 && |c.totals.taxSubtotals| > 0
            && Sum(CiiAmounts(c.totals.taxSubtotals)) == c.totals.taxTotal
            && Sum(CiiBases(c.totals.taxSubtotals)) == c.totals.lineNetTotal
            && c.totals.grandTotal == c.totals.lineNetTotal + c.totals.taxTotal
            && c.totals.payableAmount == c.totals.grandTotal
  {
    BreakdownAddsUp(r);
    var c := Cii.MapToCii(r);
    var xs := r.umsatzsteuerAufschluesselung.value;
    BreakdownNotEmpty(r);
    assert CiiAmounts(c.totals.taxSubtotals) == Steuerbetraege(xs);
    assert CiiBases(c.totals.taxSubtotals) == Basisbetraege(xs);
  }

  /** A consistent invoice has a breakdown entry, since it has a line item. */
  lemma {:induction false} BreakdownNotEmpty(r: Rechnung)
    requires Consistent(r)
    ensures |r.umsatzsteuerAufschluesselung.value| > 0
  {
    PositionKeysInEntries(r.positionen, r.umsatzsteuerAufschluesselung.value);
    assert HasEntry(r.umsatzsteuerAufschluesselung.value,
                    r.positionen[0].umsatzsteuer.kategorie, r.positionen[0].umsatzsteuer.satz);
  }

  /** The UBL export of an accepted invoice: tax-inclusive is tax-exclusive plus tax, payable is tax-inclusive. */
  lemma {:induction false} UblOfAcceptedAddsUp(draft: Json, r: Rechnung)
    requires ValidateAndNormalize(draft) == Success(r)
    ensures ValidDate(r.dokument.rechnungsdatum)
    ensures var u := Ubl.MapToUbl(r);
            && ArtOfTypeCode(u.invoiceTypeCode) == r.dokument.rechnungsart
            && u.monetaryTotal.taxInclusiveAmount == u.monetaryTotal.taxExclusiveAmount + u.taxTotal.taxAmount
            && u.monetaryTotal.payableAmount == u.monetaryTotal.taxInclusiveAmount
            && u.monetaryTotal.lineExtensionAmount == u.monetaryTotal.taxExclusiveAmount
  {
    AcceptedIsExportable(draft, r);
    PipelineSound(draft, r);
    BreakdownAddsUp(r);
  }
}

=== FILE: iso_date.dfy ===
/**
  Calendar dates as bound from the draft (`datetime.date`) and written back
  by `date.isoformat()`: the text form is `YYYY-MM-DD`, years 1 to 9999.
*/
module IsoDate {
  import opened Wrappers
  import opened Strings

  datatype Date = Date(year: int, month: int, day: int)

  predicate IsLeapYear(y: int) {
    (y % 4 == 0 && y % 100 != 0) || y % 400 == 0
  }

  function DaysInMonth(y: int, m: int): int
    requires 1 <= m <= 12
  {
    if m == 2 then (if IsLeapYear(y) then 29 else 28)
    else if m == 4 || m == 6 || m == 9 || m == 11 then 30
    else 31
  }

  /** The dates `datetime.date` can represent. */
  predicate ValidDate(d: Date) {
    1 <= d.year <= 9999 && 1 <= d.month <= 12 && 1 <= d.day <= DaysInMonth(d.year, d.month)
  }

  /** `n` as exactly `width` decimal digits, zero-padded on the left. */
  function Padded(n: nat, width: nat): (s: string)
    requires n < Pow10(width)
    ensures |s| == width && AllDigits(s)
    ensures DigitsValue(s) == n
  {
    if width == 0 then ""
    else
      var s := Padded(n / 10, width - 1) + [DigitChar(n % 10)];
      assert s[..|s| - 1] == Padded(n / 10, width - 1);
      s
  }

  /** `date.isoformat()`. */
  function IsoFormat(d: Date): (s: string)
    requires ValidDate(d)
    ensures |s| == 10 && s[4] == '-' && s[7] == '-'
  {
    Padded(d.year, 4) + "-" + Padded(d.month, 2) + "-" + Padded(d.day, 2)
  }

  /** Parse `YYYY-MM-DD`; anything else, or a day that does not exist, is rejected. */
  function ParseIsoDate(s: string): (r: Option<Date>)
    ensures r.Some? ==> ValidDate(r.value)
  {
    if |s| == 10 && s[4] == '-' && s[7] == '-'
       && AllDigits(s[..4]) && AllDigits(s[5..7]) && AllDigits(s[8..])
    then
      var d := Date(DigitsValue(s[..4]), DigitsValue(s[5..7]), DigitsValue(s[8..]));
      if ValidDate(d) then Some(d) else None
    else None
  }

  /** Writing a valid date and reading it back gives the same date. */
  lemma {:induction false} ParseIsoFormat(d: Date)
    requires ValidDate(d)
    ensures ParseIsoDate(IsoFormat(d)) == Some(d)
  {
    var s := IsoFormat(d);
    assert s[..4] == Padded(d.year, 4);
    assert s[5..7] == Padded(d.month, 2);
    assert s[8..] == Padded(d.day, 2);
  }

  /** A fixed-width digit string is the zero-padded form of its value. */
  lemma {:induction false} PaddedOfDigits(s: string)
    requires AllDigits(s)
    ensures DigitsValue(s) < Pow10(|s|)
    ensures Padded(DigitsValue(s), |s|) == s
  {
    if |s| > 0 {
      var init := s[..|s| - 1];
      PaddedOfDigits(init);
      var n := DigitsValue(s);
      var d := s[|s| - 1] as int - '0' as int;
      assert n == DigitsValue(init) * 10 + d;
      assert n / 10 == DigitsValue(init) && n % 10 == d;
      assert s == init + [DigitChar(d)];
    }
  }

  /** Every accepted text is already in the canonical `isoformat` form. */
  lemma {:induction false} IsoFormatOfParse(s: string)
    requires ParseIsoDate(s).Some?
    ensures IsoFormat(ParseIsoDate(s).value) == s
  {
    IsoFormatOfGroups(s[..4], s[5..7], s[8..]);
    DashedParts(s);
  }

  /** Three digit groups of the right widths that make a valid date are that date's `isoformat`. */
  lemma {:induction false} IsoFormatOfGroups(y: string, m: string, dd: string)
    requires AllDigits(y) && |y| == 4 && AllDigits(m) && |m| == 2 && AllDigits(dd) && |dd| == 2
    requires ValidDate(Date(DigitsValue(y), DigitsValue(m), DigitsValue(dd)))
    ensures IsoFormat(Date(DigitsValue(y), DigitsValue(m), DigitsValue(dd))) == y + "-" + m + "-" + dd
  {
    PaddedOfDigits(y);
    PaddedOfDigits(m);
    PaddedOfDigits(dd);
  }

  /** A ten-character text with dashes at 4 and 7 is its three digit groups joined by dashes. */
  lemma {:induction false} DashedParts(s: string)
    requires |s| == 10 && s[4] == '-' && s[7] == '-'
    ensures s == s[..4] + "-" + s[5..7] + "-" + s[8..]
  {
  }
}

=== FILE: json.dfy ===
/**
  The untyped draft: a JSON-shaped value as produced by `json.loads`, and
  the Python operations the normaliser applies to it (`dict.get`, truth
  testing, `float(...)`, iteration).
*/
module Json {
  import opened Wrappers
  import opened Strings

  /** A JSON value; objects are Python dicts keyed by string. */
  datatype Json =
    | JNull
    | JBool(b: bool)
    | JNum(n: real)
    | JStr(s: string)
    | JArr(items: seq<Json>)
    | JObj(fields: map<string, Json>)

  /** Every way the normaliser and the business rules can abort. */
  datatype Error =
    /** The draft is not a mapping (the guard in `validate_and_normalize`). */
    | DraftNotObject
    /** A container of the wrong kind: Python's AttributeError / TypeError. */
    | WrongShape
    /** `float(...)` rejected a value. */
    | NotNumeric
    /** Business rule: invoice type outside the whitelist. */
    | InvalidInvoiceType
    /** Business rule: no line items. */
    | NoPositions
    /** Business rule: a negative quantity. */
    | NegativeQuantity
    /** Business rule: a negative net unit price. */
    | NegativePrice
    /** Business rule: a negative net line amount. */
    | NegativeAmount
    /** Schema binding failed at the field path `loc`. */
    | Binding(loc: seq<string>, fault: BindFault)

  /** Why schema binding rejected a field. */
  datatype BindFault = Missing | WrongType | WrongLength | InvalidDate

  /** `m.get(key, default)`. */
  function Get(m: map<string, Json>, key: string, default: Json): (v: Json)
    ensures key in m ==> v == m[key]
    ensures key !in m ==> v == default
  {
    if key in m then m[key] else default
  }

  /** Python truth testing: `not v`. */
  predicate Falsy(v: Json) {
    match v
    case JNull => true
    case JBool(b) => !b
    case JNum(n) => n == 0.0
    case JStr(s) => |s| == 0
    case JArr(items) => |items| == 0
    case JObj(fields) => |fields| == 0
  }

  /** Usable as a dict key or set member (lists and dicts are unhashable). */
  predicate Hashable(v: Json) {
    !v.JArr? && !v.JObj?
  }

  /**
    `float(v)`: numbers as they are, booleans as 0 or 1, strings in plain
    decimal notation; anything else is rejected.
  */
  function ToFloat(v: Json): (r: Result<real, Error>)
    ensures r.Failure? ==> r.error == NotNumeric
    ensures v.JNum? ==> r == Success(v.n)
  {
    match v
    case JNum(n) => Success(n)
    case JBool(b) => Success(if b then 1.0 else 0.0)
    case JStr(s) =>
      (match ParseDecimal(s)
       case Some(x) => Success(x)
       case None => Failure(NotNumeric))
    case _ => Failure(NotNumeric)
  }

  /**
    The elements a `for` loop over `v` visits, when each element is then
    used as a dict. Iterating a non-empty string or dict yields strings, on
    which the first `.get` fails, so those are rejected as a whole; the
    empty string and the empty dict yield nothing.
  */
  function Iterate(v: Json): (r: Result<seq<Json>, Error>)
    ensures v.JArr? ==> r == Success(v.items)
    ensures r.Success? ==> v.JArr? || Falsy(v)
    ensures r.Failure? ==> r.error == WrongShape
  {
    match v
    case JArr(items) => Success(items)
    case JStr(s) => if |s| == 0 then Success([]) else Failure(WrongShape)
    case JObj(fields) => if |fields| == 0 then Success([]) else Failure(WrongShape)
    case _ => Failure(WrongShape)
  }
}

=== FILE: money.dfy ===
/**
  Currency arithmetic of the normaliser: amounts are exact decimals (`real`),
  and every stored amount is rounded to whole cents with ROUND_HALF_UP,
  which rounds ties away from zero.
*/
module Money {

  /** `x` is a whole number of cents. */
  predicate IsCents(x: real) {
    (x * 100.0).Floor as real == x * 100.0
  }

  /** Number of cents of `x` after rounding half-up (ties away from zero). */
  function Cents(x: real): int {
    if x >= 0.0 then (x * 100.0 + 0.5).Floor else -((0.5 - x * 100.0).Floor)
  }

  /**
    `Decimal(x).quantize(Decimal("0.01"), ROUND_HALF_UP)`: the nearest whole
    cent, a tie going to the neighbour farther from zero. The ensures
    determine the result uniquely (see RoundUnique).
  */
  function Round(x: real): (r: real)
    ensures IsCents(r)
    ensures -0.005 <= r - x <= 0.005
    ensures r - x == 0.005 ==> x > 0.0
    ensures x - r == 0.005 ==> x < 0.0
    ensures x >= 0.0 ==> r >= 0.0
    ensures x <= 0.0 ==> r <= 0.0
  {
    var c := Cents(x);
    assert (c as real / 100.0) * 100.0 == c as real;
    c as real / 100.0
  }

  /** Two whole-cent amounts closer than a cent are equal. */
  lemma {:induction false} CentsGap(a: real, b: real)
    requires IsCents(a) && IsCents(b)
    requires -0.01 < a - b < 0.01
    ensures a == b
  {
    var ia := (a * 100.0).Floor;
    var ib := (b * 100.0).Floor;
    assert -1 < ia - ib < 1;
  }

  /** Any whole-cent value meeting Round's contract is Round's result. */
  lemma {:induction false} RoundUnique(x: real, c: real)
    requires IsCents(c)
    requires -0.005 <= c - x <= 0.005
    requires c - x == 0.005 ==> x > 0.0
    requires x - c == 0.005 ==> x < 0.0
    ensures c == Round(x)
  {
    var r := Round(x);
    if c - r == 0.01 || r - c == 0.01 {
      assert false;
    } else if c - r > 0.01 || r - c > 0.01 {
      assert false;
    } else {
      CentsGap(c, r);
    }
  }

  /** Rounding leaves an amount that is already in whole cents unchanged. */
  lemma {:induction false} RoundOfCents(x: real)
    requires IsCents(x)
    ensures Round(x) == x
  {
    RoundUnique(x, x);
  }

  /** Whole cents are closed under addition. */
  lemma {:induction false} CentsAdd(a: real, b: real)
    requires IsCents(a) && IsCents(b)
    ensures IsCents(a + b)
  {
    var ia := (a * 100.0).Floor;
    var ib := (b * 100.0).Floor;
    assert (a + b) * 100.0 == (ia + ib) as real;
  }

  /**
    Adding whole cents before rounding is the same as adding them after,
    as long as both summands have the same sign.
  */
  lemma {:induction false} RoundShift(c: real, t: real)
    requires IsCents(c)
    requires (c >= 0.0 && t >= 0.0) || (c <= 0.0 && t <= 0.0)
    ensures Round(c + t) == c + Round(t)
  {
    var r := Round(t);
    CentsAdd(c, r);
    RoundUnique(c + t, c + r);
  }

  /** Sum of a sequence, accumulated left to right as Python's `sum`. */
  function Sum(xs: seq<real>): real {
    if |xs| == 0 then 0.0 else Sum(xs[..|xs| - 1]) + xs[|xs| - 1]
  }

  /** A sum of whole-cent amounts is a whole-cent amount. */
  lemma {:induction false} SumOfCents(xs: seq<real>)
    requires forall i :: 0 <= i < |xs| ==> IsCents(xs[i])
    ensures IsCents(Sum(xs))
  {
    if |xs| == 0 {
      assert Sum(xs) * 100.0 == 0 as real;
    } else {
      SumOfCents(xs[..|xs| - 1]);
      CentsAdd(Sum(xs[..|xs| - 1]), xs[|xs| - 1]);
    }
  }

  /** A sum of non-negative amounts is non-negative. */
  lemma {:induction false} SumNonNegative(xs: seq<real>)
    requires forall i :: 0 <= i < |xs| ==> xs[i] >= 0.0
    ensures Sum(xs) >= 0.0
  {
    if |xs| > 0 {
      SumNonNegative(xs[..|xs| - 1]);
    }
  }
}

=== FILE: normalizer.dfy ===
/**
  `validate_and_normalize`: the deterministic pass over a draft. Line
  amounts are recomputed from quantity and unit price, the totals and the
  VAT breakdown are recomputed from the line items and merged back into the
  draft, the business rules are checked, and the draft is bound to the
  canonical record. Every step works on the draft as a dict and aborts on
  the first error.
*/
module Normalizer {
  import opened Wrappers
  import opened Json
  import opened Money
  import opened Vat
  import opened Regeln
  import opened RechnungModel

  /** `b` agrees with `a` on every key except `key`, which `b` has. */
  ghost predicate SameExcept(a: map<string, Json>, b: map<string, Json>, key: string) {
    && key in b
    && (forall k :: k != key ==> (k in a <==> k in b))
    && (forall k :: k in a && k != key ==> b[k] == a[k])
  }

  /** `_round(menge * einzel)`, the net amount of a line item. */
  function LineNet(menge: real, einzel: real): (r: real)
    ensures IsCents(r)
    ensures menge >= 0.0 && einzel >= 0.0 ==> r >= 0.0
  {
    assert menge >= 0.0 && einzel >= 0.0 ==> menge * einzel >= 0.0;
    Round(menge * einzel)
  }

  /** A line item whose net amount is the rounded product of its quantity and unit price. */
  predicate Recalculated(p: Json) {
    && p.JObj?
    && NumberOr0(p.fields, "menge").Success?
    && NumberOr0(p.fields, "einzelpreis_netto").Success?
    && "positionsbetrag_netto" in p.fields
    && p.fields["positionsbetrag_netto"]
       == JNum(LineNet(NumberOr0(p.fields, "menge").value, NumberOr0(p.fields, "einzelpreis_netto").value))
  }

  // ---------------------------------------------------------------------
  // _recalc_positions

  /** One iteration of `_recalc_positions`. */
  function RecalcPosition(pos: Json): (r: Result<Json, Error>)
    ensures r.Success? <==> pos.JObj? && NumberOr0(pos.fields, "menge").Success?
                            && NumberOr0(pos.fields, "einzelpreis_netto").Success?
    ensures r.Failure? ==> r.error == (if pos.JObj? then NotNumeric else WrongShape)
    ensures r.Success? ==> Recalculated(r.value)
    ensures r.Success? ==> r.value.JObj? && SameExcept(pos.fields, r.value.fields, "positionsbetrag_netto")
  {
    if !pos.JObj? then Failure(WrongShape)
    else
      var menge :- NumberOr0(pos.fields, "menge");
      var einzel :- NumberOr0(pos.fields, "einzelpreis_netto");
      var q := pos.fields["positionsbetrag_netto" := JNum(LineNet(menge, einzel))];
      assert Get(q, "menge", JNum(0.0)) == Get(pos.fields, "menge", JNum(0.0));
      assert Get(q, "einzelpreis_netto", JNum(0.0)) == Get(pos.fields, "einzelpreis_netto", JNum(0.0));
      Success(JObj(q))
  }

  /** `draft.get("positionen", [])` as a `for` loop visits it. */
  function PositionList(d: map<string, Json>): Result<seq<Json>, Error> {
    if "positionen" in d then Iterate(d["positionen"]) else Success([])
  }

  /**
    `_recalc_positions(draft)`: every line item gets its net amount
    recomputed; nothing else in the draft changes.
  */
  function RecalcPositions(d: map<string, Json>): (r: Result<map<string, Json>, Error>)
    ensures r.Failure? ==> r.error in {WrongShape, NotNumeric}
    ensures r.Success? <==> PositionList(d).Success?
                            && forall i :: 0 <= i < |PositionList(d).value| ==>
                                 RecalcPosition(PositionList(d).value[i]).Success?
    ensures r.Success? ==> ("positionen" in r.value <==> "positionen" in d)
                           && (forall k :: k != "positionen" ==> (k in r.value <==> k in d))
                           && (forall k :: k in d && k != "positionen" ==> r.value[k] == d[k])
    ensures r.Success? ==> PositionList(r.value).Success?
                           && |PositionList(r.value).value| == |PositionList(d).value|
                           && forall i :: 0 <= i < |PositionList(r.value).value| ==>
                                RecalcPosition(PositionList(d).value[i]) == Success(PositionList(r.value).value[i])
                                && Recalculated(PositionList(r.value).value[i])
  {
    var items :- PositionList(d);
    var recalced :- MapAll(items, RecalcPosition);
    if "positionen" in d && d["positionen"].JArr? then Success(d["positionen" := JArr(recalced)])
    else Success(d)
  }

  // ---------------------------------------------------------------------
  // _vat_breakdown and _recalc_summen

  /** `float(p.get("positionsbetrag_netto", 0))` for a line item `p`. */
  function LineAmount(p: Json): (r: Result<real, Error>)
    ensures r.Failure? ==> r.error in {WrongShape, NotNumeric}
    ensures r.Success? ==> p.JObj?
    ensures p.JObj? && "positionsbetrag_netto" in p.fields ==> r == ToFloat(p.fields["positionsbetrag_netto"])
  {
    if !p.JObj? then Failure(WrongShape) else NumberOr0(p.fields, "positionsbetrag_netto")
  }

  /**
    One iteration of `_vat_breakdown`: the bucket key and the net amount of
    a line item. The category defaults to "S" and the rate to 0; the
    category must be hashable to serve as part of a dict key.
  */
  function TaxLineOf(p: Json): (r: Result<TaxLine, Error>)
    ensures r.Success? ==> LineAmount(p) == Success(r.value.basis)
    ensures r.Success? ==> Hashable(r.value.key.kategorie)
    ensures r.Success? ==> var ust := Get(p.fields, "umsatzsteuer", JObj(map[]));
                           ust.JObj? && r.value.key.kategorie == Get(ust.fields, "kategorie", JStr("S"))
                           && NumberOr0(ust.fields, "satz") == Success(r.value.key.satz)
    ensures r.Failure? ==> r.error in {WrongShape, NotNumeric}
  {
    if !p.JObj? then Failure(WrongShape)
    else
      var ust := Get(p.fields, "umsatzsteuer", JObj(map[]));
      if !ust.JObj? then Failure(WrongShape)
      else
        var kat := Get(ust.fields, "kategorie", JStr("S"));
        var satz :- NumberOr0(ust.fields, "satz");
        if !Hashable(kat) then Failure(WrongShape)
        else
          var basis :- NumberOr0(p.fields, "positionsbetrag_netto");
          Success(TaxLine(TaxKey(kat, satz), basis))
  }

  /** What `_recalc_summen` returns: the totals and the breakdown buckets. */
  datatype Recalc = Recalc(summen: Summen, buckets: seq<Bucket>)

  /**
    `_recalc_summen(draft)`: the net total is the rounded sum of the line
    amounts, the tax total the rounded sum of the bucket taxes, the gross
    total the rounded sum of both, and the amount due equals the gross.
  */
  function RecalcSummen(d: map<string, Json>): (r: Result<Recalc, Error>)
    ensures r.Failure? ==> r.error in {WrongShape, NotNumeric}
    ensures r.Success? ==> PositionList(d).Success?
    ensures r.Success? ==> var s := r.value.summen;
                           && IsCents(s.gesamtNetto) && IsCents(s.gesamtUmsatzsteuer) && IsCents(s.gesamtBrutto)
                           && s.gesamtBrutto == s.gesamtNetto + s.gesamtUmsatzsteuer
                           && s.zahlbetrag == s.gesamtBrutto
    ensures r.Success? ==> (|r.value.buckets| == 0 <==> |PositionList(d).value| == 0)
    ensures r.Success? ==> Distinct(BucketKeys(r.value.buckets))
  {
    var items :- PositionList(d);
    var amounts :- MapAll(items, LineAmount);
    var lines :- MapAll(items, TaxLineOf);
    var buckets := Aggregate(lines);
    BucketsOnePerKey(lines);
    Success(Recalc(Totals(amounts, Taxes(buckets)), buckets))
  }

  /**
    The four totals from the line amounts and the bucket taxes, each
    rounded to cents; since both parts are whole cents, the gross total is
    exactly their sum.
  */
  function Totals(amounts: seq<real>, taxes: seq<real>): (s: Summen)
    ensures IsCents(s.gesamtNetto) && IsCents(s.gesamtUmsatzsteuer) && IsCents(s.gesamtBrutto)
    ensures s.gesamtBrutto == s.gesamtNetto + s.gesamtUmsatzsteuer
    ensures s.zahlbetrag == s.gesamtBrutto
  {
    var netto := Round(Sum(amounts));
    var ust := Round(Sum(taxes));
    CentsAdd(netto, ust);
    RoundOfCents(netto + ust);
    var brutto := Round(netto + ust);
    Summen(netto, ust, brutto, brutto)
  }

  /** One breakdown entry as `_vat_breakdown` builds it. */
  function BucketJson(b: Bucket): Json {
    JObj(map[
      "kategorie" := b.key.kategorie,
      "satz" := JNum(b.key.satz),
      "steuerbasisbetrag" := JNum(b.basis),
      "steuerbetrag" := JNum(b.steuer)])
  }

  /**
    Writing the recalculated values back: the totals always, the breakdown
    only when it is non-empty (an empty breakdown leaves whatever the draft
    had). No other key changes.
  */
  function Merge(d: map<string, Json>, rc: Recalc): (r: map<string, Json>)
    ensures "summen" in r && BindSummen(r["summen"], ["summen"]) == Success(rc.summen)
    ensures |rc.buckets| > 0 ==> ("umsatzsteuer_aufschluesselung" in r
                                 && r["umsatzsteuer_aufschluesselung"] == JArr(MapJson(rc.buckets, BucketJson)))
    ensures |rc.buckets| == 0 ==> SameExcept(d, r, "summen")
    ensures forall k :: k != "summen" && k != "umsatzsteuer_aufschluesselung" ==>
              (k in r <==> k in d) && (k in d ==> r[k] == d[k])
  {
    SummenRoundTrip(rc.summen);
    var d2 := d["summen" := SummenJson(rc.summen)];
    if |rc.buckets| > 0 then d2["umsatzsteuer_aufschluesselung" := JArr(MapJson(rc.buckets, BucketJson))]
    else d2
  }

  /** The recalculation half of `validate_and_normalize`. */
  function Normalize(d: map<string, Json>): (r: Result<map<string, Json>, Error>)
    ensures r.Failure? ==> r.error in {WrongShape, NotNumeric}
    ensures r.Success? ==> forall k :: k != "positionen" && k != "summen" && k != "umsatzsteuer_aufschluesselung" ==>
                             (k in r.value <==> k in d) && (k in d ==> r.value[k] == d[k])
    ensures r.Success? ==> "summen" in r.value
  {
    var d1 :- RecalcPositions(d);
    var rc :- RecalcSummen(d1);
    Success(Merge(d1, rc))
  }

  /**
    The second half of `validate_and_normalize`: the business rules on the
    merged draft, then binding. A rule error comes from `check_basic`; a
    binding error only after every rule passed.
  */
  function CheckAndBind(n: map<string, Json>): (r: Result<Rechnung, Error>)
    ensures r.Failure? && !r.error.Binding? ==> CheckBasic(n) == Fail(r.error)
    ensures r.Failure? && r.error.Binding? ==> CheckBasic(n).Pass?
    ensures r.Success? ==> RulesHold(n) && BindRechnung(n) == r
  {
    match CheckBasic(n)
    case Fail(e) => Failure(e)
    case Pass =>
      CheckBasicPassIff(n);
      BindRechnung(n)
  }

  /**
    `validate_and_normalize(draft)`: a non-object draft is rejected first,
    then recalculation errors, then business-rule errors, then binding
    errors.
  */
  function ValidateAndNormalize(draft: Json): (r: Result<Rechnung, Error>)
    ensures !draft.JObj? ==> r == Failure(DraftNotObject)
    ensures r.Failure? && r.error in {WrongShape, NotNumeric} ==>
              draft.JObj? && (Normalize(draft.fields).Failure? || CheckBasic(Normalize(draft.fields).value) == Fail(r.error))
    ensures r.Failure? && r.error in {InvalidInvoiceType, NoPositions, NegativeQuantity, NegativePrice, NegativeAmount}
            ==> draft.JObj? && Normalize(draft.fields).Success?
                && CheckBasic(Normalize(draft.fields).value) == Fail(r.error)
    ensures r.Failure? && r.error.Binding? ==> draft.JObj? && Normalize(draft.fields).Success?
                                               && CheckBasic(Normalize(draft.fields).value).Pass?
    ensures r.Success? ==> draft.JObj? && Normalize(draft.fields).Success?
                           && RulesHold(Normalize(draft.fields).value)
                           && BindRechnung(Normalize(draft.fields).value) == r
  {
    if !draft.JObj? then Failure(DraftNotObject)
    else
      var n :- Normalize(draft.fields);
      CheckAndBind(n)
  }
}

=== FILE: normalizer_facts.dfy ===
/**
  What `validate_and_normalize` guarantees: normalising twice changes
  nothing, a recomputed line amount can never trip the negative-amount
  rule, and every invoice it returns has totals, line amounts and VAT
  breakdown that agree with each other.
*/
module NormalizerFacts {
  import opened Wrappers
  import opened Json
  import opened Money
  import opened Vat
  import opened Regeln
  import opened RechnungModel
  import opened Normalizer
  import opened Strings

  // ---------------------------------------------------------------------
  // Idempotence

  /** Recomputing an already recomputed line item changes nothing. */
  lemma {:induction false} RecalcPositionIdempotent(pos: Json)
    requires RecalcPosition(pos).Success?
    ensures RecalcPosition(RecalcPosition(pos).value) == RecalcPosition(pos)
  {
    var q := RecalcPosition(pos).value;
    assert q.fields["positionsbetrag_netto" := q.fields["positionsbetrag_netto"]] == q.fields;
  }

  lemma {:induction false} RecalcAllIdempotent(items: seq<Json>)
    requires MapAll(items, RecalcPosition).Success?
    ensures MapAll(MapAll(items, RecalcPosition).value, RecalcPosition) == MapAll(items, RecalcPosition)
  {
    var ys := MapAll(items, RecalcPosition).value;
    forall i | 0 <= i < |ys| ensures RecalcPosition(ys[i]) == Success(ys[i]) {
      RecalcPositionIdempotent(items[i]);
    }
    var zs := MapAll(ys, RecalcPosition).value;
    assert zs == ys;
  }

  /**
    `_recalc_positions` only reads and writes `positionen`: on a draft
    that already is its own recalculation, any draft with the same
    `positionen` is left as it is.
  */
  lemma {:induction false} RecalcPositionsFixpoint(d1: map<string, Json>, n: map<string, Json>)
    requires RecalcPositions(d1) == Success(d1)
    requires ("positionen" in n <==> "positionen" in d1)
    requires "positionen" in d1 ==> n["positionen"] == d1["positionen"]
    ensures RecalcPositions(n) == Success(n)
  {
    assert PositionList(n) == PositionList(d1);
    if "positionen" in n && n["positionen"].JArr? {
      assert n["positionen" := n["positionen"]] == n;
    }
  }

  lemma {:induction false} RecalcPositionsIdempotent(d: map<string, Json>)
    requires RecalcPositions(d).Success?
    ensures RecalcPositions(RecalcPositions(d).value) == RecalcPositions(d)
  {
    var d1 := RecalcPositions(d).value;
    if "positionen" in d && d["positionen"].JArr? {
      var items := d["positionen"].items;
      RecalcAllIdempotent(items);
      var ys := MapAll(items, RecalcPosition).value;
      assert d1 == d["positionen" := JArr(ys)];
      assert PositionList(d1) == Success(ys);
      assert d1["positionen" := JArr(ys)] == d1;
    }
  }

  /** The totals and breakdown depend on the line items alone. */
  lemma {:induction false} RecalcSummenOfSamePositions(a: map<string, Json>, b: map<string, Json>)
    requires PositionList(a) == PositionList(b)
    ensures RecalcSummen(a) == RecalcSummen(b)
  {
  }

  /** Writing back values the draft already holds changes nothing. */
  lemma {:induction false} MergeFixpoint(d1: map<string, Json>, rc: Recalc)
    ensures Merge(Merge(d1, rc), rc) == Merge(d1, rc)
  {
    var n := Merge(d1, rc);
    assert n["summen" := SummenJson(rc.summen)] == n;
    if |rc.buckets| > 0 {
      var a := JArr(MapJson(rc.buckets, BucketJson));
      assert n["summen" := SummenJson(rc.summen)]["umsatzsteuer_aufschluesselung" := a] == n;
    }
  }

  /**
    Normalising is idempotent: the normalised draft normalises to itself,
    so a draft stored after normalisation comes back unchanged.
  */
  lemma {:induction false} NormalizeIdempotent(d: map<string, Json>)
    requires Normalize(d).Success?
    ensures Normalize(Normalize(d).value) == Normalize(d)
  {
    var d1 := RecalcPositions(d).value;
    var rc := RecalcSummen(d1).value;
    var n := Merge(d1, rc);
    assert Normalize(d) == Success(n);
    RecalcPositionsIdempotent(d);
    RecalcPositionsFixpoint(d1, n);
    assert PositionList(n) == PositionList(d1);
    RecalcSummenOfSamePositions(n, d1);
    MergeFixpoint(d1, rc);
  }

  // ---------------------------------------------------------------------
  // Recalculation and the rules

  /** A recomputed line item never fails the negative-amount rule. */
  lemma {:induction false} RecalculatedNotNegative(p: Json)
    requires Recalculated(p)
    ensures CheckPosition(p) != Fail(NegativeAmount)
  {
    var m := NumberOr0(p.fields, "menge").value;
    var e := NumberOr0(p.fields, "einzelpreis_netto").value;
    assert NumberOr0(p.fields, "positionsbetrag_netto") == Success(LineNet(m, e));
  }

  /**
    The line amounts the rules see are the recomputed ones, so the
    negative-amount rule can only fire if a quantity or price is already
    negative, and those are checked first: after normalisation the rule
    never fires.
  */
  lemma {:induction false} NoNegativeAmountAfterNormalize(d: map<string, Json>)
    requires Normalize(d).Success?
    ensures CheckBasic(Normalize(d).value) != Fail(NegativeAmount)
  {
    var d1 := RecalcPositions(d).value;
    var rc := RecalcSummen(d1).value;
    var n := Normalize(d).value;
    assert n == Merge(d1, rc);
    ItemsOfMerge(d, d1, rc, n);
    if "positionen" in n && n["positionen"].JArr? {
      RecalculatedItemsNotNegative(n["positionen"].items);
    }
  }

  /** Recomputed line items never fail the negative-amount rule as a list either. */
  lemma {:induction false} RecalculatedItemsNotNegative(items: seq<Json>)
    requires forall i :: 0 <= i < |items| ==> Recalculated(items[i])
    ensures CheckPositions(items) != Fail(NegativeAmount)
  {
    forall i | 0 <= i < |items| ensures CheckPosition(items[i]) != Fail(NegativeAmount) {
      RecalculatedNotNegative(items[i]);
    }
    CheckPositionsFirstFailure(items, NegativeAmount);
  }

  /**
    A draft with line items gets a breakdown written back: one entry per
    distinct (kategorie, satz), never an empty list.
  */
  lemma {:induction false} BreakdownWrittenWithPositions(d: map<string, Json>)
    requires Normalize(d).Success?
    requires |PositionList(Normalize(d).value).value| > 0
    ensures "umsatzsteuer_aufschluesselung" in Normalize(d).value
    ensures var a := Normalize(d).value["umsatzsteuer_aufschluesselung"];
            a.JArr? && 0 < |a.items| <= |PositionList(Normalize(d).value).value|
  {
    var d1 := RecalcPositions(d).value;
    var rc := RecalcSummen(d1).value;
    var n := Normalize(d).value;
    assert n == Merge(d1, rc);
    assert PositionList(n) == PositionList(d1);
    var items := PositionList(d1).value;
    var lines := MapAll(items, TaxLineOf).value;
    assert rc.buckets == Aggregate(lines);
    AggregateKeys(lines);
    FirstSeenLength(LineKeys(lines));
  }

  /** A first-seen sequence is never longer than the sequence it comes from. */
  lemma {:induction false} FirstSeenLength(ks: seq<TaxKey>)
    ensures |FirstSeen(ks)| <= |ks|
  {
    if |ks| > 0 {
      FirstSeenLength(ks[..|ks| - 1]);
    }
  }

  // ---------------------------------------------------------------------
  // Soundness of the returned invoice

  function Betraege(ps: seq<Rechnungsposition>): (xs: seq<real>)
    ensures |xs| == |ps| && forall i :: 0 <= i < |ps| ==> xs[i] == ps[i].positionsbetragNetto
  {
    seq(|ps|, i requires 0 <= i < |ps| => ps[i].positionsbetragNetto)
  }

  function Steuerbetraege(xs: seq<UmsatzsteuerAufschluesselung>): (ys: seq<real>)
    ensures |ys| == |xs| && forall i :: 0 <= i < |xs| ==> ys[i] == xs[i].steuerbetrag
  {
    seq(|xs|, i requires 0 <= i < |xs| => xs[i].steuerbetrag)
  }

  function Basisbetraege(xs: seq<UmsatzsteuerAufschluesselung>): (ys: seq<real>)
    ensures |ys| == |xs| && forall i :: 0 <= i < |xs| ==> ys[i] == xs[i].steuerbasisbetrag
  {
    seq(|xs|, i requires 0 <= i < |xs| => xs[i].steuerbasisbetrag)
  }

  /** The VAT bucket key of a bound line item. */
  function PositionKey(p: Rechnungsposition): TaxKey {
    TaxKey(JStr(p.umsatzsteuer.kategorie), p.umsatzsteuer.satz)
  }

  /** The tax of one bound line item, rounded on its own. */
  function PositionTax(p: Rechnungsposition): real {
    Round(LineTax(TaxLine(PositionKey(p), p.positionsbetragNetto)))
  }

  function PositionTaxes(ps: seq<Rechnungsposition>): (xs: seq<real>)
    ensures |xs| == |ps| && forall i :: 0 <= i < |ps| ==> xs[i] == PositionTax(ps[i])
  {
    seq(|ps|, i requires 0 <= i < |ps| => PositionTax(ps[i]))
  }

  /** What binding a recalculated line item that passed the rules yields. */
  lemma {:induction false} ItemFacts(p: Json, loc: Loc, rp: Rechnungsposition)
    requires Recalculated(p) && PositionOk(p)
    requires BindPosition(p, loc) == Success(rp)
    ensures rp.positionsbetragNetto == LineNet(rp.menge, rp.einzelpreisNetto)
    ensures LineAmount(p) == Success(rp.positionsbetragNetto)
    ensures TaxLineOf(p) == Success(TaxLine(PositionKey(rp), rp.positionsbetragNetto))
    ensures rp.menge >= 0.0 && rp.einzelpreisNetto >= 0.0 && rp.positionsbetragNetto >= 0.0
  {
    assert NumberOr0(p.fields, "menge") == Success(rp.menge);
    assert NumberOr0(p.fields, "einzelpreis_netto") == Success(rp.einzelpreisNetto);
    assert NumberOr0(p.fields, "positionsbetrag_netto") == Success(rp.positionsbetragNetto);
    var ust := p.fields["umsatzsteuer"];
    assert BindUmsatzsteuerPosition(ust, loc + ["umsatzsteuer"]) == Success(rp.umsatzsteuer);
    assert Get(ust.fields, "kategorie", JStr("S")) == JStr(rp.umsatzsteuer.kategorie);
    assert NumberOr0(ust.fields, "satz") == Success(rp.umsatzsteuer.satz);
  }

  /** What binding one breakdown entry written by the normaliser yields. */
  lemma {:induction false} BucketFacts(b: Bucket, v: Json, loc: Loc, a: UmsatzsteuerAufschluesselung)
    requires v == BucketJson(b) && BindAufschluesselung(v, loc) == Success(a)
    ensures b.key == TaxKey(JStr(a.kategorie), a.satz)
    ensures a.steuerbasisbetrag == b.basis && a.steuerbetrag == b.steuer
  {
  }

  /** The drafts behind an accepted invoice: after recalculation, and after merging. */
  lemma {:induction false} Stages(draft: Json, r: Rechnung) returns (d1: map<string, Json>, rc: Recalc, n: map<string, Json>)
    requires ValidateAndNormalize(draft) == Success(r)
    ensures draft.JObj? && RecalcPositions(draft.fields) == Success(d1)
    ensures RecalcSummen(d1) == Success(rc)
    ensures n == Merge(d1, rc) && RulesHold(n) && BindRechnung(n) == Success(r)
  {
    d1 := RecalcPositions(draft.fields).value;
    rc := RecalcSummen(d1).value;
    n := Normalize(draft.fields).value;
  }

  /** Merging the totals leaves the recalculated line items alone. */
  lemma {:induction false} ItemsOfMerge(d: map<string, Json>, d1: map<string, Json>, rc: Recalc, n: map<string, Json>)
    requires RecalcPositions(d) == Success(d1) && n == Merge(d1, rc)
    ensures PositionList(n) == PositionList(d1) && PositionList(d1).Success?
    ensures forall i :: 0 <= i < |PositionList(d1).value| ==> Recalculated(PositionList(d1).value[i])
  {
    assert "positionen" in n <==> "positionen" in d1;
  }

  /** The line items of a draft the rules accept, and what they bind to. */
  lemma {:induction false} ItemsOfRules(n: map<string, Json>, r: Rechnung) returns (items: seq<Json>)
    requires RulesHold(n) && BindRechnung(n) == Success(r)
    ensures PositionList(n) == Success(items) && |items| > 0
    ensures forall i :: 0 <= i < |items| ==> PositionOk(items[i])
    ensures BindList(items, ["positionen"], BindPosition, 0) == Success(r.positionen)
  {
    items := n["positionen"].items;
    assert [] + ["positionen"] == ["positionen"];
  }

  /** The line items of the merged draft are the recalculated ones, and they bind to the invoice's. */
  lemma {:induction false} ItemsStage(d: map<string, Json>, d1: map<string, Json>, rc: Recalc, n: map<string, Json>, r: Rechnung)
    returns (items: seq<Json>)
    requires RecalcPositions(d) == Success(d1)
    requires n == Merge(d1, rc) && RulesHold(n) && BindRechnung(n) == Success(r)
    ensures PositionList(d1) == Success(items) && |items| > 0
    ensures forall i :: 0 <= i < |items| ==> Recalculated(items[i]) && PositionOk(items[i])
    ensures BindList(items, ["positionen"], BindPosition, 0) == Success(r.positionen)
  {
    ItemsOfMerge(d, d1, rc, n);
    items := ItemsOfRules(n, r);
  }

  /** Per line item: amount, tax line and signs, as bound. */
  lemma {:induction false} LinesStage(items: seq<Json>, r: Rechnung) returns (amounts: seq<real>, lines: seq<TaxLine>)
    requires forall i :: 0 <= i < |items| ==> Recalculated(items[i]) && PositionOk(items[i])
    requires BindList(items, ["positionen"], BindPosition, 0) == Success(r.positionen)
    ensures MapAll(items, LineAmount) == Success(amounts)
    ensures MapAll(items, TaxLineOf) == Success(lines)
    ensures |items| == |amounts| == |lines| == |r.positionen|
    ensures forall i :: 0 <= i < |items| ==>
              && r.positionen[i].positionsbetragNetto == LineNet(r.positionen[i].menge, r.positionen[i].einzelpreisNetto)
              && amounts[i] == r.positionen[i].positionsbetragNetto
              && lines[i] == TaxLine(PositionKey(r.positionen[i]), r.positionen[i].positionsbetragNetto)
              && r.positionen[i].menge >= 0.0 && r.positionen[i].einzelpreisNetto >= 0.0
              && r.positionen[i].positionsbetragNetto >= 0.0
  {
    forall i | 0 <= i < |items|
      ensures && r.positionen[i].positionsbetragNetto == LineNet(r.positionen[i].menge, r.positionen[i].einzelpreisNetto)
              && LineAmount(items[i]) == Success(r.positionen[i].positionsbetragNetto)
              && TaxLineOf(items[i]) == Success(TaxLine(PositionKey(r.positionen[i]), r.positionen[i].positionsbetragNetto))
              && r.positionen[i].menge >= 0.0 && r.positionen[i].einzelpreisNetto >= 0.0
              && r.positionen[i].positionsbetragNetto >= 0.0
    {
      ItemFacts(items[i], ["positionen"] + [IntString(0 + i)], r.positionen[i]);
    }
    amounts := MapAll(items, LineAmount).value;
    lines := MapAll(items, TaxLineOf).value;
  }

  /**
    The intermediate values behind an accepted draft: its line amounts and
    tax lines, and how the bound invoice relates to them.
  */
  lemma {:induction false} Trace(draft: Json, r: Rechnung) returns (amounts: seq<real>, lines: seq<TaxLine>)
    requires ValidateAndNormalize(draft) == Success(r)
    ensures |amounts| == |lines| == |r.positionen| > 0
    ensures forall i :: 0 <= i < |lines| ==>
              && r.positionen[i].positionsbetragNetto == LineNet(r.positionen[i].menge, r.positionen[i].einzelpreisNetto)
              && amounts[i] == r.positionen[i].positionsbetragNetto
              && lines[i] == TaxLine(PositionKey(r.positionen[i]), r.positionen[i].positionsbetragNetto)
              && r.positionen[i].menge >= 0.0 && r.positionen[i].einzelpreisNetto >= 0.0
              && r.positionen[i].positionsbetragNetto >= 0.0
    ensures r.summen == Totals(amounts, Taxes(Aggregate(lines)))
    ensures r.umsatzsteuerAufschluesselung.Some?
    ensures BindList(MapJson(Aggregate(lines), BucketJson), ["umsatzsteuer_aufschluesselung"], BindAufschluesselung, 0)
            == Success(r.umsatzsteuerAufschluesselung.value)
    ensures r.dokument.rechnungsart == "RECHNUNG" || r.dokument.rechnungsart == "GUTSCHRIFT"
  {
    var d1, rc, n := Stages(draft, r);
    var items := ItemsStage(draft.fields, d1, rc, n, r);
    amounts, lines := LinesStage(items, r);
    SummenStage(d1, rc, n, r, items, amounts, lines);
    DokumentStage(n, r);
  }

  /** `_recalc_summen` on the recalculated draft, spelled out. */
  lemma {:induction false} RecalcSummenValue(d1: map<string, Json>, items: seq<Json>, amounts: seq<real>, lines: seq<TaxLine>)
    requires PositionList(d1) == Success(items)
    requires MapAll(items, LineAmount) == Success(amounts) && MapAll(items, TaxLineOf) == Success(lines)
    ensures RecalcSummen(d1) == Success(Recalc(Totals(amounts, Taxes(Aggregate(lines))), Aggregate(lines)))
  {
  }

  /** The totals and breakdown of the invoice are the recalculated ones. */
  lemma {:induction false} SummenStage(d1: map<string, Json>, rc: Recalc, n: map<string, Json>, r: Rechnung,
                    items: seq<Json>, amounts: seq<real>, lines: seq<TaxLine>)
    requires PositionList(d1) == Success(items) && |items| > 0
    requires MapAll(items, LineAmount) == Success(amounts) && MapAll(items, TaxLineOf) == Success(lines)
    requires RecalcSummen(d1) == Success(rc)
    requires n == Merge(d1, rc) && BindRechnung(n) == Success(r)
    ensures r.summen == Totals(amounts, Taxes(Aggregate(lines)))
    ensures r.umsatzsteuerAufschluesselung.Some?
    ensures BindList(MapJson(Aggregate(lines), BucketJson), ["umsatzsteuer_aufschluesselung"], BindAufschluesselung, 0)
            == Success(r.umsatzsteuerAufschluesselung.value)
  {
    RecalcSummenValue(d1, items, amounts, lines);
    assert rc.summen == Totals(amounts, Taxes(Aggregate(lines))) && rc.buckets == Aggregate(lines);
    BreakdownStage(rc, n, r);
  }

  lemma {:induction false} BreakdownStage(rc: Recalc, n: map<string, Json>, r: Rechnung)
    requires |rc.buckets| > 0
    requires BindRechnung(n) == Success(r)
    requires "summen" in n && BindSummen(n["summen"], ["summen"]) == Success(rc.summen)
    requires "umsatzsteuer_aufschluesselung" in n
             && n["umsatzsteuer_aufschluesselung"] == JArr(MapJson(rc.buckets, BucketJson))
    ensures r.summen == rc.summen
    ensures r.umsatzsteuerAufschluesselung.Some?
    ensures BindList(MapJson(rc.buckets, BucketJson), ["umsatzsteuer_aufschluesselung"], BindAufschluesselung, 0)
            == Success(r.umsatzsteuerAufschluesselung.value)
  {
    assert [] + ["umsatzsteuer_aufschluesselung"] == ["umsatzsteuer_aufschluesselung"];
  }

  /** The invoice type passed the whitelist before binding. */
  lemma {:induction false} DokumentStage(n: map<string, Json>, r: Rechnung)
    requires RulesHold(n) && BindRechnung(n) == Success(r)
    ensures r.dokument.rechnungsart == "RECHNUNG" || r.dokument.rechnungsart == "GUTSCHRIFT"
  {
    assert BindDokument(n["dokument"], ["dokument"]) == Success(r.dokument);
  }

  // ---------------------------------------------------------------------
  // The returned invoice agrees with its own line items

  /** The tax lines of bound line items: key (kategorie, satz) and net amount. */
  function PositionLines(ps: seq<Rechnungsposition>): (ls: seq<TaxLine>)
    ensures |ls| == |ps| && forall i :: 0 <= i < |ps| ==> ls[i] == TaxLine(PositionKey(ps[i]), ps[i].positionsbetragNetto)
  {
    seq(|ps|, i requires 0 <= i < |ps| => TaxLine(PositionKey(ps[i]), ps[i].positionsbetragNetto))
  }

  /** A bucket as a breakdown entry; categories of bound line items are always strings. */
  function AufOf(b: Bucket): UmsatzsteuerAufschluesselung {
    UmsatzsteuerAufschluesselung(if b.key.kategorie.JStr? then b.key.kategorie.s else "", b.key.satz, b.basis, b.steuer)
  }

  /** The VAT breakdown recomputed from typed line items. */
  function BreakdownOf(ps: seq<Rechnungsposition>): (xs: seq<UmsatzsteuerAufschluesselung>)
    ensures |xs| == |Aggregate(PositionLines(ps))|
    ensures forall i :: 0 <= i < |xs| ==> xs[i] == AufOf(Aggregate(PositionLines(ps))[i])
  {
    var bs := Aggregate(PositionLines(ps));
    seq(|bs|, i requires 0 <= i < |bs| => AufOf(bs[i]))
  }

  /**
    An invoice that is its own recalculation: every line amount is the
    rounded product of quantity and unit price, the totals and the
    breakdown are what the normaliser computes from these line items.
  */
  predicate Consistent(r: Rechnung) {
    && |r.positionen| > 0
    && (forall i :: 0 <= i < |r.positionen| ==>
          r.positionen[i].positionsbetragNetto == LineNet(r.positionen[i].menge, r.positionen[i].einzelpreisNetto))
    && r.summen == Totals(Betraege(r.positionen), Taxes(Aggregate(PositionLines(r.positionen))))
    && r.umsatzsteuerAufschluesselung == Some(BreakdownOf(r.positionen))
  }

  /** The business rules, read on the typed invoice. */
  predicate RulesRespected(r: Rechnung) {
    && (r.dokument.rechnungsart == "RECHNUNG" || r.dokument.rechnungsart == "GUTSCHRIFT")
    && |r.positionen| > 0
    && forall i :: 0 <= i < |r.positionen| ==>
         r.positionen[i].menge >= 0.0 && r.positionen[i].einzelpreisNetto >= 0.0
         && r.positionen[i].positionsbetragNetto >= 0.0
  }

  /**
    Every invoice `validate_and_normalize` returns satisfies the rules and
    is consistent with its own line items.
  */
  lemma {:induction false} PipelineSound(draft: Json, r: Rechnung)
    requires ValidateAndNormalize(draft) == Success(r)
    ensures Consistent(r) && RulesRespected(r)
  {
    var amounts, lines := Trace(draft, r);
    TraceSound(r, amounts, lines);
  }

  /** The traced intermediate values make the invoice consistent with its line items. */
  lemma {:induction false} TraceSound(r: Rechnung, amounts: seq<real>, lines: seq<TaxLine>)
    requires |amounts| == |lines| == |r.positionen| > 0
    requires forall i :: 0 <= i < |lines| ==>
               && r.positionen[i].positionsbetragNetto == LineNet(r.positionen[i].menge, r.positionen[i].einzelpreisNetto)
               && amounts[i] == r.positionen[i].positionsbetragNetto
               && lines[i] == TaxLine(PositionKey(r.positionen[i]), r.positionen[i].positionsbetragNetto)
               && r.positionen[i].menge >= 0.0 && r.positionen[i].einzelpreisNetto >= 0.0
               && r.positionen[i].positionsbetragNetto >= 0.0
    requires r.summen == Totals(amounts, Taxes(Aggregate(lines)))
    requires r.umsatzsteuerAufschluesselung.Some?
    requires BindList(MapJson(Aggregate(lines), BucketJson), ["umsatzsteuer_aufschluesselung"], BindAufschluesselung, 0)
             == Success(r.umsatzsteuerAufschluesselung.value)
    ensures Consistent(r)
  {
    SameLines(r.positionen, lines);
    SameAmounts(r.positionen, amounts);
    BreakdownFromBuckets(Aggregate(lines), r.umsatzsteuerAufschluesselung.value);
    BreakdownIsOf(r.positionen, r.umsatzsteuerAufschluesselung.value);
  }

  /** Entries that are the buckets of the line items, one by one, are the recomputed breakdown. */
  lemma {:induction false} BreakdownIsOf(ps: seq<Rechnungsposition>, xs: seq<UmsatzsteuerAufschluesselung>)
    requires |xs| == |Aggregate(PositionLines(ps))|
    requires forall i :: 0 <= i < |xs| ==> xs[i] == AufOf(Aggregate(PositionLines(ps))[i])
    ensures xs == BreakdownOf(ps)
  {
  }

  lemma {:induction false} SameLines(ps: seq<Rechnungsposition>, lines: seq<TaxLine>)
    requires |lines| == |ps|
    requires forall i :: 0 <= i < |ps| ==> lines[i] == TaxLine(PositionKey(ps[i]), ps[i].positionsbetragNetto)
    ensures lines == PositionLines(ps)
  {
  }

  lemma {:induction false} SameAmounts(ps: seq<Rechnungsposition>, amounts: seq<real>)
    requires |amounts| == |ps|
    requires forall i :: 0 <= i < |ps| ==> amounts[i] == ps[i].positionsbetragNetto
    ensures amounts == Betraege(ps)
  {
  }

  /** Binding the breakdown the normaliser wrote gives one entry per bucket, in order. */
  lemma {:induction false} BreakdownFromBuckets(bs: seq<Bucket>, xs: seq<UmsatzsteuerAufschluesselung>)
    requires BindList(MapJson(bs, BucketJson), ["umsatzsteuer_aufschluesselung"], BindAufschluesselung, 0) == Success(xs)
    ensures |xs| == |bs| && forall i :: 0 <= i < |xs| ==> xs[i] == AufOf(bs[i])
  {
    var items := MapJson(bs, BucketJson);
    assert |xs| == |items| == |bs|;
    forall i | 0 <= i < |xs| ensures xs[i] == AufOf(bs[i]) {
      BreakdownEntry(bs, xs, i);
    }
  }

  lemma {:induction false} BreakdownEntry(bs: seq<Bucket>, xs: seq<UmsatzsteuerAufschluesselung>, i: nat)
    requires BindList(MapJson(bs, BucketJson), ["umsatzsteuer_aufschluesselung"], BindAufschluesselung, 0) == Success(xs)
    requires i < |bs|
    ensures i < |xs| && xs[i] == AufOf(bs[i])
  {
    var items := MapJson(bs, BucketJson);
    BindListAt(items, ["umsatzsteuer_aufschluesselung"], BindAufschluesselung, 0, xs, i);
    BucketFacts(bs[i], items[i], ["umsatzsteuer_aufschluesselung"] + [IntString(i)], xs[i]);
  }

  /** The net total is exactly the sum of the line amounts. */
  lemma {:induction false} NetIsSumOfLines(r: Rechnung)
    requires Consistent(r)
    ensures r.summen.gesamtNetto == Sum(Betraege(r.positionen))
  {
    SumOfCents(Betraege(r.positionen));
    RoundOfCents(Sum(Betraege(r.positionen)));
  }

  /**
    The breakdown adds up: its tax amounts sum to the tax total, its
    taxable bases sum to the net total, and gross is net plus tax.
  */
  lemma {:induction false} BreakdownAddsUp(r: Rechnung)
    requires Consistent(r)
    ensures Sum(Steuerbetraege(r.umsatzsteuerAufschluesselung.value)) == r.summen.gesamtUmsatzsteuer
    ensures Sum(Basisbetraege(r.umsatzsteuerAufschluesselung.value)) == r.summen.gesamtNetto
    ensures r.summen.gesamtBrutto == r.summen.gesamtNetto + r.summen.gesamtUmsatzsteuer
    ensures r.summen.zahlbetrag == r.summen.gesamtBrutto
  {
    var lines := PositionLines(r.positionen);
    var bs := Aggregate(lines);
    var xs := r.umsatzsteuerAufschluesselung.value;
    assert Steuerbetraege(xs) == Taxes(bs);
    assert Basisbetraege(xs) == Bases(bs);
    TaxesAreCents(lines);
    SumOfCents(Taxes(bs));
    RoundOfCents(Sum(Taxes(bs)));
    assert AllBasesCents(lines);
    TotalBasis(lines);
    assert LineBases(lines) == Betraege(r.positionen);
    NetIsSumOfLines(r);
  }

  /** Some line item has VAT category `kategorie` at rate `satz`. */
  predicate OnSomePosition(ps: seq<Rechnungsposition>, kategorie: string, satz: real) {
    exists i :: 0 <= i < |ps| && ps[i].umsatzsteuer.kategorie == kategorie && ps[i].umsatzsteuer.satz == satz
  }

  /** Some breakdown entry is for VAT category `kategorie` at rate `satz`. */
  predicate HasEntry(xs: seq<UmsatzsteuerAufschluesselung>, kategorie: string, satz: real) {
    exists j :: 0 <= j < |xs| && xs[j].kategorie == kategorie && xs[j].satz == satz
  }

  /** Every breakdown entry's (kategorie, satz) occurs on a line item. */
  lemma {:induction false} EntryKeysFromPositions(ps: seq<Rechnungsposition>, xs: seq<UmsatzsteuerAufschluesselung>)
    requires xs == BreakdownOf(ps)
    ensures forall j :: 0 <= j < |xs| ==> OnSomePosition(ps, xs[j].kategorie, xs[j].satz)
  {
    var lines := PositionLines(ps);
    var bs := Aggregate(lines);
    BucketsOnePerKey(lines);
    forall j | 0 <= j < |xs| ensures OnSomePosition(ps, xs[j].kategorie, xs[j].satz) {
      assert BucketKeys(bs)[j] in LineKeys(lines);
      var i :| 0 <= i < |lines| && LineKeys(lines)[i] == bs[j].key;
      assert PositionKey(ps[i]) == bs[j].key;
    }
  }

  /** Every line item's (kategorie, satz) has a breakdown entry. */
  lemma {:induction false} PositionKeysInEntries(ps: seq<Rechnungsposition>, xs: seq<UmsatzsteuerAufschluesselung>)
    requires xs == BreakdownOf(ps)
    ensures forall i :: 0 <= i < |ps| ==> HasEntry(xs, ps[i].umsatzsteuer.kategorie, ps[i].umsatzsteuer.satz)
  {
    var lines := PositionLines(ps);
    var bs := Aggregate(lines);
    BucketsOnePerKey(lines);
    forall i | 0 <= i < |ps| ensures HasEntry(xs, ps[i].umsatzsteuer.kategorie, ps[i].umsatzsteuer.satz) {
      assert LineKeys(lines)[i] in BucketKeys(bs);
      var j :| 0 <= j < |bs| && BucketKeys(bs)[j] == LineKeys(lines)[i];
      assert bs[j].key == PositionKey(ps[i]);
      assert xs[j] == AufOf(bs[j]);
    }
  }

  /** No (kategorie, satz) pair appears twice in the breakdown. */
  lemma {:induction false} BreakdownKeysDistinct(r: Rechnung)
    requires Consistent(r)
    ensures var xs := r.umsatzsteuerAufschluesselung.value;
            forall i, j :: 0 <= i < j < |xs| ==> xs[i].kategorie != xs[j].kategorie || xs[i].satz != xs[j].satz
  {
    var ps := r.positionen;
    var bs := Aggregate(PositionLines(ps));
    BucketsOnePerKey(PositionLines(ps));
    assert forall i, j :: 0 <= i < j < |bs| ==> BucketKeys(bs)[i] != BucketKeys(bs)[j];
    forall j | 0 <= j < |bs| ensures bs[j].key.kategorie.JStr? {
      assert BucketKeys(bs)[j] in LineKeys(PositionLines(ps));
    }
  }

  /**
    The breakdown covers exactly the (kategorie, satz) pairs of the line
    items: every entry's pair occurs on a line item, and every line item's
    pair has an entry.
  */
  lemma {:induction false} BreakdownCoversPositions(r: Rechnung)
    requires Consistent(r)
    ensures var xs := r.umsatzsteuerAufschluesselung.value;
            forall j :: 0 <= j < |xs| ==> OnSomePosition(r.positionen, xs[j].kategorie, xs[j].satz)
    ensures forall i :: 0 <= i < |r.positionen| ==>
              HasEntry(r.umsatzsteuerAufschluesselung.value,
                       r.positionen[i].umsatzsteuer.kategorie, r.positionen[i].umsatzsteuer.satz)
  {
    EntryKeysFromPositions(r.positionen, r.umsatzsteuerAufschluesselung.value);
    PositionKeysInEntries(r.positionen, r.umsatzsteuerAufschluesselung.value);
  }

  /**
    Rounding the running tax per bucket gives the same tax total as
    rounding each line's tax on its own, as long as amounts and rates are
    non-negative.
  */
  lemma {:induction false} TaxTotalIsPerLineRounding(r: Rechnung)
    requires Consistent(r)
    requires forall i :: 0 <= i < |r.positionen| ==>
               r.positionen[i].positionsbetragNetto >= 0.0 && r.positionen[i].umsatzsteuer.satz >= 0.0
    ensures r.summen.gesamtUmsatzsteuer == Sum(PositionTaxes(r.positionen))
  {
    var lines := PositionLines(r.positionen);
    TotalTax(lines);
    assert RoundedLineTaxes(lines) == PositionTaxes(r.positionen);
    TaxesAreCents(lines);
    SumOfCents(Taxes(Aggregate(lines)));
    RoundOfCents(Sum(Taxes(Aggregate(lines))));
  }

  /**
    Exact half-cent products round up: three units at 10.005 come to 30.02
    and three units at 1.005 to 3.02, never to 30.01 or 3.01.
  */
  lemma {:induction false} RoundingLawExample()
    ensures LineNet(3.0, 10.005) == 30.02
    ensures LineNet(3.0, 1.005) == 3.02
  {
    RoundUnique(30.015, 30.02);
    RoundUnique(3.015, 3.02);
  }
}

=== FILE: pdf_extractor.dfy ===
/**
  PDF text extraction (`pdf_extractor.py`): the pages' text is joined by
  "\n"; when it holds fewer than 50 alphanumeric characters the document
  is taken for a scan and OCR is tried, falling back to the original text
  when OCR fails. Reading the PDF and running OCR are inputs here: a page
  is the `Option<string>` its text extraction returned, and OCR is either
  the pages of the recognised PDF or None for a failed run.
*/
module PdfExtractor {
  import opened Wrappers
  import opened Strings

  /** Below this many alphanumeric characters a document needs OCR. */
  const OcrThreshold: nat := 50

  /**
    Python's `str.isalnum` for one character, exact up to U+00FF: ASCII
    digits and letters, the Latin-1 letters, and the Latin-1 superscripts
    and fractions, which count as numeric.
  */
  predicate IsAlnum(c: char) {
    var n := c as int;
    ('0' <= c <= '9') || ('A' <= c <= 'Z') || ('a' <= c <= 'z')
    || n == 0xAA || n == 0xB2 || n == 0xB3 || n == 0xB5 || n == 0xB9 || n == 0xBA
    || (0xBC <= n <= 0xBE)
    || (0xC0 <= n <= 0xFF && n != 0xD7 && n != 0xF7)
  }

  /** `sum(c.isalnum() for c in text)`. */
  function AlnumCount(text: string): (n: nat)
    ensures n <= |text|
    ensures n == |text| <==> forall i :: 0 <= i < |text| ==> IsAlnum(text[i])
  {
    if |text| == 0 then 0
    else AlnumCount(text[..|text| - 1]) + (if IsAlnum(text[|text| - 1]) then 1 else 0)
  }

  /** `_needs_ocr(text)`: short texts and texts without letters or digits always need OCR. */
  function NeedsOcr(text: string): (b: bool)
    ensures |text| < OcrThreshold ==> b
    ensures (forall i :: 0 <= i < |text| ==> !IsAlnum(text[i])) ==> b
  {
    AlnumCountZero(text);
    AlnumCount(text) < OcrThreshold
  }

  /** Counting distributes over concatenation. */
  lemma {:induction false} AlnumCountAppend(a: string, b: string)
    ensures AlnumCount(a + b) == AlnumCount(a) + AlnumCount(b)
    decreases |b|
  {
    if |b| > 0 {
      var b' := b[..|b| - 1];
      assert (a + b)[..|a + b| - 1] == a + b';
      AlnumCountAppend(a, b');
    } else {
      assert a + b == a;
    }
  }

  /** The count is zero exactly when no character is alphanumeric. */
  lemma {:induction false} AlnumCountZero(text: string)
    ensures AlnumCount(text) == 0 <==> forall i :: 0 <= i < |text| ==> !IsAlnum(text[i])
  {
    if |text| > 0 {
      var t := text[..|text| - 1];
      AlnumCountZero(t);
      assert forall i :: 0 <= i < |t| ==> t[i] == text[i];
    }
  }

  /** Empty text always needs OCR. */
  lemma {:induction false} EmptyNeedsOcr()
    ensures NeedsOcr("")
  {
  }

  /** Adding text can only make OCR unnecessary, never necessary. */
  lemma {:induction false} NeedsOcrAntitone(a: string, b: string)
    ensures NeedsOcr(a + b) ==> NeedsOcr(a) && NeedsOcr(b)
  {
    AlnumCountAppend(a, b);
  }

  /** Whitespace, punctuation and other non-alphanumeric padding never changes the decision. */
  lemma {:induction false} PaddingIrrelevant(a: string, b: string)
    requires forall i :: 0 <= i < |b| ==> !IsAlnum(b[i])
    ensures NeedsOcr(a + b) == NeedsOcr(a)
  {
    AlnumCountZero(b);
    AlnumCountAppend(a, b);
  }

  /** `page.extract_text() or ""`. */
  function PageText(page: Option<string>): string {
    if page.Some? then page.value else ""
  }

  function PageTexts(pages: seq<Option<string>>): (ts: seq<string>)
    ensures |ts| == |pages| && forall i :: 0 <= i < |pages| ==> ts[i] == PageText(pages[i])
  {
    seq(|pages|, i requires 0 <= i < |pages| => PageText(pages[i]))
  }

  /** `_pdf_text`: the pages' text joined by "\n". */
  function PdfText(pages: seq<Option<string>>): (text: string)
    ensures AlnumCount(text) == TotalAlnum(PageTexts(pages))
  {
    JoinAlnum(PageTexts(pages));
    Join(PageTexts(pages), "\n")
  }

  /** Sum of the alphanumeric counts of several texts. */
  function TotalAlnum(ts: seq<string>): nat {
    if |ts| == 0 then 0 else AlnumCount(ts[0]) + TotalAlnum(ts[1..])
  }

  /** The separators contribute nothing: the document's count is the sum of the pages' counts. */
  lemma {:induction false} JoinAlnum(ts: seq<string>)
    ensures AlnumCount(Join(ts, "\n")) == TotalAlnum(ts)
  {
    if |ts| == 1 {
      assert Join(ts, "\n") == ts[0];
      assert ts[1..] == [];
    } else if |ts| >= 2 {
      var rest := Join(ts[1..], "\n");
      assert Join(ts, "\n") == (ts[0] + "\n") + rest;
      AlnumCountAppend(ts[0] + "\n", rest);
      AlnumCountAppend(ts[0], "\n");
      assert "\n"[..0] == "";
      JoinAlnum(ts[1..]);
    }
  }

  /** Every text counts towards the total. */
  lemma {:induction false} TotalAlnumAtLeast(ts: seq<string>, i: nat)
    requires i < |ts|
    ensures AlnumCount(ts[i]) <= TotalAlnum(ts)
  {
    if i > 0 {
      TotalAlnumAtLeast(ts[1..], i - 1);
    }
  }

  /** One page with enough text is enough for the whole document to skip OCR. */
  lemma {:induction false} RichPageSkipsOcr(pages: seq<Option<string>>, i: nat)
    requires i < |pages| && AlnumCount(PageText(pages[i])) >= OcrThreshold
    ensures !NeedsOcr(PdfText(pages))
  {
    JoinAlnum(PageTexts(pages));
    TotalAlnumAtLeast(PageTexts(pages), i);
  }

  /**
    `extract_pdf_text`: the PDF's own text, unless it needs OCR and OCR
    succeeds, in which case the recognised PDF's text. The OCR text is
    taken as it is, without comparing it to the original.
  */
  function ExtractPdfText(pages: seq<Option<string>>, ocr: Option<seq<Option<string>>>): (text: string)
    ensures text == PdfText(pages) || (ocr.Some? && text == PdfText(ocr.value))
    ensures text != PdfText(pages) ==> NeedsOcr(PdfText(pages)) && ocr.Some?
  {
    var text := PdfText(pages);
    if NeedsOcr(text) then
      match ocr
      case Some(recognised) => PdfText(recognised)
      case None => text
    else text
  }

  /** A document with enough text of its own is returned as it is, whatever OCR would do. */
  lemma {:induction false} OcrIrrelevantWhenTextRich(pages: seq<Option<string>>, ocr: Option<seq<Option<string>>>)
    requires !NeedsOcr(PdfText(pages))
    ensures ExtractPdfText(pages, ocr) == PdfText(pages)
  {
  }

  /** A failed OCR run leaves the original text. */
  lemma {:induction false} FailedOcrKeepsText(pages: seq<Option<string>>)
    ensures ExtractPdfText(pages, None) == PdfText(pages)
  {
  }

  /** A scan with a successful OCR run yields the recognised text, even if it holds less text. */
  lemma {:induction false} OcrTextReplaces(pages: seq<Option<string>>, recognised: seq<Option<string>>)
    requires NeedsOcr(PdfText(pages))
    ensures ExtractPdfText(pages, Some(recognised)) == PdfText(recognised)
  {
  }

  /** OCR can lose text: one page "abc" with an OCR result of one empty page gives "". */
  lemma {:induction false} OcrMayLoseText()
    ensures var pages := [Some("abc")];
            var text := ExtractPdfText(pages, Some([None]));
            text == "" && AlnumCount(text) < AlnumCount(PdfText(pages))
  {
    var pages := [Some("abc")];
    assert PageTexts(pages) == ["abc"];
    assert PdfText(pages) == "abc";
    assert "abc"[..2] == "ab" && "ab"[..1] == "a" && "a"[..0] == "";
    assert AlnumCount("abc") == 3;
    assert PageTexts([None]) == [""];
  }
}

=== FILE: raw_text.dfy ===
/**
  Raw-text extraction (`raw_text.py`): the file suffix, compared without
  regard to case, picks the extractor; whatever text the extractor yields
  is sanitised line by line before it is written. The extractors
  themselves read files and are a parameter here.
*/
module RawText {
  import opened Wrappers
  import opened Strings

  // ---------------------------------------------------------------------
  // str.splitlines

  /** The characters `str.splitlines` breaks at ("\r\n" counts as one break). */
  predicate IsLineBreak(c: char) {
    var n := c as int;
    (10 <= n <= 13) || (28 <= n <= 30) || n == 0x85 || n == 0x2028 || n == 0x2029
  }

  predicate NoBreak(s: string) {
    forall i :: 0 <= i < |s| ==> !IsLineBreak(s[i])
  }

  /** Index of the first line break in `s`, or `|s|`. */
  function FirstBreak(s: string): (i: nat)
    ensures i <= |s|
    ensures i < |s| ==> IsLineBreak(s[i])
    ensures forall j :: 0 <= j < i ==> !IsLineBreak(s[j])
  {
    if |s| == 0 || IsLineBreak(s[0]) then 0 else 1 + FirstBreak(s[1..])
  }

  /** `s.splitlines()`: no trailing empty line, and none at all for "". */
  function SplitLines(s: string): (ls: seq<string>)
    ensures forall k :: 0 <= k < |ls| ==> NoBreak(ls[k])
    decreases |s|
  {
    if |s| == 0 then []
    else
      var i := FirstBreak(s);
      if i == |s| then [s]
      else
        var next := if s[i] == '\r' && i + 1 < |s| && s[i + 1] == '\n' then i + 2 else i + 1;
        [s[..i]] + SplitLines(s[next..])
  }

  /** A line without breaks followed by "\n" splits off as the first line. */
  lemma {:induction false} SplitLinesStep(line: string, rest: string)
    requires NoBreak(line)
    ensures SplitLines(line + "\n" + rest) == [line] + SplitLines(rest)
  {
    var s := line + "\n" + rest;
    assert s[|line|] == '\n';
    assert FirstBreak(s) == |line|;
    assert s[..|line|] == line;
    assert s[|line| + 1..] == rest;
  }

  predicate AllNoBreak(ls: seq<string>) {
    forall k :: 0 <= k < |ls| ==> NoBreak(ls[k])
  }

  /** A non-empty text without breaks is one line. */
  lemma {:induction false} SplitSingle(s: string)
    requires NoBreak(s) && s != ""
    ensures SplitLines(s) == [s]
  {
    assert FirstBreak(s) == |s|;
  }

  lemma {:induction false} AllNoBreakTail(ls: seq<string>)
    requires AllNoBreak(ls) && |ls| > 0
    ensures AllNoBreak(ls[1..])
  {
    var tail := ls[1..];
    forall k | 0 <= k < |tail| ensures NoBreak(tail[k]) {
      assert tail[k] == ls[k + 1];
    }
  }

  lemma {:induction false} JoinCons(ls: seq<string>)
    requires |ls| >= 2
    ensures Join(ls, "\n") == ls[0] + "\n" + Join(ls[1..], "\n")
  {
  }

  /** Joining lines without breaks by "\n" and splitting again gives the lines back, unless the last is empty. */
  lemma {:induction false} SplitJoin(ls: seq<string>)
    requires AllNoBreak(ls)
    requires |ls| == 0 || ls[|ls| - 1] != ""
    ensures SplitLines(Join(ls, "\n")) == ls
    decreases |ls|
  {
    if |ls| == 1 {
      assert Join(ls, "\n") == ls[0];
      SplitSingle(ls[0]);
    } else if |ls| >= 2 {
      var rest := Join(ls[1..], "\n");
      calc {
        SplitLines(Join(ls, "\n"));
      == { JoinCons(ls); }
        SplitLines(ls[0] + "\n" + rest);
      == { SplitLinesStep(ls[0], rest); }
        [ls[0]] + SplitLines(rest);
      == { AllNoBreakTail(ls); SplitJoin(ls[1..]); }
        [ls[0]] + ls[1..];
      }
      assert [ls[0]] + ls[1..] == ls;
    }
  }

  // ---------------------------------------------------------------------
  // sanitize_text

  function StripAll(ls: seq<string>): (r: seq<string>)
    ensures |r| == |ls| && forall k :: 0 <= k < |ls| ==> r[k] == Strip(ls[k])
  {
    seq(|ls|, k requires 0 <= k < |ls| => Strip(ls[k]))
  }

  /**
    `sanitize_text(text)`: every line stripped, the lines joined by "\n",
    and the result stripped once more.
  */
  function Sanitize(text: string): (r: string)
    ensures Stripped(r)
  {
    Strip(Join(StripAll(SplitLines(text)), "\n"))
  }

  /** Lines without surrounding whitespace and without breaks: what stripping the split lines gives. */
  predicate CleanLines(ls: seq<string>) {
    forall k :: 0 <= k < |ls| ==> Stripped(ls[k]) && NoBreak(ls[k])
  }

  function DropLeadingBlank(ls: seq<string>): (r: seq<string>)
    ensures |r| <= |ls| && r == ls[|ls| - |r|..]
    ensures forall k :: 0 <= k < |ls| - |r| ==> ls[k] == ""
    ensures |r| == 0 || r[0] != ""
  {
    if |ls| > 0 && ls[0] == "" then
      var r := DropLeadingBlank(ls[1..]);
      assert ls[1..][|ls| - 1 - |r|..] == ls[|ls| - |r|..];
      assert forall k :: 1 <= k < |ls| - |r| ==> ls[k] == ls[1..][k - 1];
      r
    else ls
  }

  function DropTrailingBlank(ls: seq<string>): (r: seq<string>)
    ensures |r| <= |ls| && r == ls[..|r|]
    ensures forall k :: |r| <= k < |ls| ==> ls[k] == ""
    ensures |r| == 0 || r[|r| - 1] != ""
  {
    if |ls| > 0 && ls[|ls| - 1] == "" then
      var r := DropTrailingBlank(ls[..|ls| - 1]);
      assert ls[..|ls| - 1][..|r|] == ls[..|r|];
      assert forall k :: |r| <= k < |ls| - 1 ==> ls[k] == ls[..|ls| - 1][k];
      r
    else ls
  }

  lemma {:induction false} StripKeepsNoBreak(s: string)
    requires NoBreak(s)
    ensures NoBreak(Strip(s))
  {
    StripIsSlice(s);
  }

  lemma {:induction false} StripAllClean(ls: seq<string>)
    requires forall k :: 0 <= k < |ls| ==> NoBreak(ls[k])
    ensures CleanLines(StripAll(ls))
  {
    forall k | 0 <= k < |ls| ensures NoBreak(Strip(ls[k])) {
      StripKeepsNoBreak(ls[k]);
    }
  }

  lemma {:induction false} BreakIsSpace(c: char)
    requires IsLineBreak(c)
    ensures IsSpace(c)
  {
  }

  /** A blank first line contributes only whitespace to the front of the join. */
  lemma {:induction false} TrimStartBlankHead(ls: seq<string>)
    requires |ls| >= 2 && ls[0] == ""
    ensures TrimStart(Join(ls, "\n")) == TrimStart(Join(ls[1..], "\n"))
  {
    var rest := Join(ls[1..], "\n");
    var s := Join(ls, "\n");
    assert s == "\n" + rest && s[1..] == rest;
    BreakIsSpace('\n');
  }

  /** A blank last line contributes only whitespace to the end of the join. */
  lemma {:induction false} TrimEndBlankLast(ls: seq<string>)
    requires |ls| >= 2 && ls[|ls| - 1] == ""
    ensures TrimEnd(Join(ls, "\n")) == TrimEnd(Join(ls[..|ls| - 1], "\n"))
  {
    var init := Join(ls[..|ls| - 1], "\n");
    var s := Join(ls, "\n");
    JoinSnoc(ls, "\n");
    assert s == init + "\n" && s[..|s| - 1] == init;
    BreakIsSpace('\n');
  }

  /** The join of lines starting with a non-blank one starts with that line's first character. */
  lemma {:induction false} JoinHead(ls: seq<string>)
    requires |ls| > 0 && ls[0] != ""
    ensures |Join(ls, "\n")| > 0 && Join(ls, "\n")[0] == ls[0][0]
  {
    if |ls| >= 2 {
      assert Join(ls, "\n") == ls[0] + "\n" + Join(ls[1..], "\n");
    }
  }

  /** The join of lines ending with a non-blank one ends with that line's last character. */
  lemma {:induction false} JoinLast(ls: seq<string>)
    requires |ls| > 0 && ls[|ls| - 1] != ""
    ensures |Join(ls, "\n")| > 0 && Join(ls, "\n")[|Join(ls, "\n")| - 1] == ls[|ls| - 1][|ls[|ls| - 1]| - 1]
  {
    if |ls| >= 2 {
      JoinSnoc(ls, "\n");
    }
  }

  /** Dropping the first or the last of clean lines leaves clean lines. */
  lemma {:induction false} CleanParts(ls: seq<string>)
    requires CleanLines(ls) && |ls| > 0
    ensures CleanLines(ls[1..]) && CleanLines(ls[..|ls| - 1])
  {
    var tail, init := ls[1..], ls[..|ls| - 1];
    forall k | 0 <= k < |tail| ensures Stripped(tail[k]) && NoBreak(tail[k]) {
      assert tail[k] == ls[k + 1];
    }
    forall k | 0 <= k < |init| ensures Stripped(init[k]) && NoBreak(init[k]) {
      assert init[k] == ls[k];
    }
  }

  /** TrimStartJoin when the first line is not blank, or is the only one. */
  lemma {:induction false} TrimStartJoinHead(ls: seq<string>)
    requires |ls| > 0 && Stripped(ls[0])
    requires ls[0] != "" || |ls| == 1
    ensures TrimStart(Join(ls, "\n")) == Join(DropLeadingBlank(ls), "\n")
  {
    if ls[0] != "" {
      JoinHead(ls);
      assert DropLeadingBlank(ls) == ls;
    } else {
      assert Join(ls, "\n") == "";
      assert DropLeadingBlank(ls) == DropLeadingBlank([]);
    }
  }

  /** TrimEndJoin when the last line is not blank, or is the only one. */
  lemma {:induction false} TrimEndJoinLast(ls: seq<string>)
    requires |ls| > 0 && Stripped(ls[|ls| - 1])
    requires ls[|ls| - 1] != "" || |ls| == 1
    ensures TrimEnd(Join(ls, "\n")) == Join(DropTrailingBlank(ls), "\n")
  {
    if ls[|ls| - 1] != "" {
      JoinLast(ls);
      assert DropTrailingBlank(ls) == ls;
    } else {
      assert Join(ls, "\n") == "";
      assert DropTrailingBlank(ls) == DropTrailingBlank([]);
    }
  }

  /** Leading whitespace of joined clean lines is exactly the leading blank lines and their breaks. */
  lemma {:induction false} TrimStartJoin(ls: seq<string>)
    requires CleanLines(ls)
    ensures TrimStart(Join(ls, "\n")) == Join(DropLeadingBlank(ls), "\n")
    decreases |ls|
  {
    if |ls| == 0 {
    } else if ls[0] != "" || |ls| == 1 {
      TrimStartJoinHead(ls);
    } else {
      TrimStartBlankHead(ls);
      CleanParts(ls);
      TrimStartJoin(ls[1..]);
    }
  }

  /** Trailing whitespace of joined clean lines is exactly the trailing blank lines and their breaks. */
  lemma {:induction false} TrimEndJoin(ls: seq<string>)
    requires CleanLines(ls)
    ensures TrimEnd(Join(ls, "\n")) == Join(DropTrailingBlank(ls), "\n")
    decreases |ls|
  {
    if |ls| == 0 {
    } else if ls[|ls| - 1] != "" || |ls| == 1 {
      TrimEndJoinLast(ls);
    } else {
      TrimEndBlankLast(ls);
      CleanParts(ls);
      TrimEndJoin(ls[..|ls| - 1]);
    }
  }

  /** Clean lines without the blank lines at either end. */
  function Trimmed(ls: seq<string>): seq<string> {
    DropTrailingBlank(DropLeadingBlank(ls))
  }

  lemma {:induction false} DropLeadingClean(ls: seq<string>)
    requires CleanLines(ls)
    ensures CleanLines(DropLeadingBlank(ls))
    decreases |ls|
  {
    if |ls| > 0 && ls[0] == "" {
      CleanParts(ls);
      DropLeadingClean(ls[1..]);
    }
  }

  /** Stripping joined clean lines drops exactly the blank lines at either end. */
  lemma {:induction false} TrimmedFacts(ls: seq<string>)
    requires CleanLines(ls)
    ensures CleanLines(Trimmed(ls))
    ensures |Trimmed(ls)| == 0 || (Trimmed(ls)[0] != "" && Trimmed(ls)[|Trimmed(ls)| - 1] != "")
    ensures Strip(Join(ls, "\n")) == Join(Trimmed(ls), "\n")
  {
    var a := DropLeadingBlank(ls);
    var c := DropTrailingBlank(a);
    TrimStartJoin(ls);
    DropLeadingClean(ls);
    TrimEndJoin(a);
    forall k | 0 <= k < |c| ensures Stripped(c[k]) && NoBreak(c[k]) {
      assert c[k] == a[k];
    }
    if |c| > 0 {
      assert c[0] == a[0];
    }
  }

  /** The non-blank core of the stripped lines of `text`. */
  function Core(text: string): seq<string> {
    Trimmed(StripAll(SplitLines(text)))
  }

  /** The sanitised text is its non-blank core, joined by "\n". */
  lemma {:induction false} SanitizeIsCore(text: string)
    ensures CleanLines(Core(text))
    ensures |Core(text)| == 0 || (Core(text)[0] != "" && Core(text)[|Core(text)| - 1] != "")
    ensures Sanitize(text) == Join(Core(text), "\n")
  {
    var ls := StripAll(SplitLines(text));
    StripAllClean(SplitLines(text));
    TrimmedFacts(ls);
  }

  /** Every line of the sanitised text is free of surrounding whitespace. */
  lemma {:induction false} SanitizedLines(text: string)
    ensures SplitLines(Sanitize(text)) == Core(text)
    ensures forall k :: 0 <= k < |SplitLines(Sanitize(text))| ==> Stripped(SplitLines(Sanitize(text))[k])
  {
    SanitizeIsCore(text);
    SplitJoin(Core(text));
  }

  /** Clean lines with non-blank ends, joined by "\n", are left alone by sanitising. */
  lemma {:induction false} SanitizeFixesJoin(c: seq<string>)
    requires CleanLines(c)
    requires |c| == 0 || (c[0] != "" && c[|c| - 1] != "")
    ensures Sanitize(Join(c, "\n")) == Join(c, "\n")
  {
    SplitJoin(c);
    forall k | 0 <= k < |c| ensures Strip(c[k]) == c[k] {
      StripStripped(c[k]);
    }
    assert StripAll(c) == c;
    TrimmedFacts(c);
    assert DropLeadingBlank(c) == c;
  }

  /** Sanitising twice is sanitising once. */
  lemma {:induction false} SanitizeIdempotent(text: string)
    ensures Sanitize(Sanitize(text)) == Sanitize(text)
  {
    SanitizeIsCore(text);
    SanitizeFixesJoin(Core(text));
  }

  /** `c` is a contiguous run of `ls`, and everything of `ls` outside it is blank. */
  predicate BlankTrimOf(ls: seq<string>, c: seq<string>) {
    exists a, b :: 0 <= a <= b <= |ls| && c == ls[a..b]
                   && (forall k :: 0 <= k < a ==> ls[k] == "")
                   && (forall k :: b <= k < |ls| ==> ls[k] == "")
  }

  /** Everything of `ls` after the run `c` that starts at `a` is blank. */
  lemma {:induction false} BlankAfterRun(ls: seq<string>, d: seq<string>, c: seq<string>, a: nat)
    requires a <= |ls| && d == ls[a..] && |c| <= |d|
    requires forall k :: |c| <= k < |d| ==> d[k] == ""
    ensures forall k :: a + |c| <= k < |ls| ==> ls[k] == ""
  {
    forall k | a + |c| <= k < |ls| ensures ls[k] == "" {
      assert ls[k] == d[k - a];
    }
  }

  lemma {:induction false} TrimmedIsRun(ls: seq<string>)
    ensures BlankTrimOf(ls, Trimmed(ls))
  {
    var d := DropLeadingBlank(ls);
    var a := |ls| - |d|;
    var c := DropTrailingBlank(d);
    var b := a + |c|;
    assert c == ls[a..b] by {
      assert d == ls[a..] && c == d[..|c|];
      assert ls[a..][..|c|] == ls[a..b];
    }
    BlankAfterRun(ls, d, c, a);
  }

  /**
    Sanitising keeps the stripped lines in their original order: the
    result's lines are a contiguous run of them, and only blank lines are
    dropped at either end.
  */
  lemma {:induction false} SanitizeKeepsLines(text: string)
    ensures BlankTrimOf(StripAll(SplitLines(text)), SplitLines(Sanitize(text)))
  {
    SanitizedLines(text);
    TrimmedIsRun(StripAll(SplitLines(text)));
  }

  // ---------------------------------------------------------------------
  // Suffix classification in extract_raw_text_to_file

  /** The extractors `extract_raw_text_to_file` dispatches to. */
  datatype Extractor = PdfExtractor | ImageOcr | DocxExtractor | XlsxExtractor | ReadText

  datatype ExtractError = UnsupportedFormat(suffix: string)

  const ImageSuffixes: set<string> := {".jpg", ".jpeg", ".png", ".tiff", ".tif", ".heic"}

  /** Index of the last `c` in `s`, or -1. */
  function LastIndexOf(s: string, c: char): (i: int)
    ensures -1 <= i < |s|
    ensures i >= 0 ==> s[i] == c
    ensures forall j :: i < j < |s| ==> s[j] != c
  {
    if |s| == 0 then -1
    else if s[|s| - 1] == c then |s| - 1
    else LastIndexOf(s[..|s| - 1], c)
  }

  /** `Path(path).name` for a path with '/' separators. */
  function FileName(path: string): (name: string)
    ensures forall j :: 0 <= j < |name| ==> name[j] != '/'
  {
    path[LastIndexOf(path, '/') + 1..]
  }

  /**
    `Path(path).suffix`: from the last dot of the file name, provided that
    dot is neither its first nor its last character; "" otherwise.
  */
  function Suffix(path: string): (s: string)
    ensures s == "" || (|s| >= 2 && s[0] == '.' && forall j :: 1 <= j < |s| ==> s[j] != '.' && s[j] != '/')
  {
    var name := FileName(path);
    var i := LastIndexOf(name, '.');
    if 0 < i < |name| - 1 then name[i..] else ""
  }

  /** The dispatch on the lower-cased suffix; anything unrecognised is an error naming it. */
  function ClassifySuffix(suffix: string): (r: Result<Extractor, ExtractError>)
    ensures r.Failure? ==> r.error == UnsupportedFormat(LowerAscii(suffix))
  {
    var s := LowerAscii(suffix);
    if s == ".pdf" then Success(PdfExtractor)
    else if s in ImageSuffixes then Success(ImageOcr)
    else if s == ".docx" then Success(DocxExtractor)
    else if s == ".xlsx" then Success(XlsxExtractor)
    else if s in {".txt", ".csv"} then Success(ReadText)
    else Failure(UnsupportedFormat(s))
  }

  function Classify(path: string): Result<Extractor, ExtractError> {
    ClassifySuffix(Suffix(path))
  }

  /** Which suffixes reach which extractor, independent of case. */
  lemma {:induction false} ClassifyTable(suffix: string)
    ensures var s := LowerAscii(suffix);
            && (ClassifySuffix(suffix) == Success(PdfExtractor) <==> s == ".pdf")
            && (ClassifySuffix(suffix) == Success(ImageOcr) <==> s in ImageSuffixes)
            && (ClassifySuffix(suffix) == Success(DocxExtractor) <==> s == ".docx")
            && (ClassifySuffix(suffix) == Success(XlsxExtractor) <==> s == ".xlsx")
            && (ClassifySuffix(suffix) == Success(ReadText) <==> s == ".txt" || s == ".csv")
            && (ClassifySuffix(suffix).Failure? <==>
                  s !in ImageSuffixes + {".pdf", ".docx", ".xlsx", ".txt", ".csv"})
  {
  }

  /** Upper- and lower-case spellings of a suffix are classified alike. */
  lemma {:induction false} ClassifyIgnoresCase(suffix: string)
    ensures ClassifySuffix(LowerAscii(suffix)) == ClassifySuffix(suffix)
  {
    LowerAsciiIdempotent(suffix);
  }

  /**
    `extract_raw_text_to_file` without the file system: `read` stands for
    the extractor calls. The text is sanitised before it is returned (and,
    in the source, written).
  */
  function ExtractRawText(path: string, read: Extractor -> string): (r: Result<string, ExtractError>)
    ensures r.Failure? <==> Classify(path).Failure?
    ensures r.Failure? ==> r.error == UnsupportedFormat(LowerAscii(Suffix(path)))
    ensures r.Success? ==> SplitLines(r.value) == Core(read(Classify(path).value))
  {
    var e :- Classify(path);
    SanitizedLines(read(e));
    Success(Sanitize(read(e)))
  }

  /** What is written is already clean: sanitising it again changes nothing. */
  lemma {:induction false} WrittenTextIsClean(path: string, read: Extractor -> string)
    requires ExtractRawText(path, read).Success?
    ensures Sanitize(ExtractRawText(path, read).value) == ExtractRawText(path, read).value
    ensures Stripped(ExtractRawText(path, read).value)
  {
    SanitizeIdempotent(read(Classify(path).value));
  }
}

=== FILE: rechnung_model.dfy ===
/**
  The canonical invoice record (`Rechnung` and its parts) and the binding of
  an untyped draft onto it, as `Rechnung.model_validate` does it: required
  fields must be present, `Optional` fields without a default must be
  present but may be null, the currency defaults to "EUR", the country code
  has exactly two characters, nested records bind recursively, unknown keys
  are ignored, and any failure rejects the whole record.

  `RechnungJson` is the JSON form the record is persisted in
  (`model_dump_json`); binding that form gives the record back.
*/
module RechnungModel {
  import opened Wrappers
  import opened Strings
  import opened Json
  import opened IsoDate

  datatype Anschrift = Anschrift(strasse: string, plz: string, ort: string, land: string)

  datatype Dokument = Dokument(
    rechnungsnummer: string,
    rechnungsart: string,
    rechnungsdatum: Date,
    faelligkeitsdatum: Option<Date>,
    waehrung: string)

  datatype Partei = Partei(
    name: string,
    umsatzsteuerId: Option<string>,
    steuernummer: Option<string>,
    anschrift: Anschrift)

  datatype UmsatzsteuerPosition = UmsatzsteuerPosition(kategorie: string, satz: real)

  datatype Rechnungsposition = Rechnungsposition(
    positionsnummer: int,
    beschreibung: string,
    menge: real,
    einheit: string,
    einzelpreisNetto: real,
    positionsbetragNetto: real,
    umsatzsteuer: UmsatzsteuerPosition)

  datatype UmsatzsteuerAufschluesselung = UmsatzsteuerAufschluesselung(
    kategorie: string,
    satz: real,
    steuerbasisbetrag: real,
    steuerbetrag: real)

  datatype Summen = Summen(
    gesamtNetto: real,
    gesamtUmsatzsteuer: real,
    gesamtBrutto: real,
    zahlbetrag: real)

  datatype Zahlung = Zahlung(zahlungsart: string, iban: Option<string>, bic: Option<string>)

  datatype Bemerkung = Bemerkung(text: string)

  datatype Rechnung = Rechnung(
    dokument: Dokument,
    verkaeufer: Partei,
    kaeufer: Partei,
    positionen: seq<Rechnungsposition>,
    umsatzsteuerAufschluesselung: Option<seq<UmsatzsteuerAufschluesselung>>,
    summen: Summen,
    zahlung: Zahlung,
    bemerkungen: Option<seq<Bemerkung>>)

  /** Currency used when the draft names none. */
  const DefaultWaehrung := "EUR"

  /** Field path of a binding error, e.g. ["positionen", "0", "menge"]. */
  type Loc = seq<string>

  /** The constraints binding places beyond field types. */
  predicate WellFormed(r: Rechnung) {
    && ValidDate(r.dokument.rechnungsdatum)
    && (r.dokument.faelligkeitsdatum.Some? ==> ValidDate(r.dokument.faelligkeitsdatum.value))
    && |r.verkaeufer.anschrift.land| == 2
    && |r.kaeufer.anschrift.land| == 2
  }

  // ---------------------------------------------------------------------
  // Field-level coercions

  function AsObj(v: Json, loc: Loc): (r: Result<map<string, Json>, Error>)
    ensures r.Success? <==> v.JObj?
    ensures r.Success? ==> r.value == v.fields
    ensures r.Failure? ==> r.error.Binding?
  {
    if v.JObj? then Success(v.fields) else Failure(Binding(loc, WrongType))
  }

  /** A present field, or a `Missing` error at its path. */
  function Field(m: map<string, Json>, key: string, loc: Loc): (r: Result<Json, Error>)
    ensures r.Success? <==> key in m
    ensures r.Success? ==> r.value == m[key]
    ensures r.Failure? ==> r.error.Binding?
  {
    if key in m then Success(m[key]) else Failure(Binding(loc + [key], Missing))
  }

  /** `str` fields accept strings only (no number-to-string coercion). */
  function AsStr(v: Json, loc: Loc): (r: Result<string, Error>)
    ensures r.Success? <==> v.JStr?
    ensures r.Success? ==> r.value == v.s
    ensures r.Failure? ==> r.error.Binding?
  {
    if v.JStr? then Success(v.s) else Failure(Binding(loc, WrongType))
  }

  /** `float` fields accept what `float(...)` accepts. */
  function AsFloat(v: Json, loc: Loc): (r: Result<real, Error>)
    ensures r.Success? <==> ToFloat(v).Success?
    ensures r.Success? ==> r.value == ToFloat(v).value
    ensures r.Failure? ==> r.error.Binding?
  {
    match ToFloat(v)
    case Success(x) => Success(x)
    case Failure(_) => Failure(Binding(loc, WrongType))
  }

  /** `int` fields accept integral numbers, booleans and integer strings. */
  function AsInt(v: Json, loc: Loc): (r: Result<int, Error>)
    ensures v.JNum? && r.Success? ==> r.value as real == v.n
    ensures r.Failure? ==> r.error.Binding?
  {
    match v
    case JNum(n) => if n.Floor as real == n then Success(n.Floor) else Failure(Binding(loc, WrongType))
    case JBool(b) => Success(if b then 1 else 0)
    case JStr(s) =>
      (match ParseInt(Strip(s))
       case Some(i) => Success(i)
       case None => Failure(Binding(loc, WrongType)))
    case _ => Failure(Binding(loc, WrongType))
  }

  /** `date` fields accept ISO `YYYY-MM-DD` strings of existing days. */
  function AsDate(v: Json, loc: Loc): (r: Result<Date, Error>)
    ensures r.Success? ==> v.JStr? && ParseIsoDate(v.s) == Some(r.value)
    ensures r.Success? ==> ValidDate(r.value)
    ensures r.Failure? ==> r.error.Binding?
  {
    if !v.JStr? then Failure(Binding(loc, WrongType))
    else match ParseIsoDate(v.s)
      case Some(d) => Success(d)
      case None => Failure(Binding(loc, InvalidDate))
  }

  function StrField(m: map<string, Json>, key: string, loc: Loc): (r: Result<string, Error>)
    ensures r.Success? <==> key in m && m[key].JStr?
    ensures r.Success? ==> m[key] == JStr(r.value)
    ensures r.Failure? ==> r.error.Binding?
  {
    var v :- Field(m, key, loc);
    AsStr(v, loc + [key])
  }

  /** `Optional[str]` without default: must be present, may be null. */
  function OptStrField(m: map<string, Json>, key: string, loc: Loc): (r: Result<Option<string>, Error>)
    ensures r.Success? <==> key in m && (m[key].JNull? || m[key].JStr?)
    ensures r.Success? ==> m[key] == OptStrJson(r.value)
    ensures r.Failure? ==> r.error.Binding?
  {
    var v :- Field(m, key, loc);
    if v.JNull? then Success(None)
    else
      var s :- AsStr(v, loc + [key]);
      Success(Some(s))
  }

  function FloatField(m: map<string, Json>, key: string, loc: Loc): (r: Result<real, Error>)
    ensures r.Success? <==> key in m && ToFloat(m[key]).Success?
    ensures r.Success? ==> ToFloat(m[key]) == Success(r.value)
    ensures r.Failure? ==> r.error.Binding?
  {
    var v :- Field(m, key, loc);
    AsFloat(v, loc + [key])
  }

  // ---------------------------------------------------------------------
  // Records

  function BindAnschrift(v: Json, loc: Loc): (r: Result<Anschrift, Error>)
    ensures r.Success? ==> |r.value.land| == 2
    ensures r.Success? ==> v.JObj? && "strasse" in v.fields && "plz" in v.fields
                           && "ort" in v.fields && "land" in v.fields
    ensures r.Success? ==> v.fields["strasse"] == JStr(r.value.strasse) && v.fields["plz"] == JStr(r.value.plz)
                           && v.fields["ort"] == JStr(r.value.ort) && v.fields["land"] == JStr(r.value.land)
    ensures r.Failure? ==> r.error.Binding?
  {
    var m :- AsObj(v, loc);
    var strasse :- StrField(m, "strasse", loc);
    var plz :- StrField(m, "plz", loc);
    var ort :- StrField(m, "ort", loc);
    var land :- StrField(m, "land", loc);
    if |land| != 2 then Failure(Binding(loc + ["land"], WrongLength))
    else Success(Anschrift(strasse, plz, ort, land))
  }

  function BindDokument(v: Json, loc: Loc): (r: Result<Dokument, Error>)
    ensures r.Success? ==> v.JObj? && "rechnungsnummer" in v.fields && "rechnungsart" in v.fields
                           && "rechnungsdatum" in v.fields && "faelligkeitsdatum" in v.fields
    ensures r.Success? ==> v.fields["rechnungsnummer"] == JStr(r.value.rechnungsnummer)
    ensures r.Success? ==> v.fields["rechnungsart"] == JStr(r.value.rechnungsart)
    ensures r.Success? ==> AsDate(v.fields["rechnungsdatum"], loc + ["rechnungsdatum"]) == Success(r.value.rechnungsdatum)
    ensures r.Success? ==> (v.fields["faelligkeitsdatum"].JNull? <==> r.value.faelligkeitsdatum.None?)
    ensures r.Success? && r.value.faelligkeitsdatum.Some?
            ==> AsDate(v.fields["faelligkeitsdatum"], loc + ["faelligkeitsdatum"]) == Success(r.value.faelligkeitsdatum.value)
    ensures r.Success? && "waehrung" !in v.fields ==> r.value.waehrung == DefaultWaehrung
    ensures r.Success? && "waehrung" in v.fields ==> v.fields["waehrung"] == JStr(r.value.waehrung)
    ensures r.Success? ==> ValidDate(r.value.rechnungsdatum)
    ensures r.Success? && r.value.faelligkeitsdatum.Some? ==> ValidDate(r.value.faelligkeitsdatum.value)
    ensures r.Failure? ==> r.error.Binding?
  {
    var m :- AsObj(v, loc);
    var nummer :- StrField(m, "rechnungsnummer", loc);
    var art :- StrField(m, "rechnungsart", loc);
    var datumJson :- Field(m, "rechnungsdatum", loc);
    var datum :- AsDate(datumJson, loc + ["rechnungsdatum"]);
    var faelligJson :- Field(m, "faelligkeitsdatum", loc);
    var faellig :- if faelligJson.JNull? then Success(None)
                   else match AsDate(faelligJson, loc + ["faelligkeitsdatum"])
                     case Success(d) => Success(Some(d))
                     case Failure(e) => Failure(e);
    var waehrung :- if "waehrung" in m then AsStr(m["waehrung"], loc + ["waehrung"])
                    else Success(DefaultWaehrung);
    Success(Dokument(nummer, art, datum, faellig, waehrung))
  }

  function BindPartei(v: Json, loc: Loc): (r: Result<Partei, Error>)
    ensures r.Success? ==> v.JObj? && "anschrift" in v.fields
                           && BindAnschrift(v.fields["anschrift"], loc + ["anschrift"]) == Success(r.value.anschrift)
    ensures r.Success? ==> "name" in v.fields && v.fields["name"] == JStr(r.value.name)
    ensures r.Success? ==> "umsatzsteuer_id" in v.fields && v.fields["umsatzsteuer_id"] == OptStrJson(r.value.umsatzsteuerId)
    ensures r.Success? ==> "steuernummer" in v.fields && v.fields["steuernummer"] == OptStrJson(r.value.steuernummer)
    ensures r.Failure? ==> r.error.Binding?
  {
    var m :- AsObj(v, loc);
    var name :- StrField(m, "name", loc);
    var ustId :- OptStrField(m, "umsatzsteuer_id", loc);
    var stNr :- OptStrField(m, "steuernummer", loc);
    var anschriftJson :- Field(m, "anschrift", loc);
    var anschrift :- BindAnschrift(anschriftJson, loc + ["anschrift"]);
    Success(Partei(name, ustId, stNr, anschrift))
  }

  function BindUmsatzsteuerPosition(v: Json, loc: Loc): (r: Result<UmsatzsteuerPosition, Error>)
    ensures r.Success? ==> v.JObj? && "kategorie" in v.fields && "satz" in v.fields
    ensures r.Success? ==> v.fields["kategorie"] == JStr(r.value.kategorie)
    ensures r.Success? ==> ToFloat(v.fields["satz"]) == Success(r.value.satz)
    ensures r.Failure? ==> r.error.Binding?
  {
    var m :- AsObj(v, loc);
    var kategorie :- StrField(m, "kategorie", loc);
    var satz :- FloatField(m, "satz", loc);
    Success(UmsatzsteuerPosition(kategorie, satz))
  }

  function BindPosition(v: Json, loc: Loc): (r: Result<Rechnungsposition, Error>)
    ensures r.Success? ==> v.JObj? && "positionsnummer" in v.fields
                           && AsInt(v.fields["positionsnummer"], loc + ["positionsnummer"]) == Success(r.value.positionsnummer)
    ensures r.Success? ==> "beschreibung" in v.fields && v.fields["beschreibung"] == JStr(r.value.beschreibung)
    ensures r.Success? ==> "einheit" in v.fields && v.fields["einheit"] == JStr(r.value.einheit)
    ensures r.Success? ==> v.JObj? && "menge" in v.fields && "einzelpreis_netto" in v.fields
                           && "positionsbetrag_netto" in v.fields && "umsatzsteuer" in v.fields
    ensures r.Success? ==> ToFloat(v.fields["menge"]) == Success(r.value.menge)
    ensures r.Success? ==> ToFloat(v.fields["einzelpreis_netto"]) == Success(r.value.einzelpreisNetto)
    ensures r.Success? ==> ToFloat(v.fields["positionsbetrag_netto"]) == Success(r.value.positionsbetragNetto)
    ensures r.Success? ==> BindUmsatzsteuerPosition(v.fields["umsatzsteuer"], loc + ["umsatzsteuer"])
                           == Success(r.value.umsatzsteuer)
    ensures r.Failure? ==> r.error.Binding?
  {
    var m :- AsObj(v, loc);
    var nrJson :- Field(m, "positionsnummer", loc);
    var nr :- AsInt(nrJson, loc + ["positionsnummer"]);
    var beschreibung :- StrField(m, "beschreibung", loc);
    var menge :- FloatField(m, "menge", loc);
    var einheit :- StrField(m, "einheit", loc);
    var preis :- FloatField(m, "einzelpreis_netto", loc);
    var betrag :- FloatField(m, "positionsbetrag_netto", loc);
    var ustJson :- Field(m, "umsatzsteuer", loc);
    var ust :- BindUmsatzsteuerPosition(ustJson, loc + ["umsatzsteuer"]);
    Success(Rechnungsposition(nr, beschreibung, menge, einheit, preis, betrag, ust))
  }

  function BindAufschluesselung(v: Json, loc: Loc): (r: Result<UmsatzsteuerAufschluesselung, Error>)
    ensures r.Success? ==> v.JObj? && "kategorie" in v.fields && v.fields["kategorie"] == JStr(r.value.kategorie)
    ensures r.Success? ==> "satz" in v.fields && ToFloat(v.fields["satz"]) == Success(r.value.satz)
    ensures r.Success? ==> "steuerbasisbetrag" in v.fields
                           && ToFloat(v.fields["steuerbasisbetrag"]) == Success(r.value.steuerbasisbetrag)
    ensures r.Success? ==> "steuerbetrag" in v.fields
                           && ToFloat(v.fields["steuerbetrag"]) == Success(r.value.steuerbetrag)
    ensures r.Failure? ==> r.error.Binding?
  {
    var m :- AsObj(v, loc);
    var kategorie :- StrField(m, "kategorie", loc);
    var satz :- FloatField(m, "satz", loc);
    var basis :- FloatField(m, "steuerbasisbetrag", loc);
    var betrag :- FloatField(m, "steuerbetrag", loc);
    Success(UmsatzsteuerAufschluesselung(kategorie, satz, basis, betrag))
  }

  function BindSummen(v: Json, loc: Loc): (r: Result<Summen, Error>)
    ensures r.Success? ==> v.JObj? && "gesamt_netto" in v.fields && "gesamt_umsatzsteuer" in v.fields
                           && "gesamt_brutto" in v.fields && "zahlbetrag" in v.fields
    ensures r.Success? ==> ToFloat(v.fields["gesamt_netto"]) == Success(r.value.gesamtNetto)
    ensures r.Success? ==> ToFloat(v.fields["gesamt_umsatzsteuer"]) == Success(r.value.gesamtUmsatzsteuer)
    ensures r.Success? ==> ToFloat(v.fields["gesamt_brutto"]) == Success(r.value.gesamtBrutto)
    ensures r.Success? ==> ToFloat(v.fields["zahlbetrag"]) == Success(r.value.zahlbetrag)
    ensures r.Failure? ==> r.error.Binding?
  {
    var m :- AsObj(v, loc);
    var netto :- FloatField(m, "gesamt_netto", loc);
    var ust :- FloatField(m, "gesamt_umsatzsteuer", loc);
    var brutto :- FloatField(m, "gesamt_brutto", loc);
    var zahlbetrag :- FloatField(m, "zahlbetrag", loc);
    Success(Summen(netto, ust, brutto, zahlbetrag))
  }

  function BindZahlung(v: Json, loc: Loc): (r: Result<Zahlung, Error>)
    ensures r.Success? ==> v.JObj? && "zahlungsart" in v.fields && "iban" in v.fields && "bic" in v.fields
    ensures r.Success? ==> v.fields["zahlungsart"] == JStr(r.value.zahlungsart)
    ensures r.Success? ==> v.fields["iban"] == OptStrJson(r.value.iban) && v.fields["bic"] == OptStrJson(r.value.bic)
    ensures r.Failure? ==> r.error.Binding?
  {
    var m :- AsObj(v, loc);
    var art :- StrField(m, "zahlungsart", loc);
    var iban :- OptStrField(m, "iban", loc);
    var bic :- OptStrField(m, "bic", loc);
    Success(Zahlung(art, iban, bic))
  }

  function BindBemerkung(v: Json, loc: Loc): (r: Result<Bemerkung, Error>)
    ensures r.Success? ==> v.JObj? && "text" in v.fields && v.fields["text"] == JStr(r.value.text)
    ensures r.Failure? ==> r.error.Binding?
  {
    var m :- AsObj(v, loc);
    var text :- StrField(m, "text", loc);
    Success(Bemerkung(text))
  }

  /**
    `List[T]`: every element binds, in order, at path `loc + [index]`;
    the first element that fails rejects the list.
  */
  function BindList<T>(items: seq<Json>, loc: Loc, bind: (Json, Loc) -> Result<T, Error>, from: nat)
    : (r: Result<seq<T>, Error>)
    ensures r.Success? ==> |r.value| == |items|
    ensures r.Success? ==> forall i :: 0 <= i < |items| ==> bind(items[i], loc + [IntString(from + i)]) == Success(r.value[i])
    ensures r.Success? <==> forall i :: 0 <= i < |items| ==> bind(items[i], loc + [IntString(from + i)]).Success?
    ensures r.Failure? ==> exists i :: 0 <= i < |items| && bind(items[i], loc + [IntString(from + i)]) == Failure(r.error)
    decreases |items|, 1
  {
    if |items| == 0 then Success([])
    else
      var h :- bind(items[0], loc + [IntString(from)]);
      var t :- (BindListFailureShift(items, loc, bind, from); BindList(items[1..], loc, bind, from + 1));
      assert forall i :: 1 <= i < |items| ==> items[i] == items[1..][i - 1] && from + i == from + 1 + (i - 1);
      Success([h] + t)
  }

  /** A failure of the tail of a list is a failure of one of its elements, at its own path. */
  lemma {:induction false} BindListFailureShift<T>(items: seq<Json>, loc: Loc, bind: (Json, Loc) -> Result<T, Error>, from: nat)
    requires |items| > 0
    ensures var t := BindList(items[1..], loc, bind, from + 1);
            t.Failure? ==> exists i :: 0 <= i < |items| && bind(items[i], loc + [IntString(from + i)]) == Failure(t.error)
    decreases |items|, 0
  {
    var t := BindList(items[1..], loc, bind, from + 1);
    if t.Failure? {
      var k :| 0 <= k < |items[1..]| && bind(items[1..][k], loc + [IntString(from + 1 + k)]) == Failure(t.error);
      assert items[1..][k] == items[k + 1] && from + 1 + k == from + (k + 1);
    }
  }

  /** The element at position `i` of a successfully bound list is the binding of the `i`-th item. */
  lemma {:induction false} BindListAt<T>(items: seq<Json>, loc: Loc, bind: (Json, Loc) -> Result<T, Error>, from: nat,
                      xs: seq<T>, i: nat)
    requires BindList(items, loc, bind, from) == Success(xs)
    requires i < |items|
    ensures i < |xs| && bind(items[i], loc + [IntString(from + i)]) == Success(xs[i])
  {
  }

  function ListField<T>(m: map<string, Json>, key: string, loc: Loc, bind: (Json, Loc) -> Result<T, Error>)
    : (r: Result<seq<T>, Error>)
    ensures r.Success? ==> key in m && m[key].JArr? && BindList(m[key].items, loc + [key], bind, 0) == r
    ensures r.Failure? ==> r.error.Binding? || (key in m && m[key].JArr? && BindList(m[key].items, loc + [key], bind, 0) == r)
  {
    var v :- Field(m, key, loc);
    if v.JArr? then BindList(v.items, loc + [key], bind, 0) else Failure(Binding(loc + [key], WrongType))
  }

  /** `Optional[List[T]]` without default: must be present, may be null. */
  function OptListField<T>(m: map<string, Json>, key: string, loc: Loc, bind: (Json, Loc) -> Result<T, Error>)
    : (r: Result<Option<seq<T>>, Error>)
    ensures r.Success? ==> key in m
    ensures r.Success? && m[key].JNull? ==> r.value.None?
    ensures r.Success? && !m[key].JNull? ==> r.value.Some? && m[key].JArr?
                                             && BindList(m[key].items, loc + [key], bind, 0) == Success(r.value.value)
    ensures r.Failure? ==> r.error.Binding? || (key in m && m[key].JArr?
                                                && BindList(m[key].items, loc + [key], bind, 0) == Failure(r.error))
  {
    var v :- Field(m, key, loc);
    if v.JNull? then Success(None)
    else if v.JArr? then
      var xs :- BindList(v.items, loc + [key], bind, 0);
      Success(Some(xs))
    else Failure(Binding(loc + [key], WrongType))
  }

  /** A nested record field: present, and binding at path `[key]`. */
  function RecordField<T>(m: map<string, Json>, key: string, bind: (Json, Loc) -> Result<T, Error>)
    : (r: Result<T, Error>)
    ensures r.Success? ==> key in m && bind(m[key], [key]) == r
  {
    var v :- Field(m, key, []);
    bind(v, [key])
  }

  /**
    `Rechnung.model_validate(data)`. Nothing here restricts `rechnungsart`
    or requires line items: those are business rules, checked elsewhere.
  */
  function BindRechnung(m: map<string, Json>): (r: Result<Rechnung, Error>)
    ensures r.Success? ==> WellFormed(r.value)
    ensures r.Success? ==> "dokument" in m && "verkaeufer" in m && "kaeufer" in m && "positionen" in m
                           && "umsatzsteuer_aufschluesselung" in m && "summen" in m
                           && "zahlung" in m && "bemerkungen" in m
    ensures r.Success? ==> BindDokument(m["dokument"], ["dokument"]) == Success(r.value.dokument)
    ensures r.Success? ==> BindSummen(m["summen"], ["summen"]) == Success(r.value.summen)
    ensures r.Success? ==> ListField(m, "positionen", [], BindPosition) == Success(r.value.positionen)
    ensures r.Success? ==> OptListField(m, "umsatzsteuer_aufschluesselung", [], BindAufschluesselung)
                           == Success(r.value.umsatzsteuerAufschluesselung)
    ensures r.Success? ==> RecordField(m, "verkaeufer", BindPartei) == Success(r.value.verkaeufer)
    ensures r.Success? ==> RecordField(m, "kaeufer", BindPartei) == Success(r.value.kaeufer)
    ensures r.Success? ==> RecordField(m, "zahlung", BindZahlung) == Success(r.value.zahlung)
    ensures r.Success? ==> OptListField(m, "bemerkungen", [], BindBemerkung) == Success(r.value.bemerkungen)
    ensures r.Failure? ==> r.error.Binding?
  {
    var dokument :- RecordField(m, "dokument", BindDokument);
    var verkaeufer :- RecordField(m, "verkaeufer", BindPartei);
    var kaeufer :- RecordField(m, "kaeufer", BindPartei);
    var positionen :- ListField(m, "positionen", [], BindPosition);
    var aufschluesselung :- OptListField(m, "umsatzsteuer_aufschluesselung", [], BindAufschluesselung);
    var summen :- RecordField(m, "summen", BindSummen);
    var zahlung :- RecordField(m, "zahlung", BindZahlung);
    var bemerkungen :- OptListField(m, "bemerkungen", [], BindBemerkung);
    Success(Rechnung(dokument, verkaeufer, kaeufer, positionen, aufschluesselung, summen, zahlung, bemerkungen))
  }

  // ---------------------------------------------------------------------
  // JSON form (`model_dump` in JSON mode)

  function OptStrJson(o: Option<string>): Json {
    if o.Some? then JStr(o.value) else JNull
  }

  function AnschriftJson(a: Anschrift): Json {
    JObj(map["strasse" := JStr(a.strasse), "plz" := JStr(a.plz), "ort" := JStr(a.ort), "land" := JStr(a.land)])
  }

  function DokumentJson(d: Dokument): Json
    requires ValidDate(d.rechnungsdatum)
    requires d.faelligkeitsdatum.Some? ==> ValidDate(d.faelligkeitsdatum.value)
  {
    JObj(map[
      "rechnungsnummer" := JStr(d.rechnungsnummer),
      "rechnungsart" := JStr(d.rechnungsart),
      "rechnungsdatum" := JStr(IsoFormat(d.rechnungsdatum)),
      "faelligkeitsdatum" := (if d.faelligkeitsdatum.Some? then JStr(IsoFormat(d.faelligkeitsdatum.value)) else JNull),
      "waehrung" := JStr(d.waehrung)])
  }

  function ParteiJson(p: Partei): Json {
    JObj(map[
      "name" := JStr(p.name),
      "umsatzsteuer_id" := OptStrJson(p.umsatzsteuerId),
      "steuernummer" := OptStrJson(p.steuernummer),
      "anschrift" := AnschriftJson(p.anschrift)])
  }

  function UmsatzsteuerPositionJson(u: UmsatzsteuerPosition): Json {
    JObj(map["kategorie" := JStr(u.kategorie), "satz" := JNum(u.satz)])
  }

  function PositionJson(p: Rechnungsposition): Json {
    JObj(map[
      "positionsnummer" := JNum(p.positionsnummer as real),
      "beschreibung" := JStr(p.beschreibung),
      "menge" := JNum(p.menge),
      "einheit" := JStr(p.einheit),
      "einzelpreis_netto" := JNum(p.einzelpreisNetto),
      "positionsbetrag_netto" := JNum(p.positionsbetragNetto),
      "umsatzsteuer" := UmsatzsteuerPositionJson(p.umsatzsteuer)])
  }

  function AufschluesselungJson(a: UmsatzsteuerAufschluesselung): Json {
    JObj(map[
      "kategorie" := JStr(a.kategorie),
      "satz" := JNum(a.satz),
      "steuerbasisbetrag" := JNum(a.steuerbasisbetrag),
      "steuerbetrag" := JNum(a.steuerbetrag)])
  }

  function SummenJson(s: Summen): Json {
    JObj(map[
      "gesamt_netto" := JNum(s.gesamtNetto),
      "gesamt_umsatzsteuer" := JNum(s.gesamtUmsatzsteuer),
      "gesamt_brutto" := JNum(s.gesamtBrutto),
      "zahlbetrag" := JNum(s.zahlbetrag)])
  }

  function ZahlungJson(z: Zahlung): Json {
    JObj(map["zahlungsart" := JStr(z.zahlungsart), "iban" := OptStrJson(z.iban), "bic" := OptStrJson(z.bic)])
  }

  function BemerkungJson(b: Bemerkung): Json {
    JObj(map["text" := JStr(b.text)])
  }

  function MapJson<T>(xs: seq<T>, f: T -> Json): (r: seq<Json>)
    ensures |r| == |xs| && forall i :: 0 <= i < |xs| ==> r[i] == f(xs[i])
  {
    if |xs| == 0 then [] else [f(xs[0])] + MapJson(xs[1..], f)
  }

  function RechnungJson(r: Rechnung): Json
    requires WellFormed(r)
  {
    JObj(map[
      "dokument" := DokumentJson(r.dokument),
      "verkaeufer" := ParteiJson(r.verkaeufer),
      "kaeufer" := ParteiJson(r.kaeufer),
      "positionen" := JArr(MapJson(r.positionen, PositionJson)),
      "umsatzsteuer_aufschluesselung" :=
        (if r.umsatzsteuerAufschluesselung.Some?
         then JArr(MapJson(r.umsatzsteuerAufschluesselung.value, AufschluesselungJson)) else JNull),
      "summen" := SummenJson(r.summen),
      "zahlung" := ZahlungJson(r.zahlung),
      "bemerkungen" := (if r.bemerkungen.Some? then JArr(MapJson(r.bemerkungen.value, BemerkungJson)) else JNull)])
  }

  // ---------------------------------------------------------------------
  // Round trip: binding the persisted JSON form gives the record back

  /** Binding each element of a serialised list gives the list back. */
  lemma {:induction false} BindListOfJson<T>(xs: seq<T>, f: T -> Json, bind: (Json, Loc) -> Result<T, Error>,
                                            loc: Loc, from: nat)
    requires forall x, l :: bind(f(x), l) == Success(x)
    ensures BindList(MapJson(xs, f), loc, bind, from) == Success(xs)
    decreases |xs|
  {
    if |xs| > 0 {
      var items := MapJson(xs, f);
      BindListOfJson(xs[1..], f, bind, loc, from + 1);
      assert items[1..] == MapJson(xs[1..], f);
      assert bind(items[0], loc + [IntString(from)]) == Success(xs[0]);
      assert [xs[0]] + xs[1..] == xs;
    }
  }

  lemma {:induction false} PositionRoundTrip(p: Rechnungsposition, loc: Loc)
    ensures BindPosition(PositionJson(p), loc) == Success(p)
  {
    var m := PositionJson(p).fields;
    assert (p.positionsnummer as real).Floor == p.positionsnummer;
    assert AsInt(m["positionsnummer"], loc + ["positionsnummer"]) == Success(p.positionsnummer);
    assert StrField(m, "beschreibung", loc) == Success(p.beschreibung);
    assert FloatField(m, "menge", loc) == Success(p.menge);
    assert StrField(m, "einheit", loc) == Success(p.einheit);
    assert FloatField(m, "einzelpreis_netto", loc) == Success(p.einzelpreisNetto);
    assert FloatField(m, "positionsbetrag_netto", loc) == Success(p.positionsbetragNetto);
    assert BindUmsatzsteuerPosition(m["umsatzsteuer"], loc + ["umsatzsteuer"]) == Success(p.umsatzsteuer);
  }

  lemma {:induction false} DokumentRoundTrip(d: Dokument, loc: Loc)
    requires ValidDate(d.rechnungsdatum)
    requires d.faelligkeitsdatum.Some? ==> ValidDate(d.faelligkeitsdatum.value)
    ensures BindDokument(DokumentJson(d), loc) == Success(d)
  {
    ParseIsoFormat(d.rechnungsdatum);
    if d.faelligkeitsdatum.Some? {
      ParseIsoFormat(d.faelligkeitsdatum.value);
    }
  }

  lemma {:induction false} PositionenRoundTrip(xs: seq<Rechnungsposition>)
    ensures BindList(MapJson(xs, PositionJson), ["positionen"], BindPosition, 0) == Success(xs)
  {
    forall p, l ensures BindPosition(PositionJson(p), l) == Success(p) {
      PositionRoundTrip(p, l);
    }
    BindListOfJson(xs, PositionJson, BindPosition, ["positionen"], 0);
  }

  lemma {:induction false} AufschluesselungRoundTrip(o: Option<seq<UmsatzsteuerAufschluesselung>>, m: map<string, Json>)
    requires "umsatzsteuer_aufschluesselung" in m
    requires m["umsatzsteuer_aufschluesselung"]
             == (if o.Some? then JArr(MapJson(o.value, AufschluesselungJson)) else JNull)
    ensures OptListField(m, "umsatzsteuer_aufschluesselung", [], BindAufschluesselung) == Success(o)
  {
    var key := "umsatzsteuer_aufschluesselung";
    assert [] + [key] == [key];
    if o.Some? {
      BindListOfJson(o.value, AufschluesselungJson, BindAufschluesselung, [key], 0);
    }
  }

  lemma {:induction false} BemerkungenRoundTrip(o: Option<seq<Bemerkung>>, m: map<string, Json>)
    requires "bemerkungen" in m
    requires m["bemerkungen"] == (if o.Some? then JArr(MapJson(o.value, BemerkungJson)) else JNull)
    ensures OptListField(m, "bemerkungen", [], BindBemerkung) == Success(o)
  {
    var key := "bemerkungen";
    assert [] + [key] == [key];
    if o.Some? {
      BindListOfJson(o.value, BemerkungJson, BindBemerkung, [key], 0);
    }
  }

  lemma {:induction false} ParteiRoundTrip(p: Partei, loc: Loc)
    requires |p.anschrift.land| == 2
    ensures BindPartei(ParteiJson(p), loc) == Success(p)
  {
  }

  lemma {:induction false} RechnungJsonFields(r: Rechnung)
    requires WellFormed(r)
    ensures var m := RechnungJson(r).fields;
      && m["dokument"] == DokumentJson(r.dokument)
      && m["verkaeufer"] == ParteiJson(r.verkaeufer)
      && m["kaeufer"] == ParteiJson(r.kaeufer)
      && m["positionen"] == JArr(MapJson(r.positionen, PositionJson))
      && m["summen"] == SummenJson(r.summen)
      && m["zahlung"] == ZahlungJson(r.zahlung)
      && "umsatzsteuer_aufschluesselung" in m
      && m["umsatzsteuer_aufschluesselung"]
         == (if r.umsatzsteuerAufschluesselung.Some?
             then JArr(MapJson(r.umsatzsteuerAufschluesselung.value, AufschluesselungJson)) else JNull)
      && "bemerkungen" in m
      && m["bemerkungen"] == (if r.bemerkungen.Some? then JArr(MapJson(r.bemerkungen.value, BemerkungJson)) else JNull)
  {
  }

  /** Binding succeeds with `r` when every field binds to the matching part of `r`. */
  lemma {:induction false} BindRechnungOfParts(m: map<string, Json>, r: Rechnung)
    requires RecordField(m, "dokument", BindDokument) == Success(r.dokument)
    requires RecordField(m, "verkaeufer", BindPartei) == Success(r.verkaeufer)
    requires RecordField(m, "kaeufer", BindPartei) == Success(r.kaeufer)
    requires ListField(m, "positionen", [], BindPosition) == Success(r.positionen)
    requires OptListField(m, "umsatzsteuer_aufschluesselung", [], BindAufschluesselung)
             == Success(r.umsatzsteuerAufschluesselung)
    requires RecordField(m, "summen", BindSummen) == Success(r.summen)
    requires RecordField(m, "zahlung", BindZahlung) == Success(r.zahlung)
    requires OptListField(m, "bemerkungen", [], BindBemerkung) == Success(r.bemerkungen)
    ensures BindRechnung(m) == Success(r)
  {
  }

  lemma {:induction false} RecordFieldOf<T>(m: map<string, Json>, key: string, bind: (Json, Loc) -> Result<T, Error>, x: T)
    requires key in m && bind(m[key], [key]) == Success(x)
    ensures RecordField(m, key, bind) == Success(x)
  {
  }

  lemma {:induction false} PositionenField(m: map<string, Json>, xs: seq<Rechnungsposition>)
    requires "positionen" in m && m["positionen"] == JArr(MapJson(xs, PositionJson))
    ensures ListField(m, "positionen", [], BindPosition) == Success(xs)
  {
    PositionenRoundTrip(xs);
    assert [] + ["positionen"] == ["positionen"];
  }

  lemma {:induction false} SummenRoundTrip(s: Summen)
    ensures BindSummen(SummenJson(s), ["summen"]) == Success(s)
  {
  }

  lemma {:induction false} ZahlungRoundTrip(z: Zahlung)
    ensures BindZahlung(ZahlungJson(z), ["zahlung"]) == Success(z)
  {
  }

  lemma {:induction false} RoundTripFromFields(m: map<string, Json>, r: Rechnung)
    requires WellFormed(r)
    requires "dokument" in m && m["dokument"] == DokumentJson(r.dokument)
    requires "verkaeufer" in m && m["verkaeufer"] == ParteiJson(r.verkaeufer)
    requires "kaeufer" in m && m["kaeufer"] == ParteiJson(r.kaeufer)
    requires "positionen" in m && m["positionen"] == JArr(MapJson(r.positionen, PositionJson))
    requires "summen" in m && m["summen"] == SummenJson(r.summen)
    requires "zahlung" in m && m["zahlung"] == ZahlungJson(r.zahlung)
    requires "umsatzsteuer_aufschluesselung" in m
    requires m["umsatzsteuer_aufschluesselung"]
             == (if r.umsatzsteuerAufschluesselung.Some?
                 then JArr(MapJson(r.umsatzsteuerAufschluesselung.value, AufschluesselungJson)) else JNull)
    requires "bemerkungen" in m
    requires m["bemerkungen"] == (if r.bemerkungen.Some? then JArr(MapJson(r.bemerkungen.value, BemerkungJson)) else JNull)
    ensures BindRechnung(m) == Success(r)
  {
    DokumentRoundTrip(r.dokument, ["dokument"]);
    RecordFieldOf(m, "dokument", BindDokument, r.dokument);
    ParteiRoundTrip(r.verkaeufer, ["verkaeufer"]);
    RecordFieldOf(m, "verkaeufer", BindPartei, r.verkaeufer);
    ParteiRoundTrip(r.kaeufer, ["kaeufer"]);
    RecordFieldOf(m, "kaeufer", BindPartei, r.kaeufer);
    PositionenField(m, r.positionen);
    AufschluesselungRoundTrip(r.umsatzsteuerAufschluesselung, m);
    SummenRoundTrip(r.summen);
    RecordFieldOf(m, "summen", BindSummen, r.summen);
    ZahlungRoundTrip(r.zahlung);
    RecordFieldOf(m, "zahlung", BindZahlung, r.zahlung);
    BemerkungenRoundTrip(r.bemerkungen, m);
    BindRechnungOfParts(m, r);
  }

  /**
    The persisted JSON form of a well-formed record binds back to exactly
    that record; with BindRechnung's own contract (only well-formed records
    come out), the well-formed records are exactly those binding produces.
  */
  lemma {:induction false} RechnungRoundTrip(r: Rechnung)
    requires WellFormed(r)
    ensures BindRechnung(RechnungJson(r).fields) == Success(r)
  {
    RechnungJsonFields(r);
    RoundTripFromFields(RechnungJson(r).fields, r);
  }
}

=== FILE: regeln.dfy ===
/**
  The basic EN 16931 business rules applied to the merged draft
  (`check_basic`): in this order, the invoice type must be "RECHNUNG" or
  "GUTSCHRIFT", there must be line items, and every line item must have a
  non-negative quantity, unit price and line amount. The first violation
  aborts. The currency rule is disabled in the source and is absent here.
*/
module Regeln {
  import opened Wrappers
  import opened Json

  /** The invoice types the rules accept. */
  predicate ErlaubteRechnungsart(v: Json) {
    v == JStr("RECHNUNG") || v == JStr("GUTSCHRIFT")
  }

  /** `float(pos.get(key, 0))`. */
  function NumberOr0(pos: map<string, Json>, key: string): Result<real, Error> {
    ToFloat(Get(pos, key, JNum(0.0)))
  }

  /** The field reads as a number (missing counts as 0) that is not negative. */
  predicate NonNegative(pos: map<string, Json>, key: string) {
    NumberOr0(pos, key).Success? && NumberOr0(pos, key).value >= 0.0
  }

  /**
    The checks on one line item: quantity, then unit price, then line
    amount, each coerced with `float` (missing counts as 0) and rejected
    only when strictly negative.
  */
  function CheckPosition(pos: Json): (r: Outcome<Error>)
    ensures r.Fail? ==> r.error in {WrongShape, NotNumeric, NegativeQuantity, NegativePrice, NegativeAmount}
    ensures !pos.JObj? ==> r == Fail(WrongShape)
    // quantity first: its conversion error or its sign decides, whatever the later fields hold
    ensures pos.JObj? && NumberOr0(pos.fields, "menge").Failure?
            ==> r == Fail(NumberOr0(pos.fields, "menge").error)
    ensures pos.JObj? && NumberOr0(pos.fields, "menge").Success? && NumberOr0(pos.fields, "menge").value < 0.0
            ==> r == Fail(NegativeQuantity)
    // then the unit price, once the quantity is acceptable
    ensures pos.JObj? && NonNegative(pos.fields, "menge") && NumberOr0(pos.fields, "einzelpreis_netto").Failure?
            ==> r == Fail(NumberOr0(pos.fields, "einzelpreis_netto").error)
    ensures pos.JObj? && NonNegative(pos.fields, "menge") && NumberOr0(pos.fields, "einzelpreis_netto").Success?
            && NumberOr0(pos.fields, "einzelpreis_netto").value < 0.0
            ==> r == Fail(NegativePrice)
    // then the line amount, once quantity and unit price are acceptable
    ensures pos.JObj? && NonNegative(pos.fields, "menge") && NonNegative(pos.fields, "einzelpreis_netto")
            && NumberOr0(pos.fields, "positionsbetrag_netto").Failure?
            ==> r == Fail(NumberOr0(pos.fields, "positionsbetrag_netto").error)
    ensures pos.JObj? && NonNegative(pos.fields, "menge") && NonNegative(pos.fields, "einzelpreis_netto")
            && NumberOr0(pos.fields, "positionsbetrag_netto").Success?
            && NumberOr0(pos.fields, "positionsbetrag_netto").value < 0.0
            ==> r == Fail(NegativeAmount)
    ensures r == Fail(NegativePrice) ==> pos.JObj? && NonNegative(pos.fields, "menge")
    ensures r == Fail(NegativeAmount) ==> pos.JObj? && NonNegative(pos.fields, "menge")
                                          && NonNegative(pos.fields, "einzelpreis_netto")
  {
    if !pos.JObj? then Fail(WrongShape)
    else
      match NumberOr0(pos.fields, "menge")
      case Failure(e) => Fail(e)
      case Success(menge) =>
        if menge < 0.0 then Fail(NegativeQuantity)
        else match NumberOr0(pos.fields, "einzelpreis_netto")
          case Failure(e) => Fail(e)
          case Success(preis) =>
            if preis < 0.0 then Fail(NegativePrice)
            else match NumberOr0(pos.fields, "positionsbetrag_netto")
              case Failure(e) => Fail(e)
              case Success(betrag) =>
                if betrag < 0.0 then Fail(NegativeAmount) else Pass
  }

  /** Line items in list order; the first failing item decides the outcome. */
  function CheckPositions(items: seq<Json>): (r: Outcome<Error>)
    ensures r.Fail? ==> r.error in {WrongShape, NotNumeric, NegativeQuantity, NegativePrice, NegativeAmount}
  {
    if |items| == 0 then Pass
    else match CheckPosition(items[0])
      case Fail(e) => Fail(e)
      case Pass => CheckPositions(items[1..])
  }

  /** `check_basic(data)`. */
  function CheckBasic(data: map<string, Json>): (r: Outcome<Error>)
    ensures "dokument" !in data ==> r == Fail(InvalidInvoiceType)
    ensures var dok := Get(data, "dokument", JObj(map[]));
            dok.JObj? && Hashable(Get(dok.fields, "rechnungsart", JNull))
            && !ErlaubteRechnungsart(Get(dok.fields, "rechnungsart", JNull))
            ==> r == Fail(InvalidInvoiceType)
    ensures !Get(data, "dokument", JObj(map[])).JObj? ==> r == Fail(WrongShape)
    // the invoice type is checked before the line items are looked at
    ensures var dok := Get(data, "dokument", JObj(map[]));
            dok.JObj? && ErlaubteRechnungsart(Get(dok.fields, "rechnungsart", JNull))
            && Falsy(Get(data, "positionen", JNull))
            ==> r == Fail(NoPositions)
    ensures r == Fail(NoPositions) ==> Falsy(Get(data, "positionen", JNull))
    ensures var dok := Get(data, "dokument", JObj(map[]));
            r == Fail(NoPositions) ==> dok.JObj? && ErlaubteRechnungsart(Get(dok.fields, "rechnungsart", JNull))
    ensures r.Pass? ==> "dokument" in data && data["dokument"].JObj?
                        && "rechnungsart" in data["dokument"].fields
                        && ErlaubteRechnungsart(data["dokument"].fields["rechnungsart"])
    ensures r.Pass? ==> "positionen" in data && data["positionen"].JArr? && |data["positionen"].items| > 0
    // an unhashable invoice type, or a truthy `positionen` that is not a list, is a shape error
    ensures var dok := Get(data, "dokument", JObj(map[]));
            dok.JObj? && !Hashable(Get(dok.fields, "rechnungsart", JNull)) ==> r == Fail(WrongShape)
    ensures var dok := Get(data, "dokument", JObj(map[])); var p := Get(data, "positionen", JNull);
            dok.JObj? && ErlaubteRechnungsart(Get(dok.fields, "rechnungsart", JNull))
            && !Falsy(p) && !p.JArr?
            ==> r == Fail(WrongShape)
    // an invalid invoice type is reported only for a rejected, hashable value
    ensures var dok := Get(data, "dokument", JObj(map[]));
            r == Fail(InvalidInvoiceType)
            ==> dok.JObj? && Hashable(Get(dok.fields, "rechnungsart", JNull))
                && !ErlaubteRechnungsart(Get(dok.fields, "rechnungsart", JNull))
    // once the header passes, the outcome is that of the line items, checked in order
    ensures var dok := Get(data, "dokument", JObj(map[])); var p := Get(data, "positionen", JNull);
            dok.JObj? && ErlaubteRechnungsart(Get(dok.fields, "rechnungsart", JNull))
            && p.JArr? && |p.items| > 0
            ==> r == CheckPositions(p.items)
  {
    var dokument := Get(data, "dokument", JObj(map[]));
    if !dokument.JObj? then Fail(WrongShape)
    else
      var art := Get(dokument.fields, "rechnungsart", JNull);
      if !Hashable(art) then Fail(WrongShape)
      else if !ErlaubteRechnungsart(art) then Fail(InvalidInvoiceType)
      else
        var positionen := Get(data, "positionen", JNull);
        if Falsy(positionen) then Fail(NoPositions)
        else if positionen.JArr? then CheckPositions(positionen.items)
        else Fail(WrongShape)
  }

  // ---------------------------------------------------------------------
  // Declarative reading of the rules

  /** A line item the rules accept. */
  predicate PositionOk(pos: Json) {
    && pos.JObj?
    && NonNegative(pos.fields, "menge")
    && NonNegative(pos.fields, "einzelpreis_netto")
    && NonNegative(pos.fields, "positionsbetrag_netto")
  }

  /** A draft the rules accept, stated without reference to check order. */
  predicate RulesHold(data: map<string, Json>) {
    && "dokument" in data && data["dokument"].JObj?
    && "rechnungsart" in data["dokument"].fields
    && ErlaubteRechnungsart(data["dokument"].fields["rechnungsart"])
    && "positionen" in data && data["positionen"].JArr? && |data["positionen"].items| > 0
    && forall i :: 0 <= i < |data["positionen"].items| ==> PositionOk(data["positionen"].items[i])
  }

  lemma {:induction false} CheckPositionPassIff(pos: Json)
    ensures CheckPosition(pos).Pass? <==> PositionOk(pos)
  {
  }

  /** Item `i` fails with `e` and every item before it passes. */
  predicate FailsFirstAt(items: seq<Json>, i: int, e: Error) {
    0 <= i < |items| && CheckPosition(items[i]) == Fail(e)
    && forall j :: 0 <= j < i ==> CheckPosition(items[j]).Pass?
  }

  /** Failing first at `i > 0` is passing the head and failing first at `i - 1` in the tail. */
  lemma {:induction false} FailsFirstAtTail(items: seq<Json>, i: int, e: Error)
    requires |items| > 0 && i > 0
    ensures FailsFirstAt(items, i, e) <==> CheckPosition(items[0]).Pass? && FailsFirstAt(items[1..], i - 1, e)
  {
    var tail := items[1..];
    assert forall j :: 0 <= j < |tail| ==> tail[j] == items[j + 1];
    if CheckPosition(items[0]).Pass? && FailsFirstAt(tail, i - 1, e) {
      forall j | 0 <= j < i ensures CheckPosition(items[j]).Pass? {
        if j > 0 { assert items[j] == tail[j - 1]; }
      }
    }
  }

  /**
    Fail-fast order over the line items: the outcome is the failure of the
    first item that fails, and Pass when none does.
  */
  lemma {:induction false} CheckPositionsFirstFailure(items: seq<Json>, e: Error)
    ensures CheckPositions(items) == Fail(e) <==> exists i :: FailsFirstAt(items, i, e)
    decreases |items|
  {
    if |items| > 0 {
      var tail := items[1..];
      CheckPositionsFirstFailure(tail, e);
      if CheckPosition(items[0]).Pass? {
        assert CheckPositions(items) == CheckPositions(tail);
        if CheckPositions(items) == Fail(e) {
          var k :| FailsFirstAt(tail, k, e);
          FailsFirstAtTail(items, k + 1, e);
        }
        if exists i :: FailsFirstAt(items, i, e) {
          var i :| FailsFirstAt(items, i, e);
          assert i != 0;
          FailsFirstAtTail(items, i, e);
        }
      } else {
        assert CheckPositions(items) == CheckPosition(items[0]);
        if exists i :: FailsFirstAt(items, i, e) {
          var i :| FailsFirstAt(items, i, e);
          assert i == 0;
        }
        if CheckPositions(items) == Fail(e) {
          assert FailsFirstAt(items, 0, e);
        }
      }
    }
  }

  lemma {:induction false} CheckPositionsPassIff(items: seq<Json>)
    ensures CheckPositions(items).Pass? <==> forall i :: 0 <= i < |items| ==> PositionOk(items[i])
  {
    if |items| > 0 {
      CheckPositionsPassIff(items[1..]);
      CheckPositionPassIff(items[0]);
      assert forall i :: 1 <= i < |items| ==> items[i] == items[1..][i - 1];
      if forall i :: 0 <= i < |items| ==> PositionOk(items[i]) {
        forall i | 0 <= i < |items[1..]| ensures PositionOk(items[1..][i]) {
          assert items[1..][i] == items[i + 1];
        }
      }
    }
  }

  /** `check_basic` passes exactly on the drafts that satisfy every rule. */
  lemma {:induction false} CheckBasicPassIff(data: map<string, Json>)
    ensures CheckBasic(data).Pass? <==> RulesHold(data)
  {
    if "positionen" in data && data["positionen"].JArr? {
      CheckPositionsPassIff(data["positionen"].items);
    }
  }

  /** A line item whose three values are zero, or missing, passes. */
  lemma {:induction false} ZeroAndMissingPass(pos: map<string, Json>)
    requires forall k :: k in pos ==> pos[k] == JNum(0.0)
    ensures CheckPosition(JObj(pos)).Pass?
  {
    assert NumberOr0(pos, "menge") == Success(0.0);
    assert NumberOr0(pos, "einzelpreis_netto") == Success(0.0);
    assert NumberOr0(pos, "positionsbetrag_netto") == Success(0.0);
  }

  /** The currency is not checked: changing `dokument.waehrung` never changes the outcome. */
  lemma {:induction false} CurrencyIgnored(data: map<string, Json>, w: Json)
    requires "dokument" in data && data["dokument"].JObj?
    ensures CheckBasic(data["dokument" := JObj(data["dokument"].fields["waehrung" := w])]) == CheckBasic(data)
  {
    var d2 := data["dokument" := JObj(data["dokument"].fields["waehrung" := w])];
    assert Get(d2["dokument"].fields, "rechnungsart", JNull) == Get(data["dokument"].fields, "rechnungsart", JNull);
    assert Get(d2, "positionen", JNull) == Get(data, "positionen", JNull);
  }
}

=== FILE: strings.dfy ===
/**
  The parts of Python's `str` behaviour the invoice core relies on:
  whitespace stripping, joining, ASCII lower-casing, and the decimal
  notation used by `str(int)`, `int(str)` and `float(str)`.
*/
module Strings {
  import opened Wrappers

  /** Python's `str.isspace` for a single character. */
  predicate IsSpace(c: char) {
    var n := c as int;
    (9 <= n <= 13) || (28 <= n <= 32) || n == 0x85 || n == 0xA0 || n == 0x1680
    || (0x2000 <= n <= 0x200A) || n == 0x2028 || n == 0x2029 || n == 0x202F
    || n == 0x205F || n == 0x3000
  }

  /** `s` has no whitespace at either end. */
  predicate Stripped(s: string) {
    |s| == 0 || (!IsSpace(s[0]) && !IsSpace(s[|s| - 1]))
  }

  /** `s.lstrip()`: drops the whitespace prefix and nothing else. */
  function TrimStart(s: string): (r: string)
    ensures |r| <= |s| && r == s[|s| - |r|..]
    ensures forall i :: 0 <= i < |s| - |r| ==> IsSpace(s[i])
    ensures |r| == 0 || !IsSpace(r[0])
  {
    if |s| > 0 && IsSpace(s[0]) then TrimStart(s[1..]) else s
  }

  /** `s.rstrip()`: drops the whitespace suffix and nothing else. */
  function TrimEnd(s: string): (r: string)
    ensures |r| <= |s| && r == s[..|r|]
    ensures forall i :: |r| <= i < |s| ==> IsSpace(s[i])
    ensures |r| == 0 || !IsSpace(r[|r| - 1])
  {
    if |s| > 0 && IsSpace(s[|s| - 1]) then TrimEnd(s[..|s| - 1]) else s
  }

  /** `s.strip()`: the text between the whitespace prefix and suffix. */
  function Strip(s: string): (r: string)
    ensures Stripped(r)
    ensures |r| <= |s|
  {
    var t := TrimStart(s);
    var r := TrimEnd(t);
    assert |r| > 0 ==> r[0] == t[0];
    r
  }

  /** Stripping a string without surrounding whitespace changes nothing. */
  lemma {:induction false} StripStripped(s: string)
    requires Stripped(s)
    ensures Strip(s) == s
  {
  }

  /** The stripped text is a contiguous slice of the original. */
  lemma {:induction false} StripIsSlice(s: string)
    ensures exists i, j :: 0 <= i <= j <= |s| && Strip(s) == s[i..j]
  {
    var t := TrimStart(s);
    var k := |s| - |t|;
    var r := TrimEnd(t);
    assert r == s[k..k + |r|];
  }

  /** `sep.join(parts)`. */
  function Join(parts: seq<string>, sep: string): string {
    if |parts| == 0 then ""
    else if |parts| == 1 then parts[0]
    else parts[0] + sep + Join(parts[1..], sep)
  }

  /** Joining peels off the last part as well as the first. */
  lemma {:induction false} JoinSnoc(parts: seq<string>, sep: string)
    requires |parts| >= 2
    ensures Join(parts, sep) == Join(parts[..|parts| - 1], sep) + sep + parts[|parts| - 1]
  {
    if |parts| > 2 {
      JoinSnoc(parts[1..], sep);
      assert parts[1..][..|parts[1..]| - 1] == parts[..|parts| - 1][1..];
    }
  }

  /** `s.lower()` restricted to ASCII letters; every other character is kept. */
  function LowerAscii(s: string): (r: string)
    ensures |r| == |s|
    ensures forall i :: 0 <= i < |s| ==> ('A' <= s[i] <= 'Z' ==> r[i] == (s[i] as int + 32) as char)
    ensures forall i :: 0 <= i < |s| ==> (!('A' <= s[i] <= 'Z') ==> r[i] == s[i])
  {
    if |s| == 0 then ""
    else
      var c := s[0];
      [if 'A' <= c <= 'Z' then (c as int + 32) as char else c] + LowerAscii(s[1..])
  }

  /** Lower-casing twice is lower-casing once. */
  lemma {:induction false} LowerAsciiIdempotent(s: string)
    ensures LowerAscii(LowerAscii(s)) == LowerAscii(s)
  {
  }

  predicate IsDigit(c: char) { '0' <= c <= '9' }

  predicate AllDigits(s: string) {
    forall i :: 0 <= i < |s| ==> IsDigit(s[i])
  }

  function DigitChar(d: nat): (c: char)
    requires d < 10
    ensures IsDigit(c)
  {
    ('0' as int + d) as char
  }

  /** Value of a string of decimal digits (0 for the empty string). */
  function DigitsValue(s: string): nat
    requires AllDigits(s)
  {
    if |s| == 0 then 0 else DigitsValue(s[..|s| - 1]) * 10 + (s[|s| - 1] as int - '0' as int)
  }

  /** Non-empty decimal digits without a leading zero, unless the whole run is "0". */
  predicate CanonicalDigits(d: string) {
    |d| > 0 && AllDigits(d) && (d[0] != '0' || d == "0")
  }

  /** The notation `str` gives an `int`: an optional `-`, canonical digits, and never "-0". */
  predicate CanonicalInt(s: string) {
    |s| > 0 &&
    if s[0] == '-' then CanonicalDigits(s[1..]) && s[1..] != "0" else CanonicalDigits(s)
  }

  /** Decimal notation of a natural number, most significant digit first. */
  function NatString(n: nat): (s: string)
    ensures CanonicalDigits(s)
    ensures s == "0" <==> n == 0
    decreases n
  {
    if n < 10 then [DigitChar(n)]
    else
      var front := NatString(n / 10);
      assert front[0] != '0';
      front + [DigitChar(n % 10)]
  }

  /** `str(n)` for a Python `int`. */
  function IntString(n: int): (s: string)
    ensures CanonicalInt(s)
    ensures s[0] == '-' <==> n < 0
  {
    if n < 0 then "-" + NatString(-n) else NatString(n)
  }

  /** `int(s)` for a string of plain decimal notation with optional sign. */
  function ParseInt(s: string): Option<int> {
    if |s| > 0 && (s[0] == '-' || s[0] == '+') then
      var digits := s[1..];
      if |digits| > 0 && AllDigits(digits) then
        Some(if s[0] == '-' then -(DigitsValue(digits) as int) else DigitsValue(digits))
      else None
    else if |s| > 0 && AllDigits(s) then Some(DigitsValue(s))
    else None
  }

  lemma {:induction false} NatStringValue(n: nat)
    ensures DigitsValue(NatString(n)) == n
    decreases n
  {
    if n >= 10 {
      NatStringValue(n / 10);
      var s := NatString(n);
      assert s[..|s| - 1] == NatString(n / 10);
    }
  }

  /** `int(str(n)) == n`: the decimal notation of an integer reads back as it. */
  lemma {:induction false} IntStringRoundTrip(n: int)
    ensures ParseInt(IntString(n)) == Some(n)
  {
    if n < 0 {
      NatStringValue(-n);
      assert IntString(n)[1..] == NatString(-n);
    } else {
      NatStringValue(n);
    }
  }

  /** Canonical digits are the notation of their own value. */
  lemma {:induction false} CanonicalDigitsUnique(d: string)
    requires CanonicalDigits(d)
    ensures NatString(DigitsValue(d)) == d
    decreases |d|
  {
    if |d| > 1 {
      var front := d[..|d| - 1];
      CanonicalDigitsUnique(front);
      var a := DigitsValue(front);
      var last := d[|d| - 1] as int - '0' as int;
      assert a != 0;
      var v := a * 10 + last;
      assert v / 10 == a && v % 10 == last;
      assert NatString(v) == front + [DigitChar(last)];
      assert d == front + [d[|d| - 1]];
    }
  }

  /** `str(int(s)) == s` for canonical `s`: each integer has exactly one canonical notation. */
  lemma {:induction false} CanonicalIntUnique(s: string)
    requires CanonicalInt(s)
    ensures ParseInt(s).Some? && IntString(ParseInt(s).value) == s
  {
    if s[0] == '-' {
      CanonicalDigitsUnique(s[1..]);
      assert s == "-" + s[1..];
    } else {
      CanonicalDigitsUnique(s);
    }
  }

  /** Index of the first `c` in `s`, or `|s|` when there is none. */
  function IndexOf(s: string, c: char): (i: nat)
    ensures i <= |s|
    ensures i < |s| ==> s[i] == c
    ensures forall j :: 0 <= j < i ==> s[j] != c
  {
    if |s| == 0 || s[0] == c then 0 else 1 + IndexOf(s[1..], c)
  }

  function Pow10(n: nat): (p: nat)
    ensures p >= 1
  {
    if n == 0 then 1 else 10 * Pow10(n - 1)
  }

  /** Plain decimal notation without sign: digits, an optional point, digits. */
  function ParseUnsignedDecimal(s: string): Option<real> {
    var p := IndexOf(s, '.');
    var whole := s[..p];
    var frac := if p < |s| then s[p + 1..] else "";
    if |whole| + |frac| > 0 && AllDigits(whole) && AllDigits(frac) then
      Some(DigitsValue(whole) as real + DigitsValue(frac) as real / Pow10(|frac|) as real)
    else None
  }

  /** `float(s)` for plain decimal notation with optional sign and surrounding whitespace. */
  function ParseDecimal(s: string): Option<real> {
    var t := Strip(s);
    if |t| > 0 && (t[0] == '-' || t[0] == '+') then
      match ParseUnsignedDecimal(t[1..])
      case None => None
      case Some(v) => Some(if t[0] == '-' then -v else v)
    else ParseUnsignedDecimal(t)
  }
}

=== FILE: ubl_mapper.dfy ===
/**
  `map_to_ubl`: the canonical invoice as the dictionary the XRechnung
  (OASIS UBL 2.1) writer renders. Every nested dict of the source is a
  record here, one field per key; single-key wrappers such as
  `{"Party": ...}` or `{"IdentificationCode": ...}` are flattened.
*/
module UblMapper {
  import opened Wrappers
  import opened Strings
  import opened IsoDate
  import opened RechnungModel
  import opened Export

  /** EN 16931 as the customization, the XRechnung 3.0.1 standard as the profile. */
  const CustomizationId := "urn:cen.eu:en16931:2017"
  const ProfileId := "urn:fdc:de.gov:xrechnung:3.0.1"

  datatype PostalAddress = PostalAddress(streetName: string, cityName: string, postalZone: string, country: string)

  datatype Party = Party(partyName: string, postalAddress: PostalAddress, companyId: string)

  datatype TaxSubtotal = TaxSubtotal(taxableAmount: real, taxAmount: real, categoryId: string, percent: real)

  datatype TaxTotal = TaxTotal(taxAmount: real, subtotals: seq<TaxSubtotal>)

  datatype MonetaryTotal = MonetaryTotal(
    lineExtensionAmount: real,
    taxExclusiveAmount: real,
    taxInclusiveAmount: real,
    payableAmount: real)

  datatype InvoiceLine = InvoiceLine(
    id: string,
    quantity: real,
    unitCode: string,
    lineExtensionAmount: real,
    description: string,
    categoryId: string,
    percent: real,
    priceAmount: real)

  datatype Invoice = Invoice(
    customizationId: string,
    profileId: string,
    id: string,
    issueDate: string,
    invoiceTypeCode: string,
    currency: string,
    supplier: Party,
    customer: Party,
    taxTotal: TaxTotal,
    monetaryTotal: MonetaryTotal,
    lines: seq<InvoiceLine>)

  // ---------------------------------------------------------------------
  // Reading the dictionary back

  function PositionOf(l: InvoiceLine): Option<Rechnungsposition> {
    match ParseInt(l.id)
    case None => None
    case Some(n) =>
      Some(Rechnungsposition(n, l.description, l.quantity, l.unitCode, l.priceAmount, l.lineExtensionAmount,
                             UmsatzsteuerPosition(l.categoryId, l.percent)))
  }

  function EntryOf(t: TaxSubtotal): UmsatzsteuerAufschluesselung {
    UmsatzsteuerAufschluesselung(t.categoryId, t.percent, t.taxableAmount, t.taxAmount)
  }

  function AnschriftOf(a: PostalAddress): Anschrift {
    Anschrift(a.streetName, a.postalZone, a.cityName, a.country)
  }

  // ---------------------------------------------------------------------
  // _party and map_to_ubl

  /** `_party(p)`: name, postal address and the tax-ID fallback. */
  function PartyOf(p: Partei): (u: Party)
    ensures u.partyName == p.name && AnschriftOf(u.postalAddress) == p.anschrift
    ensures u.companyId == TaxId(p)
  {
    Party(p.name, PostalAddress(p.anschrift.strasse, p.anschrift.ort, p.anschrift.plz, p.anschrift.land), TaxId(p))
  }

  function LineOf(p: Rechnungsposition): (l: InvoiceLine)
    ensures PositionOf(l) == Some(p)
  {
    InvoiceLine(LineId(p.positionsnummer), p.menge, p.einheit, p.positionsbetragNetto, p.beschreibung,
                p.umsatzsteuer.kategorie, p.umsatzsteuer.satz, p.einzelpreisNetto)
  }

  function SubtotalOf(a: UmsatzsteuerAufschluesselung): (t: TaxSubtotal)
    ensures EntryOf(t) == a
  {
    TaxSubtotal(a.steuerbasisbetrag, a.steuerbetrag, a.kategorie, a.satz)
  }

  /** The `InvoiceLine` loop: one UBL line per position, in order, as the CII exporter does for its own line type. */
  function Lines(ps: seq<Rechnungsposition>): (ls: seq<InvoiceLine>)
    ensures |ls| == |ps| && forall i :: 0 <= i < |ps| ==> PositionOf(ls[i]) == Some(ps[i])
  {
    seq(|ps|, i requires 0 <= i < |ps| => LineOf(ps[i]))
  }

  /** The `TaxSubtotal` loop: one UBL subtotal per breakdown entry, in order. */
  function Subtotals(xs: seq<UmsatzsteuerAufschluesselung>): (ts: seq<TaxSubtotal>)
    ensures |ts| == |xs| && forall i :: 0 <= i < |xs| ==> EntryOf(ts[i]) == xs[i]
  {
    seq(|xs|, i requires 0 <= i < |xs| => SubtotalOf(xs[i]))
  }

  /** `map_to_ubl(rechnung)`. */
  function MapToUbl(r: Rechnung): (u: Invoice)
    requires ValidDate(r.dokument.rechnungsdatum)
    ensures u.customizationId == CustomizationId && u.profileId == ProfileId
    ensures u.invoiceTypeCode == TypeCode(r.dokument.rechnungsart)
    ensures u.id == r.dokument.rechnungsnummer && u.currency == r.dokument.waehrung
    ensures ParseIsoDate(u.issueDate) == Some(r.dokument.rechnungsdatum)
    ensures u.supplier == PartyOf(r.verkaeufer) && u.customer == PartyOf(r.kaeufer)
    ensures u.taxTotal.taxAmount == r.summen.gesamtUmsatzsteuer
    ensures |u.taxTotal.subtotals| == |BreakdownOrEmpty(r)|
    ensures forall i :: 0 <= i < |BreakdownOrEmpty(r)| ==> EntryOf(u.taxTotal.subtotals[i]) == BreakdownOrEmpty(r)[i]
    ensures u.monetaryTotal.lineExtensionAmount == r.summen.gesamtNetto
    ensures u.monetaryTotal.taxExclusiveAmount == r.summen.gesamtNetto
    ensures u.monetaryTotal.taxInclusiveAmount == r.summen.gesamtBrutto
    ensures u.monetaryTotal.payableAmount == r.summen.zahlbetrag
    ensures |u.lines| == |r.positionen|
    ensures forall i :: 0 <= i < |r.positionen| ==> PositionOf(u.lines[i]) == Some(r.positionen[i])
  {
    ParseIsoFormat(r.dokument.rechnungsdatum);
    Invoice(
      CustomizationId,
      ProfileId,
      r.dokument.rechnungsnummer,
      IsoFormat(r.dokument.rechnungsdatum),
      TypeCode(r.dokument.rechnungsart),
      r.dokument.waehrung,
      PartyOf(r.verkaeufer),
      PartyOf(r.kaeufer),
      TaxTotal(r.summen.gesamtUmsatzsteuer, Subtotals(BreakdownOrEmpty(r))),
      MonetaryTotal(r.summen.gesamtNetto, r.summen.gesamtNetto, r.summen.gesamtBrutto, r.summen.zahlbetrag),
      Lines(r.positionen))
  }
}

=== FILE: vat.dfy ===
/**
  The VAT breakdown of `_vat_breakdown`: line items are grouped by the key
  (kategorie, satz) into buckets kept in first-seen order. Each line adds
  its net amount to the bucket's taxable basis and `amount * satz / 100`
  to its tax, and both running totals are rounded to cents after every
  addition.
*/
module Vat {
  import opened Json
  import opened Money

  /** Bucket key: the tax category as found in the draft, and the rate in percent. */
  datatype TaxKey = TaxKey(kategorie: Json, satz: real)

  /** What one line item contributes: its key and its net amount. */
  datatype TaxLine = TaxLine(key: TaxKey, basis: real)

  datatype Bucket = Bucket(key: TaxKey, basis: real, steuer: real)

  /** Unrounded tax of one line: `basis * (satz / 100)`. */
  function LineTax(l: TaxLine): real {
    l.basis * (l.key.satz / 100.0)
  }

  function LineKeys(lines: seq<TaxLine>): (ks: seq<TaxKey>)
    ensures |ks| == |lines| && forall i :: 0 <= i < |lines| ==> ks[i] == lines[i].key
  {
    seq(|lines|, i requires 0 <= i < |lines| => lines[i].key)
  }

  /** The keys of the buckets; the same projection as LineKeys, on buckets. */
  function BucketKeys(bs: seq<Bucket>): (ks: seq<TaxKey>)
    ensures |ks| == |bs| && forall i :: 0 <= i < |bs| ==> ks[i] == bs[i].key
  {
    seq(|bs|, i requires 0 <= i < |bs| => bs[i].key)
  }

  /** Position of the bucket with key `k`, or `|bs|` when there is none. */
  function FindKey(bs: seq<Bucket>, k: TaxKey): (i: nat)
    ensures i <= |bs|
    ensures i < |bs| ==> bs[i].key == k
    ensures forall j :: 0 <= j < i ==> bs[j].key != k
  {
    if |bs| == 0 || bs[0].key == k then 0 else 1 + FindKey(bs[1..], k)
  }

  /** One loop iteration: `setdefault` the bucket, then add basis and tax, rounding each. */
  function AddLine(bs: seq<Bucket>, l: TaxLine): (r: seq<Bucket>)
    // a known key keeps the bucket list's shape; a new key opens a bucket at the end
    ensures FindKey(bs, l.key) < |bs| ==> BucketKeys(r) == BucketKeys(bs)
    ensures FindKey(bs, l.key) == |bs| ==> BucketKeys(r) == BucketKeys(bs) + [l.key]
    // the line's bucket accumulates its amount and tax, each total rounded to cents
    ensures var i := FindKey(bs, l.key);
            i < |bs| ==> r[i].basis == Round(bs[i].basis + l.basis) && r[i].steuer == Round(bs[i].steuer + LineTax(l))
    ensures var i := FindKey(bs, l.key);
            i == |bs| ==> r[i] == Bucket(l.key, Round(l.basis), Round(LineTax(l)))
    // every other bucket is left as it was
    ensures forall j :: 0 <= j < |bs| && bs[j].key != l.key ==> r[j] == bs[j]
  {
    var i := FindKey(bs, l.key);
    var b := if i < |bs| then bs[i] else Bucket(l.key, 0.0, 0.0);
    var b' := Bucket(b.key, Round(b.basis + l.basis), Round(b.steuer + LineTax(l)));
    if i < |bs| then bs[i := b'] else bs + [b']
  }

  /** The whole loop, a left fold of AddLine over the lines. */
  function Aggregate(lines: seq<TaxLine>): (r: seq<Bucket>)
    ensures |r| <= |lines|
    ensures |r| == 0 <==> |lines| == 0
  {
    if |lines| == 0 then [] else AddLine(Aggregate(lines[..|lines| - 1]), lines[|lines| - 1])
  }

  // ---------------------------------------------------------------------
  // Reference definitions

  /** The distinct keys of `ks`, each at the position of its first occurrence. */
  function FirstSeen(ks: seq<TaxKey>): seq<TaxKey> {
    if |ks| == 0 then []
    else
      var d := FirstSeen(ks[..|ks| - 1]);
      if ks[|ks| - 1] in d then d else d + [ks[|ks| - 1]]
  }

  predicate Distinct(ks: seq<TaxKey>) {
    forall i, j :: 0 <= i < j < |ks| ==> ks[i] != ks[j]
  }

  /** Index of the first occurrence of `k` in `ks`. */
  function FirstIndex(ks: seq<TaxKey>, k: TaxKey): (i: nat)
    requires k in ks
    ensures i < |ks| && ks[i] == k && k !in ks[..i]
    ensures forall t :: 0 <= t < i ==> ks[t] != k
  {
    if ks[0] == k then 0
    else
      var j := FirstIndex(ks[1..], k);
      assert ks[..j + 1] == [ks[0]] + ks[1..][..j];
      j + 1
  }

  /** Sum of the net amounts of the lines with key `k`. */
  function KeyBasis(lines: seq<TaxLine>, k: TaxKey): real {
    if |lines| == 0 then 0.0
    else KeyBasis(lines[..|lines| - 1], k) + (if lines[|lines| - 1].key == k then lines[|lines| - 1].basis else 0.0)
  }

  /** Sum of the per-line rounded taxes of the lines with key `k`. */
  function KeyTax(lines: seq<TaxLine>, k: TaxKey): real {
    if |lines| == 0 then 0.0
    else KeyTax(lines[..|lines| - 1], k) + (if lines[|lines| - 1].key == k then Round(LineTax(lines[|lines| - 1])) else 0.0)
  }

  /** The taxable bases of the buckets, in bucket order. */
  function Bases(bs: seq<Bucket>): (xs: seq<real>)
    ensures |xs| == |bs| && forall i :: 0 <= i < |bs| ==> xs[i] == bs[i].basis
  {
    seq(|bs|, i requires 0 <= i < |bs| => bs[i].basis)
  }

  function Taxes(bs: seq<Bucket>): (xs: seq<real>)
    ensures |xs| == |bs| && forall i :: 0 <= i < |bs| ==> xs[i] == bs[i].steuer
  {
    seq(|bs|, i requires 0 <= i < |bs| => bs[i].steuer)
  }

  /** The net amounts of the lines, in line order. */
  function LineBases(lines: seq<TaxLine>): (xs: seq<real>)
    ensures |xs| == |lines| && forall i :: 0 <= i < |lines| ==> xs[i] == lines[i].basis
  {
    seq(|lines|, i requires 0 <= i < |lines| => lines[i].basis)
  }

  function RoundedLineTaxes(lines: seq<TaxLine>): (xs: seq<real>)
    ensures |xs| == |lines| && forall i :: 0 <= i < |lines| ==> xs[i] == Round(LineTax(lines[i]))
  {
    seq(|lines|, i requires 0 <= i < |lines| => Round(LineTax(lines[i])))
  }

  predicate AllBasesCents(lines: seq<TaxLine>) {
    forall i :: 0 <= i < |lines| ==> IsCents(lines[i].basis)
  }

  predicate NonNegative(lines: seq<TaxLine>) {
    forall i :: 0 <= i < |lines| ==> lines[i].basis >= 0.0 && lines[i].key.satz >= 0.0
  }

  // ---------------------------------------------------------------------
  // Keys: one bucket per distinct key, in first-seen order

  /** The bucket keys are exactly the first-seen sequence of the line keys. */
  lemma {:induction false} AggregateKeys(lines: seq<TaxLine>)
    ensures BucketKeys(Aggregate(lines)) == FirstSeen(LineKeys(lines))
  {
    if |lines| > 0 {
      var p := lines[..|lines| - 1];
      var l := lines[|lines| - 1];
      AggregateKeys(p);
      assert LineKeys(lines) == LineKeys(p) + [l.key];
      assert Aggregate(lines) == AddLine(Aggregate(p), l);
      AddLineKeys(Aggregate(p), LineKeys(p), l);
    }
  }

  /** One more line extends the bucket keys as it extends the first-seen keys. */
  lemma {:induction false} AddLineKeys(bs: seq<Bucket>, ks: seq<TaxKey>, l: TaxLine)
    requires BucketKeys(bs) == FirstSeen(ks)
    ensures BucketKeys(AddLine(bs, l)) == FirstSeen(ks + [l.key])
  {
    assert (ks + [l.key])[..|ks|] == ks;
    var i := FindKey(bs, l.key);
    if i < |bs| {
      assert l.key == BucketKeys(bs)[i];
    } else {
      assert l.key !in BucketKeys(bs);
    }
  }

  /** The first-seen sequence holds every key once, and only keys that occur. */
  lemma {:induction false} FirstSeenDistinct(ks: seq<TaxKey>)
    ensures Distinct(FirstSeen(ks))
    ensures forall k :: k in FirstSeen(ks) <==> k in ks
  {
    if |ks| > 0 {
      var p := ks[..|ks| - 1];
      FirstSeenDistinct(p);
      assert ks == p + [ks[|ks| - 1]];
    }
  }

  /** Adding an element at the end does not move an earlier first occurrence. */
  lemma {:induction false} FirstIndexSnoc(p: seq<TaxKey>, x: TaxKey, k: TaxKey)
    requires k in p
    ensures FirstIndex(p + [x], k) == FirstIndex(p, k)
  {
    var i := FirstIndex(p, k);
    var j := FirstIndex(p + [x], k);
    assert (p + [x])[i] == k;
    assert forall t :: 0 <= t < |p| ==> (p + [x])[t] == p[t];
  }

  /** Keys of the first-seen sequence are ordered by their first occurrence. */
  lemma {:induction false} FirstSeenOrder(ks: seq<TaxKey>)
    ensures forall k :: k in FirstSeen(ks) ==> k in ks
    ensures forall i, j :: 0 <= i < j < |FirstSeen(ks)| ==>
              FirstIndex(ks, FirstSeen(ks)[i]) < FirstIndex(ks, FirstSeen(ks)[j])
  {
    FirstSeenDistinct(ks);
    if |ks| > 0 {
      var p := ks[..|ks| - 1];
      var x := ks[|ks| - 1];
      FirstSeenOrder(p);
      FirstSeenDistinct(p);
      assert ks == p + [x];
      var d := FirstSeen(p);
      forall k | k in d ensures FirstIndex(ks, k) == FirstIndex(p, k) {
        FirstIndexSnoc(p, x, k);
      }
      if x !in d {
        assert x !in p;
        assert FirstIndex(ks, x) == |p|;
        forall i, j | 0 <= i < j < |FirstSeen(ks)|
          ensures FirstIndex(ks, FirstSeen(ks)[i]) < FirstIndex(ks, FirstSeen(ks)[j])
        {
          if j == |d| {
            assert FirstSeen(ks)[i] == d[i];
            assert FirstIndex(p, d[i]) < |p|;
          } else {
            assert FirstSeen(ks)[i] == d[i] && FirstSeen(ks)[j] == d[j];
          }
        }
      }
    }
  }

  /**
    The breakdown has exactly one bucket per distinct (kategorie, satz) key
    of the lines, no key twice, in the order the keys first occur.
  */
  lemma {:induction false} BucketsOnePerKey(lines: seq<TaxLine>)
    ensures Distinct(BucketKeys(Aggregate(lines)))
    ensures forall k :: k in BucketKeys(Aggregate(lines)) <==> k in LineKeys(lines)
    ensures forall i, j :: 0 <= i < j < |Aggregate(lines)| ==>
              FirstIndex(LineKeys(lines), Aggregate(lines)[i].key) < FirstIndex(LineKeys(lines), Aggregate(lines)[j].key)
  {
    AggregateKeys(lines);
    FirstSeenDistinct(LineKeys(lines));
    FirstSeenOrder(LineKeys(lines));
    var bs := Aggregate(lines);
    assert forall i :: 0 <= i < |bs| ==> bs[i].key == FirstSeen(LineKeys(lines))[i];
  }

  // ---------------------------------------------------------------------
  // Amounts

  lemma {:induction false} SumSnoc(xs: seq<real>, v: real)
    ensures Sum(xs + [v]) == Sum(xs) + v
  {
    assert (xs + [v])[..|xs|] == xs;
  }

  lemma {:induction false} SumUpdate(xs: seq<real>, i: nat, v: real)
    requires i < |xs|
    ensures Sum(xs[i := v]) == Sum(xs) - xs[i] + v
  {
    if i < |xs| - 1 {
      SumUpdate(xs[..|xs| - 1], i, v);
      assert xs[i := v][..|xs| - 1] == xs[..|xs| - 1][i := v];
    } else {
      assert xs[i := v][..|xs| - 1] == xs[..|xs| - 1];
    }
  }

  /** A key that no line has collects nothing. */
  lemma {:induction false} KeySumsOfAbsentKey(lines: seq<TaxLine>, k: TaxKey)
    requires k !in LineKeys(lines)
    ensures KeyBasis(lines, k) == 0.0 && KeyTax(lines, k) == 0.0
  {
    if |lines| > 0 {
      var p := lines[..|lines| - 1];
      assert LineKeys(lines)[..|lines| - 1] == LineKeys(p);
      assert lines[|lines| - 1].key == LineKeys(lines)[|lines| - 1];
      KeySumsOfAbsentKey(p, k);
    }
  }

  lemma {:induction false} ProjectUpdate(bs: seq<Bucket>, i: nat, b: Bucket)
    requires i < |bs|
    ensures Bases(bs[i := b]) == Bases(bs)[i := b.basis]
    ensures Taxes(bs[i := b]) == Taxes(bs)[i := b.steuer]
  {
  }

  lemma {:induction false} ProjectSnoc(bs: seq<Bucket>, b: Bucket)
    ensures Bases(bs + [b]) == Bases(bs) + [b.basis]
    ensures Taxes(bs + [b]) == Taxes(bs) + [b.steuer]
  {
  }

  /** The bucket list before and after one more line. */
  lemma {:induction false} AddLineShape(bs: seq<Bucket>, l: TaxLine)
    ensures var i := FindKey(bs, l.key);
            var b := if i < |bs| then bs[i] else Bucket(l.key, 0.0, 0.0);
            var b' := Bucket(l.key, Round(b.basis + l.basis), Round(b.steuer + LineTax(l)));
            AddLine(bs, l) == if i < |bs| then bs[i := b'] else bs + [b']
  {
  }

  /** The buckets before the last line carry distinct keys, none of them the last line's key unless found. */
  lemma {:induction false} PrefixKeys(lines: seq<TaxLine>)
    requires |lines| > 0
    ensures var p := lines[..|lines| - 1];
            Distinct(BucketKeys(Aggregate(p)))
            && (FindKey(Aggregate(p), lines[|lines| - 1].key) == |Aggregate(p)| ==> lines[|lines| - 1].key !in LineKeys(p))
  {
    var p := lines[..|lines| - 1];
    BucketsOnePerKey(p);
  }

  /**
    With whole-cent line amounts the per-step rounding of the basis is
    exact: each bucket's basis is the sum of its lines' amounts.
  */
  lemma {:induction false} BucketBases(lines: seq<TaxLine>)
    requires AllBasesCents(lines)
    ensures forall i :: 0 <= i < |Aggregate(lines)| ==>
              Aggregate(lines)[i].basis == KeyBasis(lines, Aggregate(lines)[i].key)
              && IsCents(Aggregate(lines)[i].basis)
  {
    if |lines| > 0 {
      var p := lines[..|lines| - 1];
      var l := lines[|lines| - 1];
      BucketBases(p);
      PrefixKeys(lines);
      var bs := Aggregate(p);
      var i := FindKey(bs, l.key);
      var b := if i < |bs| then bs[i] else Bucket(l.key, 0.0, 0.0);
      assert IsCents(b.basis) by {
        if i == |bs| { assert b.basis * 100.0 == 0 as real; }
      }
      CentsAdd(b.basis, l.basis);
      RoundOfCents(b.basis + l.basis);
      AddLineShape(bs, l);
      if i == |bs| {
        KeySumsOfAbsentKey(p, l.key);
      }
      var r := Aggregate(lines);
      forall j | 0 <= j < |r| ensures r[j].basis == KeyBasis(lines, r[j].key) && IsCents(r[j].basis) {
        if j != i {
          assert r[j] == bs[j];
          assert i == |bs| || BucketKeys(bs)[j] != BucketKeys(bs)[i];
        }
      }
    }
  }

  /** Adding a whole-cent line to whole-cent buckets adds its amount to the bases' sum. */
  lemma {:induction false} AddLineBasis(bs: seq<Bucket>, l: TaxLine)
    requires forall j :: 0 <= j < |bs| ==> IsCents(bs[j].basis)
    requires IsCents(l.basis)
    ensures Sum(Bases(AddLine(bs, l))) == Sum(Bases(bs)) + l.basis
  {
    var i := FindKey(bs, l.key);
    var b := if i < |bs| then bs[i] else Bucket(l.key, 0.0, 0.0);
    assert IsCents(b.basis) by {
      if i == |bs| { assert b.basis * 100.0 == 0 as real; }
    }
    CentsAdd(b.basis, l.basis);
    RoundOfCents(b.basis + l.basis);
    AddLineShape(bs, l);
    var b' := Bucket(l.key, b.basis + l.basis, Round(b.steuer + LineTax(l)));
    var r := AddLine(bs, l);
    if i < |bs| {
      assert r == bs[i := b'];
      ProjectUpdate(bs, i, b');
      SumUpdate(Bases(bs), i, b'.basis);
    } else {
      assert r == bs + [b'];
      ProjectSnoc(bs, b');
      SumSnoc(Bases(bs), b'.basis);
    }
  }

  /** The per-line sequences grow by one entry with each line. */
  lemma {:induction false} LineSeqsSnoc(lines: seq<TaxLine>)
    requires |lines| > 0
    ensures var p, l := lines[..|lines| - 1], lines[|lines| - 1];
            LineBases(lines) == LineBases(p) + [l.basis]
            && RoundedLineTaxes(lines) == RoundedLineTaxes(p) + [Round(LineTax(l))]
  {
    var p, l := lines[..|lines| - 1], lines[|lines| - 1];
    assert LineBases(lines) == LineBases(p) + [l.basis];
    assert RoundedLineTaxes(lines) == RoundedLineTaxes(p) + [Round(LineTax(l))];
  }

  /** The bases of all buckets add up to the sum of all line amounts. */
  lemma {:induction false} TotalBasis(lines: seq<TaxLine>)
    requires AllBasesCents(lines)
    ensures Sum(Bases(Aggregate(lines))) == Sum(LineBases(lines))
  {
    if |lines| > 0 {
      var p := lines[..|lines| - 1];
      var l := lines[|lines| - 1];
      assert AllBasesCents(p) by {
        forall k | 0 <= k < |p| ensures IsCents(p[k].basis) {
          assert p[k] == lines[k];
        }
      }
      TotalBasis(p);
      BucketBases(p);
      LineSeqsSnoc(lines);
      SumSnoc(LineBases(p), l.basis);
      AddLineBasis(Aggregate(p), l);
    }
  }

  /**
    For non-negative amounts and rates, rounding the running tax after each
    addition gives the same as adding the per-line rounded taxes: each
    bucket's tax is the sum of its lines' rounded taxes, and is a
    non-negative whole number of cents.
  */
  lemma {:induction false} BucketTaxes(lines: seq<TaxLine>)
    requires NonNegative(lines)
    ensures forall i :: 0 <= i < |Aggregate(lines)| ==>
              Aggregate(lines)[i].steuer == KeyTax(lines, Aggregate(lines)[i].key)
              && Aggregate(lines)[i].steuer >= 0.0 && IsCents(Aggregate(lines)[i].steuer)
  {
    if |lines| > 0 {
      var p := lines[..|lines| - 1];
      var l := lines[|lines| - 1];
      BucketTaxes(p);
      PrefixKeys(lines);
      var bs := Aggregate(p);
      var i := FindKey(bs, l.key);
      var b := if i < |bs| then bs[i] else Bucket(l.key, 0.0, 0.0);
      assert IsCents(b.steuer) && b.steuer >= 0.0 by {
        if i == |bs| { assert b.steuer * 100.0 == 0 as real; }
      }
      assert LineTax(l) >= 0.0;
      RoundShift(b.steuer, LineTax(l));
      AddLineShape(bs, l);
      if i == |bs| {
        KeySumsOfAbsentKey(p, l.key);
      }
      var r := Aggregate(lines);
      forall j | 0 <= j < |r|
        ensures r[j].steuer == KeyTax(lines, r[j].key) && r[j].steuer >= 0.0 && IsCents(r[j].steuer)
      {
        if j != i {
          assert r[j] == bs[j];
          assert i == |bs| || BucketKeys(bs)[j] != BucketKeys(bs)[i];
        }
      }
    }
  }

  /** One line adds its rounded tax to the total of the bucket taxes. */
  lemma {:induction false} TaxStep(bs: seq<Bucket>, l: TaxLine)
    requires forall j :: 0 <= j < |bs| ==> bs[j].steuer >= 0.0 && IsCents(bs[j].steuer)
    requires l.basis >= 0.0 && l.key.satz >= 0.0
    ensures Sum(Taxes(AddLine(bs, l))) == Sum(Taxes(bs)) + Round(LineTax(l))
  {
    var i := FindKey(bs, l.key);
    var b := if i < |bs| then bs[i] else Bucket(l.key, 0.0, 0.0);
    assert IsCents(b.steuer) && b.steuer >= 0.0 by {
      if i == |bs| { assert b.steuer * 100.0 == 0 as real; }
    }
    assert LineTax(l) >= 0.0;
    RoundShift(b.steuer, LineTax(l));
    AddLineShape(bs, l);
    var b' := Bucket(l.key, Round(b.basis + l.basis), b.steuer + Round(LineTax(l)));
    if i < |bs| {
      assert AddLine(bs, l) == bs[i := b'];
      ProjectUpdate(bs, i, b');
      SumUpdate(Taxes(bs), i, b'.steuer);
    } else {
      assert AddLine(bs, l) == bs + [b'];
      ProjectSnoc(bs, b');
      SumSnoc(Taxes(bs), b'.steuer);
    }
  }

  /** The taxes of all buckets add up to the sum of the per-line rounded taxes. */
  lemma {:induction false} TotalTax(lines: seq<TaxLine>)
    requires NonNegative(lines)
    ensures Sum(Taxes(Aggregate(lines))) == Sum(RoundedLineTaxes(lines))
  {
    if |lines| > 0 {
      var p := lines[..|lines| - 1];
      var l := lines[|lines| - 1];
      assert NonNegative(p) && l.basis >= 0.0 && l.key.satz >= 0.0 by {
        forall k | 0 <= k < |p| ensures p[k] == lines[k] { }
      }
      assert Aggregate(lines) == AddLine(Aggregate(p), l);
      TotalTax(p);
      BucketTaxes(p);
      LineSeqsSnoc(lines);
      SumSnoc(RoundedLineTaxes(p), Round(LineTax(l)));
      TaxStep(Aggregate(p), l);
    }
  }

  /** Every bucket's tax is a whole number of cents, whatever the signs. */
  lemma {:induction false} TaxesAreCents(lines: seq<TaxLine>)
    ensures forall i :: 0 <= i < |Aggregate(lines)| ==> IsCents(Aggregate(lines)[i].steuer)
  {
    if |lines| > 0 {
      TaxesAreCents(lines[..|lines| - 1]);
    }
  }

  /**
    Two lines of category "S" at 19 percent with 100.00 and 50.00 make one
    bucket with basis 150.00 and tax 19.00 + 9.50 = 28.50.
  */
  lemma {:induction false} SameKeyExample()
    ensures var k := TaxKey(JStr("S"), 19.0);
            Aggregate([TaxLine(k, 100.0), TaxLine(k, 50.0)]) == [Bucket(k, 150.0, 28.5)]
  {
    var k := TaxKey(JStr("S"), 19.0);
    var l1, l2 := TaxLine(k, 100.0), TaxLine(k, 50.0);
    assert [l1, l2][..1] == [l1] && [l1][..0] == [];
    RoundOfCents(100.0);
    RoundOfCents(19.0);
    assert Aggregate([l1]) == [Bucket(k, 100.0, 19.0)];
    RoundOfCents(150.0);
    RoundOfCents(28.5);
  }
}

=== FILE: wrappers.dfy ===
/** Failure-compatible result types used across the invoice model. */
module Wrappers {

  /** A value that may be absent (Python `None`). */
  datatype Option<+T> = None | Some(value: T) {
    predicate IsFailure() { None? }

    function PropagateFailure<U>(): Option<U>
      requires None?
    {
      None
    }

    function Extract(): T
      requires Some?
    {
      value
    }
  }

  /** Either a value or the error that aborted the computation. */
  datatype Result<+T, +E> = Success(value: T) | Failure(error: E) {
    predicate IsFailure() { Failure? }

    function PropagateFailure<U>(): Result<U, E>
      requires Failure?
    {
      Failure(error)
    }

    function Extract(): T
      requires Success?
    {
      value
    }
  }

  /** A check that either passes or fails with an error, carrying no value. */
  datatype Outcome<+E> = Pass | Fail(error: E)

  /**
    Apply a fallible step to every element in order; the first failure
    aborts, as an exception raised inside a `for` loop does.
  */
  function MapAll<A, B, E>(xs: seq<A>, f: A -> Result<B, E>): (r: Result<seq<B>, E>)
    ensures r.Success? <==> forall i :: 0 <= i < |xs| ==> f(xs[i]).Success?
    ensures r.Success? ==> |r.value| == |xs| && forall i :: 0 <= i < |xs| ==> f(xs[i]) == Success(r.value[i])
    ensures r.Failure? ==> exists i :: 0 <= i < |xs| && f(xs[i]) == Failure(r.error)
                                       && forall j :: 0 <= j < i ==> f(xs[j]).Success?
  {
    if |xs| == 0 then Success([])
    else match f(xs[0])
      case Failure(e) => Failure(e)
      case Success(y) =>
        match MapAll(xs[1..], f)
        case Failure(e) =>
          FirstFailureShift(xs, f, e);
          Failure(e)
        case Success(ys) =>
          assert forall i :: 1 <= i < |xs| ==> xs[i] == xs[1..][i - 1];
          Success([y] + ys)
  }

  /** A first failure in the tail is a first failure of the whole list when the head succeeds. */
  lemma {:induction false} FirstFailureShift<A, B, E>(xs: seq<A>, f: A -> Result<B, E>, e: E)
    requires |xs| > 0 && f(xs[0]).Success?
    requires exists k :: 0 <= k < |xs[1..]| && f(xs[1..][k]) == Failure(e)
                         && forall j :: 0 <= j < k ==> f(xs[1..][j]).Success?
    ensures exists i :: 0 <= i < |xs| && f(xs[i]) == Failure(e) && forall j :: 0 <= j < i ==> f(xs[j]).Success?
  {
    var k :| 0 <= k < |xs[1..]| && f(xs[1..][k]) == Failure(e) && forall j :: 0 <= j < k ==> f(xs[1..][j]).Success?;
    assert f(xs[k + 1]) == Failure(e);
    assert forall j :: 1 <= j < k + 1 ==> xs[j] == xs[1..][j - 1];
  }
}
